=== FILE: README.md ===
# Multiplayer Tetris server: a verified model of its core

The server runs one Tetris game per connected client, on a field of 10 × 18
cells. Each game holds the falling piece, its rotation and position, the
settled `field`, and a `canvas` (the field with the piece drawn in). It also
keeps the points, the level and the lines still `togo` before the next
level, plus the pace (`step_time_cur`, `step_time_next`).

- Key presses (`handle_input`) and timer substeps (`handle_substep`) move
  the piece.
- A piece that cannot move down locks into the field. Full rows are then
  cleared and scored, and a new piece spawns; if the new piece collides,
  the game is lost.
- After every step the server packs the game's state into a frame for the
  client. Three packings exist (`serialize_data`, and `send_data` of two
  server revisions), and the client decodes the frame (`recv_data`).
- Client ids come from a slot registry (three revisions of
  `get_client_id`/`release_client_id`).
- Finished scores pass through a bounded circular queue (`produce`,
  `consume`) to a ten-entry high-score table, which is kept in order by
  bubble sort.

The Dafny modules follow the source:

- **Modules for the game logic:**
  - `Defs`: the constants and enumerations of `game.h`.
  - `Blocks`: the block table and the rotation geometry.
  - `Board`: the flat 180-cell field, and the functions that define row clearing.
  - `Engine`: `game.c` as pure functions over an abstract `State`, with the
    right-edge collision test that `draw_block` lacks (see Findings).
  - `Drawing`: the properties of `draw_block`.
  - `Rules`: the rules of the game, and the invariant every reachable state
    keeps.
  - `Game`: class `Session`, the imperative `struct game_state_int`. Its
    methods are proved equal to the `Engine` functions.
- **Other modules:**
  - `Overflow`: the right-edge collision finding.
  - `Registry`: the slot registries.
  - `Codec`: the frame packers.
  - `Client`: the client's key map and its receiver.
  - `Queue`: the circular buffer.
  - `Scores`: the bubble sorts and the high-score step.

**Modelling choices**

- The outside world enters as parameters:
  - Each `rand()` result is a `nat` (`r1`, `r2`).
  - A received frame is a byte sequence.
- A C `unsigned int` is the subset type `U32`, and wrap-around is written
  out: points are added modulo 2^32.
- Where the C code writes one byte past a buffer, the method as written
  runs on the buffer together with the memory after it, and a corrected
  method uses the exact bound (see Findings).
- The repository's prose describes the high-score table as sorted in
  descending order. `server.c` sorts it in ascending order, and the model
  follows the code: `Scores.Admit` is the code as written, and
  `Scores.AdmitDescending` is the described behaviour.

## Model

| member | source | states |
|---|---|---|
| Defs.InputOf | src/game.h:20-33 | a code names an input exactly when it lies in 0..11, and the input it names has that code |
| Defs.InputCodeRoundTrip | src/game.h:20-33 | every input's code maps back to the same input |
| Blocks.TableFacts | src/game.c:32-92 | every block in the table is well formed: rows × cols cells, each blank or `#`, at most 3 columns and 4 rows |
| Blocks.TableSize | src/game.c:32-93 | the table holds `num_blocks` = 7 well-formed blocks |
| Blocks.QuarterTurn | src/game.c:103-135 | the index mapping of rotation rot+1 is a quarter turn of rotation rot: width and height swap, and cell (r, c) comes from (h-1-c, r) |
| Blocks.FourCells | src/game.c:32-92 | every block has exactly four `#` cells in every rotation |
| Board.FullRowsFull | src/game.c:190-202 | every row the first loop of test_remove_lines records is full |
| Board.FullRowsComplete | src/game.c:190-202 | every full row gets recorded |
| Board.FullRowsDecreasing | src/game.c:190-202 | rows are recorded bottom-up, with strictly decreasing indices |
| Board.ClearLinesKeepsRows | src/game.c:185-218 | after clearing, the field is k blank rows above the non-full rows, in their original order |
| Board.ClearLinesNoFullRow | src/game.c:185-218 | no row is full after clearing |
| Board.ClearLinesIdle | src/game.c:185-218 | a field without full rows is left unchanged |
| Drawing.DrawCollision | src/game.c:99-150 | the corrected draw_block reports a collision iff the piece reaches below the floor, or one of its `#` cells lies right of the last column or on a non-blank field cell |
| Drawing.DrawFits | src/game.c:99-150 | the corrected draw_block reports a collision iff the piece does not fit the field |
| Drawing.DrawRenders | src/game.c:143-147 | a piece that fits is rendered into exactly the requested buffer: the field plus the piece's `#` cells |
| Drawing.DrawFrame | src/game.c:99-150 | only the target buffer changes, and only within the rows the piece spans |
| Drawing.OverlayCells | src/game.c:143-147 | after rendering, each `#` cell of the piece shows the block's character at that position |
| Rules.BlankNoFullRow | src/game.c:95-97 | a cleared field has no full row |
| Rules.SpawnPlacement | src/game.c:160-170 | a new piece is the table block rand() % 7, unrotated, on the top row, inside the right edge, and it fits a blank field |
| Rules.InitState | src/game.c:172-183 | init_game gives a blank field, the canvas with the new piece drawn in, phase in progress, 0 points, level 1, togo 1, step times 1000, and the game invariant |
| Rules.RotationsInverse | src/game.c:313-322 | counter-clockwise undoes clockwise and vice versa, and four clockwise turns are the identity |
| Rules.RotationChecked | src/game.c:269-276 | a rotation is applied iff the rotated width fits right of block_x; position and block never change; a piece inside the right edge stays inside |
| Rules.SidewaysStayInside | src/game.c:294-304 | moving left or right keeps a piece inside the right edge |
| Rules.RescaleRange | src/game.c:152-158 | FASTER and SLOWER keep step_time_next within [100, 2000] |
| Rules.RescaleInverse | src/game.c:305-312 | SLOWER undoes FASTER on even paces in [200, 2000], and FASTER undoes SLOWER on paces in [100, 1000] |
| Rules.DecayShortens | src/game.c:231 | a level-up makes the pace 7/10 of the old one (truncated), and strictly faster from 4 ms on |
| Rules.DropLands | src/game.c:340-347 | the hard-drop loop stops at the first row below the start where the piece collides, and every row before it is collision-free |
| Rules.CombosPrefix | src/game.c:207-215 | the combo count over the first n+1 recorded rows is the number of adjacent pairs among them |
| Rules.CombosSentinel | src/game.c:207-215 | with k < 4 rows and row 0 last, the combo count also counts the `-1` sentinel as adjacent |
| Rules.ScoreExamples | src/game.c:219-221 | one cleared row scores 2 × level (3 × level for the top row), and four adjacent rows score 12 × level |
| Rules.RemoveLinesField | src/game.c:185-218 | test_remove_lines leaves k blank rows above the kept rows, no row full, and the piece, canvas and pace untouched |
| Rules.RemoveNothing | src/game.c:216 | without full rows, test_remove_lines changes nothing |
| Rules.RemoveLinesCounters | src/game.c:216-236 | level stays in [1, 5]; togo stays in [1, level]; the level rises iff rows were cleared, togo ≤ k and level < 5; the phase becomes WIN exactly at the last level; points stay below 2^32 |
| Rules.LockRows | src/game.c:243-246 | drawing the piece into a field without full rows makes at most four rows full, all within the piece's rows |
| Rules.RespawnOutcome | src/game.c:247-252 | after locking, the new piece is spawned on the unchanged field; the phase becomes LOSE iff it does not fit; the counters are kept |
| Rules.LockOutcome | src/game.c:239-252 | locking yields the cleared field with the piece drawn in and a new piece; the phase is LOSE if that piece does not fit, otherwise WIN if the last level was completed |
| Rules.UpdateMoves | src/game.c:256-265 | a move that fits replaces the piece and redraws the canvas from the field |
| Rules.UpdateRefuses | src/game.c:239-255 | a move that collides locks the piece when it is a down move, and otherwise only points the view at the canvas |
| Rules.FieldOnlyOnLock | src/game.c:239-267 | the field changes only when a down move collides |
| Rules.InvLock | src/game.c:239-252 | locking keeps the game invariant |
| Rules.InvUpdate | src/game.c:239-267 | update_state keeps the game invariant |
| Rules.InvDrop | src/game.c:340-347 | the hard drop keeps the invariant, and it moves the piece to the lowest collision-free row straight below it |
| Rules.InvPrepare | src/game.c:278-350 | every input's preparation keeps the invariant |
| Rules.InvDispatch | src/game.c:278-358 | every input keeps the invariant |
| Rules.InvHandleInput | src/game.c:278-358 | handle_input keeps the invariant for every code |
| Rules.IgnoredInputs | src/game.c:282-285 | while paused, every input except PAUSE is ignored and returns NULL; so is an unknown code (src/game.c:351-354) |
| Rules.KnownKey | src/game.c:278-358 | a known code is dispatched as its input |
| Rules.PauseStops | src/game.c:331-335 | PAUSE in progress stops the game, changes nothing else and returns NULL |
| Rules.PauseResumes | src/game.c:331-339 | PAUSE while stopped resumes the game and hands out the redrawn canvas |
| Rules.PauseMove | src/game.c:331-339 | resuming passes the unchanged piece to update_state as a non-down move |
| Rules.RestartInits | src/game.c:327-330 | RESTART re-initialises the game and returns NULL |
| Rules.DispatchCommits | src/game.c:287-357 | every other input goes through update_state and hands out the state |
| Rules.HardDrop | src/game.c:340-347 | DOWN_INSTANT locks the piece at its landing row |
| Rules.SubstepPaused | src/game.c:363-366 | a paused game ignores substeps and returns NULL |
| Rules.SubstepCounts | src/game.c:368-371 | above one granularity, a substep only counts down the step time |
| Rules.SubstepFalls | src/game.c:372-380 | otherwise it reloads the step time and moves the piece one row down |
| Rules.InvReload | src/game.c:368-374 | counting down and reloading keep the invariant |
| Rules.InvFall | src/game.c:372-380 | the timed fall keeps the invariant |
| Rules.InvHandleSubstep | src/game.c:360-381 | handle_substep keeps the invariant |
| Game.CurrentPoints | src/game.c:219-221 | `cur_points * level`, with the combo counter after its final increment, is the score formula ((1 << p) + k) × level |
| Game.ClearedRows | src/game.c:185-236 | collapsing the recorded rows and blanking k top rows is `Board.ClearLines`, scored by `Engine.Score` |
| Game.RowIsFull | src/game.c:192-198 | the inner scan reports exactly whether row i has no blank cell |
| Game.FindLines | src/game.c:187-202 | the first loop records exactly the full rows, bottom-up, in `lines[0 .. idx)` |
| Game.Session.DrawBlock | src/game.c:99-150 | the loop nest of the corrected draw_block (a cell right of the last column collides) returns the collision and the buffers that `Engine.Draw` gives |
| Game.Session.DrawCell | src/game.c:114-147 | one cell of the corrected loop nest either stops with `Engine.Scan`'s result or continues the scan at the next column |
| Game.Session.ChangeStepTime | src/game.c:152-158 | only step_time_next changes, scaled by 0.5 or 2 and clamped to [100, 2000] |
| Game.Session.NewBlock | src/game.c:160-170 | spawns the piece and draws it onto the canvas; returns whether it collided |
| Game.Session.InitGame | src/game.c:172-183 | the session becomes the initial game state |
| Game.Session.constructor | src/game.c:172-183 | a slot as child_process first uses it, after its `init_game` call (src/server.c:407): the session is the initial game state |
| Game.Session.CollapseRows | src/game.c:207-215 | the memmove loop collapses the recorded rows, and the combo counter counts adjacent ones |
| Game.Session.TestRemoveLines | src/game.c:185-237 | the session afterwards is `Engine.RemoveLines` of the session before |
| Game.Session.BlankRows | src/game.c:218 | the memset blanks the top k rows and nothing else |
| Game.Session.Award | src/game.c:219-235 | points, level, togo, pace and phase are updated as `Engine.Score` says |
| Game.Session.Probe | src/game.c:243 | the collision probe is `Engine.Collides`, with no buffer changed |
| Game.Session.CopyField | src/game.c:248 | the canvas becomes a copy of the field, and nothing else changes |
| Game.Session.LockPiece | src/game.c:244-252 | the lock path is `Engine.Lock`: draw into the field, clear rows, sync the canvas, spawn, and LOSE on collision |
| Game.Session.SetLost | src/game.c:249-252 | the phase becomes LOSE iff the spawn collided, and the view points at the field |
| Game.Session.Place | src/game.c:261-264 | the piece is replaced and the canvas becomes the field plus the piece |
| Game.Session.UpdateState | src/game.c:239-267 | update_state changes the session exactly as `Engine.UpdateState` |
| Game.Session.DropDown | src/game.c:340-347 | the hard-drop loop ends with the candidate on the landing row, the piece one row above it, and nothing else changed |
| Game.Session.PrepareMove | src/game.c:287-350 | the switch produces the candidate piece and down flag of `Engine.Prepare`, for every input |
| Game.Session.Dispatch | src/game.c:287-357 | one input changes the session, and returns the view, as `Engine.Dispatch` |
| Game.Session.HandleInput | src/game.c:278-358 | handle_input changes the session, and returns the view or NULL, as `Engine.HandleInput` |
| Game.Session.HandleSubstep | src/game.c:360-381 | handle_substep changes the session, and returns the view or NULL, as `Engine.HandleSubstep` |
| Game.Session.Fall | src/game.c:372-380 | reloads the step time and performs one down move through update_state |
| Overflow.WrapReachable | src/game.c:323-326 | from a spawned I piece in column 8, RIGHT then CHEAT yield a Z block whose box crosses the right edge |
| Overflow.WrapAccepted | src/game.c:140-142 | as written, that Z in column 9 of a blank field passes the collision check (its cell at column 10 reads row 1, column 0), while the corrected check rejects it |
| Registry.FirstFree | src/common.c:41-49 | the lowest free slot: free, with every slot below it in use, or -1 iff all are in use |
| Registry.LastFree | src/server.c:287-294 | the highest free slot, or -1 iff all are in use |
| Registry.Released | src/common.c:59-76 | releasing clears exactly the flag `id`; an id ≥ CLIENTS_MAX changes nothing |
| Registry.ReleaseIdempotent | src/common.c:59-76 | releasing twice is releasing once |
| Registry.AcquireRelease | src/common.c:32-76 | acquiring and then releasing the returned id restores the flags |
| Registry.FirstFitSlots.constructor | src/common.c:10 | all slots start free |
| Registry.FirstFitSlots.Acquire | src/common.c:32-57 | returns the lowest free slot and marks only it, or returns -1 and changes nothing |
| Registry.FirstFitSlots.Release | src/common.c:59-76 | the flags become the released flags |
| Registry.GreedySlots.constructor | src/server.c:33 | all slots start free |
| Registry.GreedySlots.Acquire | src/server.c:279-301 | returns the highest free slot, and marks every slot in use |
| Registry.GreedySlots.Release | src/server.c:306-321 | the flags become the released flags |
| Registry.GreedyLocksOut | src/server.c:287-294 | within one process, with all slots free, the greedy scan hands out slot 4 (first fit hands out 0); once all are marked, the next call gets -1 |
| Registry.EachChildFirstCall | src/server.c:121-132 | each connection's single call, made in a child forked from the never-written parent table, gets id 4 from the greedy scan and id 0 from the older server's counter |
| Registry.CounterStep | src/server/server.c:161-164 | the counter never decreases, and stays within CLIENTS_MAX |
| Registry.HandedInOrder | src/server/server.c:153-171 | successive calls in one process to the counter registry hand out c, c+1, … up to CLIENTS_MAX-1 and -1 after that |
| Registry.NeverReused | src/server/server.c:161-164 | no id is handed out twice by successive calls in one process |
| Registry.CounterSlots.constructor | src/server/server.c:18 | the counter starts at 0 |
| Registry.CounterSlots.Acquire | src/server/server.c:153-171 | returns the next id of the sequence and advances the counter |
| Codec.Le32RoundTrip | src/common.c:94-107 | the four shifted bytes of a counter, recombined with shifts and OR, give the counter back |
| Codec.PhaseOfByte | src/common.c:89 | a decoded phase byte is the byte of that phase |
| Codec.PhaseRoundTrip | src/common.c:89 | every phase survives as its byte |
| Codec.CellRoundTrip | src/common.c:109-113 | a single-byte field character survives the frame |
| Codec.FrameRoundTrip | src/common.c:85-114 | decoding serialize_data's frame gives back phase, points, level, togo and every cell |
| Codec.PutHeader | src/common.c:89-107 | data[0 .. 15] become the phase, three zero bytes and the three counters little-endian; the rest of the buffer is kept |
| Codec.SerializeData | src/common.c:85-114 | with the loop bounded by `<`, the buffer becomes the frame: the header, then the cells |
| Codec.SerializeAsWritten | src/common.c:85-114 | as written, the FIELD_SIZE + 16 bytes become the frame, and the byte after the buffer receives the character one past the field |
| Codec.CopyCells | src/server/server.c:199-203 | the `i < FIELD_SIZE` loop: cell i goes to data[at + i], and every byte outside those FIELD_SIZE is kept |
| Codec.CopyCellsThrough | src/common.c:109-113 | the `i <= FIELD_SIZE` loop: FIELD_SIZE + 1 characters go to data[at .. at + FIELD_SIZE], the last from one past the field; every other byte is kept |
| Codec.MaskedLow | src/server.c:337 | the low mask keeps the low byte |
| Codec.MaskedHigh | src/server.c:338-340 | the three higher masks store 0 in a char |
| Codec.HighBytes | src/server.c:337-350 | each counter is packed as its low byte followed by three zeros |
| Codec.MaskedFrameDecodes | src/server.c:327-350 | a receiver decodes each counter of this frame modulo 256 |
| Codec.MaskedLosesPoints | src/server.c:337-340 | 256 points arrive as 0, where serialize_data's frame carries 256 |
| Codec.PutMaskedHeader | src/server.c:332-350 | data[0 .. 15] become the phase, three zero bytes and the masked bytes of the three counters; the rest of the buffer is kept |
| Codec.SendData | src/server.c:327-356 | with the loop bounded by `<`, the buffer becomes the masked frame |
| Codec.SendDataAsWritten | src/server.c:327-358 | as written, the FIELD_SIZE + 16 bytes sent are the masked frame, and the byte after the buffer receives the character one past the field |
| Codec.PackLegacy | src/server/server.c:179-203 | the stores make the first FIELD_SIZE + 13 bytes the 13-byte-header frame, with the cells from index 13; whatever follows is kept |
| Codec.SendLegacyAsWritten | src/server/server.c:177-205 | as written, the last cell lands at index FIELD_SIZE + 12, past the FIELD_SIZE + 12 buffer, and the FIELD_SIZE + 16 bytes sent are the frame followed by three bytes of the memory after it |
| Codec.SendLegacy | src/server/server.c:177-205 | with a FIELD_SIZE + 13 buffer, exactly the frame is stored and sent |
| Codec.LegacyLowBytes | src/server/server.c:182-197 | only bytes 1, 5 and 9 of the header can be non-zero (the low bytes of the counters) |
| Codec.LegacyDecodes | src/server/server.c:179-205 | a decoder with bitwise OR (the corrected client) reads the older frame three bytes early: points is the level's low byte × 256, level the togo's low byte × 256, togo the first three cells, and the field is cells 3 .. 179 followed by the three bytes past the frame |
| Codec.LegacyMisreadsStart | src/server/server.c:182-190 | a game at 0 points and level 1 reaches a decoder with bitwise OR as 256 points |
| Client.KeyInputActive | src/client/client.c:178-201 | only the four arrow keys, 'r' and the space bar send an input other than VOID |
| Client.KeyInputSent | src/client/client.c:178-201 | every key sends a valid input code (so handle_input's default branch is never taken), and never CCLOCK, CHEAT, PAUSE, FASTER or SLOWER |
| Client.AnySet | src/client/client.c:230-233 | the logical OR yields 1 iff any of the four bytes is non-zero, and 0 otherwise |
| Client.AnySetIsNonZero | src/client/client.c:230-233 | the logical OR is 1 exactly when the bitwise decoding is non-zero |
| Client.SignedByte | src/client/client.c:230 | a byte read as a signed char is congruent to it modulo 256, and lies in [-128, 128) |
| Client.SignedPhase | src/common.c:89 | the phase byte read as a signed char is the phase's code |
| Client.Receiver.constructor | src/client/client.c:142-150 | the client starts with a zeroed state and a blank field |
| Client.Receiver.RecvData | src/client/client.c:218-240 | as written, every header field becomes 0 or 1, and the field becomes the frame's cells |
| Client.Receiver.Receive | src/client/client.c:218-240 | with bitwise OR in place of logical OR, and the phase byte read as a signed char, the header fields become the decoded phase and counters |
| Client.Receiver.CopyCells | src/client/client.c:235-239 | field[i] = data[16 + i] for every i < FIELD_SIZE |
| Client.RecvSerialized | src/client/client.c:230-233 | on serialize_data's frame, a counter arrives as 1 iff it is non-zero, and the phase as 1 unless the game was won |
| Client.RecvLosesPoints | src/client/client.c:230-233 | 2 points arrive as 1, and a game in progress arrives as stopped |
| Client.ReceiveRoundTrip | src/client/client.c:218-240 | the corrected decoding inverts serialize_data |
| Client.LegacyRecvData | src/client/client.c:230-233 | on the older server's frame, recv_data as written collapses words read three bytes early: the points show 1 exactly when the level's low byte is non-zero, the level exactly when the togo's is, the togo exactly when one of the first three cells is, and the phase exactly unless the game is won with a points low byte of 0 |
| Client.LegacyRecvStart | src/client/client.c:230-233 | a game at 0 points and level 1 sent by the older server is shown as 1 point, where a decoder with bitwise OR reads 256 |
| Queue.Count | src/queues.c:24 | fewer than 50 values are held, and none exactly when in == out |
| Queue.FullTest | src/queues.c:51-52 | the wait condition of produce holds iff (in + 1) % 50 == out, iff 49 values are held |
| Queue.WindowPush | src/queues.c:58-59 | storing at in and advancing it appends the value to the contents |
| Queue.WindowPop | src/queues.c:30-32 | the value at out is the oldest; zeroing it and advancing out drops it from the front |
| Queue.RingBuffer.constructor | src/queues.c:14-16 | the buffer starts zeroed and empty |
| Queue.RingBuffer.Produce | src/queues.c:45-69 | only buffer[in] is written and in advances modulo 50; the contents gain the value at the end |
| Queue.RingBuffer.Consume | src/queues.c:18-43 | returns the oldest value, zeroes its slot, advances only out, and leaves the rest of the contents in order |
| Scores.Swap | src/common.c:24-26 | the two neighbours swap places, a permutation |
| Scores.Step | src/common.c:19-28 | one inner iteration keeps the tail and the partition, and carries the extreme entry forward |
| Scores.Pass | src/common.c:19-28 | an inner pass leaves in the last slot of the range an entry every earlier one may precede, without touching the tail |
| Scores.PassExtends | src/common.c:17-29 | after a pass the ordered tail grows by one |
| Scores.BubbleSort | src/common.c:13-30 | the list ends up sorted and a permutation of its input |
| Scores.SortDescending | src/common.c:13-30 | common.c's sort leaves a non-empty list non-increasing and a permutation |
| Scores.SortAscending | src/server.c:245-262 | server.c's sort leaves the list non-decreasing and a permutation |
| Scores.Admit | src/server.c:211-222 | a score above the last entry replaces it, and the table is re-sorted in ascending order; any other score changes nothing |
| Scores.AdmitDescending | src/server.c:210-222 | the same step on a descending table: a score above the lowest entry replaces it |
| Scores.LastEntryDropped | src/server.c:211-222 | replacing the last entry of a sorted table removes exactly that entry, which is the maximum of an ascending table and the minimum of a descending one |
| Scores.AdmitLosesMaximum | src/server.c:211-222 | in an ascending table whose top entry is unique, admitting a higher score loses the old best score |
| Scores.AdmitExample | src/server.c:211-222 | nine zeros and a 5, then 7: as written the 5 is lost, while the descending table keeps it |

## Left out

- Sockets, `fork`/`accept` loops, command-line handling, ncurses drawing and `vt100_arrowkeys.c` are left out, because they are I/O. A received frame enters as a byte sequence.
- Threads, mutexes and condition variables are left out. Each critical section is one atomic method. The blocking waits of `produce`/`consume` become their preconditions, and the error returns of the pthread calls are not modelled.
- The SysV message queue between game threads and the score writer is left out, and so is the high-score file, which is opened `"w+"` and so truncated before it is read. This is foreign IPC and file I/O.
- `rand()` is left out: its results are parameters.
- `time_in_ms` and the scheduling of substeps every 100 ms are left out. Each substep is one call.
- The `gstates[CLIENTS_MAX]` array only selects a session. It is modelled as one `Game.Session` object per slot.
- The `0.7f` float factor of a level-up is modelled as `t * 7 / 10`. For every pace the game can reach (at most 4000 before clamping), this equals the truncated single-precision product. FASTER (0.5f) and SLOWER (2.0f) are exact.
- The stderr messages are left out.
- The unreachable `default:` rotation branch of `draw_block` (which calls `exit`) is left out. Rotations are the subset type 0..3.
- Scores.SortDescending: requires a non-empty list, because `n - 1` wraps for a `size_t` n of 0. server.c's variant, with `long n`, handles the empty list.
- Client.Receiver.RecvData: takes the whole FIELD_SIZE + 16-byte buffer. A short `recv` leaves the zero-initialised tail, which the caller passes as zeros.
- Game.Session.TestRemoveLines: requires at most four full rows, because `lines[4]` holds four. Locking a piece into a field without full rows never produces more (`Rules.LockRows`), and every reachable field has none (`Rules.Inv`).
- The packers as written (`Codec.SerializeAsWritten`, `Codec.SendDataAsWritten`, `Codec.SendLegacyAsWritten`) run on the buffer together with the memory after it. What that memory holds, and the character one past the field, are parameters, because they depend on the C stack and struct layout.
- Drawing.DrawCollision / Engine.Scan: the whole engine, the `Game.Session` methods and the invariant `Rules.Inv` use the corrected right-edge test, so every `Rules` and `Game` result describes the corrected game. As written, CHEAT across the right edge can place a piece wrapped onto the next row (`Overflow.WrapAccepted`); the model does not follow such a game further.
- The zero-filled `gstates` slot before `init_game` (phase 0, NUL cells, a NULL field pointer) is not modelled. A `Game.Session` starts as the state `init_game` gives, which is how `child_process` first uses its slot.
- Registry: both servers call `get_client_id` in the forked child (src/server.c:132, src/server/server.c:101), and the parent never writes the table or counter. Each registry property therefore holds for successive calls within one process only. Across clients, every call starts from the parent's initial state (`Registry.EachChildFirstCall`), so concurrent clients hold the same id, each in its own process with its own copy of the game slots.

## Findings

| source | as written | input that shows it | evidently intended | confidence | as-written member | corrected member |
|---|---|---|---|---|---|---|
| src/game.c:140-142 | the collision test reads `field[y+r][x+c]` without checking `x+c < FIELD_WIDTH`, so a cell right of the last column reads the first cell of the next row | an I piece spawned in column 8, RIGHT to column 9, then CHEAT to a Z: its cell at column 10 reads row 1, column 0, which is blank, so the piece is accepted and is drawn wrapped across two rows | a cell right of the last column collides | not executed | Overflow.WrapAccepted | Drawing.DrawCollision |
| src/common.c:109 | `for (i = 0; i <= FIELD_SIZE; i++) data[i + 16] = …` | every call: the last write is `data[196]` in a 196-byte buffer, copied from one cell past the field | `i < FIELD_SIZE` | not executed | Codec.SerializeAsWritten | Codec.SerializeData |
| src/server.c:337-350 | counters are masked but never shifted, so the bytes above the lowest store 0 | 256 points arrive as 0 | `(char)(points >> 8)` etc., as in serialize_data | not executed | Codec.MaskedLosesPoints | Codec.FrameRoundTrip |
| src/server.c:352 | the same `i <= FIELD_SIZE` loop | every call writes `data[196]` in a 196-byte buffer | `i < FIELD_SIZE` | not executed | Codec.SendDataAsWritten | Codec.SendData |
| src/server/server.c:179-205 | cells start at `data[13]` in a `FIELD_SIZE + 12` buffer, and `FIELD_SIZE + 16` bytes are sent | every call writes `data[192]` in a 192-byte buffer and sends 4 bytes past it; a fresh game (0 points, level 1) is then shown by the client as written as 1 point, and read by a decoder with bitwise OR as 256 | a buffer of FIELD_SIZE + 13 bytes, sending that many | not executed | Codec.SendLegacyAsWritten | Codec.SendLegacy |
| src/client/client.c:230-233 | header fields are combined with logical OR, so each becomes 0 or 1 | 2 points arrive as 1, and a game in progress (phase 2) arrives as stopped (1) | bitwise OR, with the phase byte read as a signed char | not executed | Client.RecvLosesPoints | Client.ReceiveRoundTrip |
| src/server.c:287-294 | the scan has no `break`, so it marks every free slot in use and returns the highest | two successive calls in one process, with all slots free, return 4, then -1; server.c makes each call in a fresh forked child whose table is all free, so across clients every one gets id 4 and the missing `break` has no visible effect | stop at the first free slot | not executed | Registry.GreedyLocksOut | Registry.FirstFitSlots.Acquire |
| src/server.c:211-222 | the table is kept ascending, so `high_score[9]` is the highest entry, not the lowest the comment names; a new best score evicts the old best | table of nine zeros and 5, score 7: the 5 is lost | keep the table descending (as common.c's sort does), so the lowest entry is replaced | not executed | Scores.AdmitLosesMaximum | Scores.AdmitDescending |

=== FILE: blocks.dfy ===
/** The seven tetromino shapes and the geometry of their four rotations.
    A shape is a `rows` x `cols` character matrix stored row by row, where
    `'#'` marks a cell of the piece and `' '` an empty one. */
module Blocks {

  datatype Block = Block(name: char, cols: nat, rows: nat, m: string)

  const Z := Block('Z', 3, 2, "##  ##")
  const L := Block('L', 3, 2, "####  ")
  const T := Block('T', 3, 2, "### # ")
  const O := Block('O', 2, 2, "####")
  const J := Block('J', 3, 2, "#  ###")
  const S := Block('S', 3, 2, " #### ")
  const I := Block('I', 1, 4, "####")

  /** The shape table, in the order the random selection indexes it. */
  const Table: seq<Block> := [Z, L, T, O, J, S, I]
  const NumBlocks: nat := 7

  /** A discrete rotation: 0, 1, 2 or 3 quarter turns. */
  type Rot = r: int | 0 <= r < 4

  predicate WellFormed(b: Block) {
    1 <= b.cols && 1 <= b.rows && |b.m| == b.rows * b.cols
  }

  lemma TableFacts(b: Block)
    requires b in Table
    ensures WellFormed(b)
    ensures b.cols <= 3 && b.rows <= 4
    ensures forall k :: 0 <= k < |b.m| ==> b.m[k] == ' ' || b.m[k] == '#'
  {
  }

  lemma TableSize()
    ensures |Table| == NumBlocks
    ensures forall k :: 0 <= k < |Table| ==> WellFormed(Table[k])
  {
  }

  /** Height and width of the rotated bounding box. */
  function BoxHeight(b: Block, rot: Rot): nat {
    if rot % 2 == 1 then b.cols else b.rows
  }

  function BoxWidth(b: Block, rot: Rot): nat {
    if rot % 2 == 1 then b.rows else b.cols
  }

  /** The matrix cell (row, column) that cell (r, c) of the rotated box shows. */
  function Src(b: Block, rot: Rot, r: int, c: int): (int, int) {
    match rot
    case 0 => (r, c)
    case 1 => (b.rows - 1 - c, r)
    case 2 => (b.rows - 1 - r, b.cols - 1 - c)
    case 3 => (c, b.cols - 1 - r)
  }

  /** The rotated-box cell that shows matrix cell (sr, sc): the inverse of Src. */
  function Dst(b: Block, rot: Rot, sr: int, sc: int): (int, int) {
    match rot
    case 0 => (sr, sc)
    case 1 => (sc, b.rows - 1 - sr)
    case 2 => (b.rows - 1 - sr, b.cols - 1 - sc)
    case 3 => (b.cols - 1 - sc, sr)
  }

  lemma MatrixIndex(b: Block, sr: int, sc: int)
    requires WellFormed(b) && 0 <= sr < b.rows && 0 <= sc < b.cols
    ensures 0 <= sr * b.cols + sc < |b.m|
  {
    assert sr * b.cols <= (b.rows - 1) * b.cols;
  }

  /** The character at cell (r, c) of the shape rotated `rot` quarter turns. */
  function ShapeAt(b: Block, rot: Rot, r: int, c: int): char
    requires WellFormed(b)
    requires 0 <= r < BoxHeight(b, rot) && 0 <= c < BoxWidth(b, rot)
  {
    var (sr, sc) := Src(b, rot, r, c);
    MatrixIndex(b, sr, sc);
    b.m[sr * b.cols + sc]
  }

  /** Every rotation maps its box one-to-one onto the shape matrix: Src lands
      in the matrix and Dst takes it back to the same box cell ... */
  lemma SrcInMatrix(b: Block, rot: Rot, r: int, c: int)
    requires 0 <= r < BoxHeight(b, rot) && 0 <= c < BoxWidth(b, rot)
    ensures 0 <= Src(b, rot, r, c).0 < b.rows && 0 <= Src(b, rot, r, c).1 < b.cols
    ensures Dst(b, rot, Src(b, rot, r, c).0, Src(b, rot, r, c).1) == (r, c)
  {
  }

  /** ... and every matrix cell is shown by exactly the box cell Dst gives. */
  lemma DstInBox(b: Block, rot: Rot, sr: int, sc: int)
    requires 0 <= sr < b.rows && 0 <= sc < b.cols
    ensures 0 <= Dst(b, rot, sr, sc).0 < BoxHeight(b, rot) && 0 <= Dst(b, rot, sr, sc).1 < BoxWidth(b, rot)
    ensures Src(b, rot, Dst(b, rot, sr, sc).0, Dst(b, rot, sr, sc).1) == (sr, sc)
  {
  }

  /** Rotation `rot + 1` is rotation `rot` turned a quarter clockwise. */
  lemma QuarterTurn(b: Block, rot: Rot, r: int, c: int)
    requires WellFormed(b)
    requires 0 <= r < BoxHeight(b, (rot + 1) % 4) && 0 <= c < BoxWidth(b, (rot + 1) % 4)
    ensures BoxHeight(b, (rot + 1) % 4) == BoxWidth(b, rot)
    ensures BoxWidth(b, (rot + 1) % 4) == BoxHeight(b, rot)
    ensures ShapeAt(b, (rot + 1) % 4, r, c) == ShapeAt(b, rot, BoxHeight(b, rot) - 1 - c, r)
  {
    var q := (rot + 1) % 4;
    assert q == if rot == 3 then 0 else rot + 1;
    assert Src(b, q, r, c) == Src(b, rot, BoxHeight(b, rot) - 1 - c, r);
  }

  /** Number of piece cells in row r of the rotated box, from column c on. */
  function CountRow(b: Block, rot: Rot, r: nat, c: nat): nat
    requires WellFormed(b) && r < BoxHeight(b, rot)
    decreases BoxWidth(b, rot) - c
  {
    if c >= BoxWidth(b, rot) then 0
    else (if ShapeAt(b, rot, r, c) != ' ' then 1 else 0) + CountRow(b, rot, r, c + 1)
  }

  /** Number of piece cells in the rotated box, from row r on. */
  function CountCells(b: Block, rot: Rot, r: nat): nat
    requires WellFormed(b)
    decreases BoxHeight(b, rot) - r
  {
    if r >= BoxHeight(b, rot) then 0 else CountRow(b, rot, r, 0) + CountCells(b, rot, r + 1)
  }

  /** The four cells of each shape in each rotation, counted one by one. */
  lemma CellsZ0() ensures CountCells(Z, 0, 0) == 4 {}
  lemma CellsZ1() ensures CountCells(Z, 1, 0) == 4 {}
  lemma CellsZ2() ensures CountCells(Z, 2, 0) == 4 {}
  lemma CellsZ3() ensures CountCells(Z, 3, 0) == 4 {}
  lemma CellsL0() ensures CountCells(L, 0, 0) == 4 {}
  lemma CellsL1() ensures CountCells(L, 1, 0) == 4 {}
  lemma CellsL2() ensures CountCells(L, 2, 0) == 4 {}
  lemma CellsL3() ensures CountCells(L, 3, 0) == 4 {}
  lemma CellsT0() ensures CountCells(T, 0, 0) == 4 {}
  lemma CellsT1() ensures CountCells(T, 1, 0) == 4 {}
  lemma CellsT2() ensures CountCells(T, 2, 0) == 4 {}
  lemma CellsT3() ensures CountCells(T, 3, 0) == 4 {}
  lemma CellsO0() ensures CountCells(O, 0, 0) == 4 {}
  lemma CellsO1() ensures CountCells(O, 1, 0) == 4 {}
  lemma CellsO2() ensures CountCells(O, 2, 0) == 4 {}
  lemma CellsO3() ensures CountCells(O, 3, 0) == 4 {}
  lemma CellsJ0() ensures CountCells(J, 0, 0) == 4 {}
  lemma CellsJ1() ensures CountCells(J, 1, 0) == 4 {}
  lemma CellsJ2() ensures CountCells(J, 2, 0) == 4 {}
  lemma CellsJ3() ensures CountCells(J, 3, 0) == 4 {}
  lemma CellsS0() ensures CountCells(S, 0, 0) == 4 {}
  lemma CellsS1() ensures CountCells(S, 1, 0) == 4 {}
  lemma CellsS2() ensures CountCells(S, 2, 0) == 4 {}
  lemma CellsS3() ensures CountCells(S, 3, 0) == 4 {}
  lemma CellsI0() ensures CountCells(I, 0, 0) == 4 {}
  lemma CellsI1() ensures CountCells(I, 1, 0) == 4 {}
  lemma CellsI2() ensures CountCells(I, 2, 0) == 4 {}
  lemma CellsI3() ensures CountCells(I, 3, 0) == 4 {}

  lemma AnyRotation(b: Block, rot: Rot)
    requires WellFormed(b)
    requires CountCells(b, 0, 0) == 4 && CountCells(b, 1, 0) == 4
    requires CountCells(b, 2, 0) == 4 && CountCells(b, 3, 0) == 4
    ensures CountCells(b, rot, 0) == 4
  {
    if rot == 0 {} else if rot == 1 {} else if rot == 2 {} else {}
  }

  lemma FourCellsZ()
    ensures WellFormed(Z)
    ensures CountCells(Z, 0, 0) == 4 && CountCells(Z, 1, 0) == 4
    ensures CountCells(Z, 2, 0) == 4 && CountCells(Z, 3, 0) == 4
  {
    CellsZ0(); CellsZ1(); CellsZ2(); CellsZ3();
  }

  lemma FourCellsL()
    ensures WellFormed(L)
    ensures CountCells(L, 0, 0) == 4 && CountCells(L, 1, 0) == 4
    ensures CountCells(L, 2, 0) == 4 && CountCells(L, 3, 0) == 4
  {
    CellsL0(); CellsL1(); CellsL2(); CellsL3();
  }

  lemma FourCellsT()
    ensures WellFormed(T)
    ensures CountCells(T, 0, 0) == 4 && CountCells(T, 1, 0) == 4
    ensures CountCells(T, 2, 0) == 4 && CountCells(T, 3, 0) == 4
  {
    CellsT0(); CellsT1(); CellsT2(); CellsT3();
  }

  lemma FourCellsO()
    ensures WellFormed(O)
    ensures CountCells(O, 0, 0) == 4 && CountCells(O, 1, 0) == 4
    ensures CountCells(O, 2, 0) == 4 && CountCells(O, 3, 0) == 4
  {
    CellsO0(); CellsO1(); CellsO2(); CellsO3();
  }

  lemma FourCellsJ()
    ensures WellFormed(J)
    ensures CountCells(J, 0, 0) == 4 && CountCells(J, 1, 0) == 4
    ensures CountCells(J, 2, 0) == 4 && CountCells(J, 3, 0) == 4
  {
    CellsJ0(); CellsJ1(); CellsJ2(); CellsJ3();
  }

  lemma FourCellsS()
    ensures WellFormed(S)
    ensures CountCells(S, 0, 0) == 4 && CountCells(S, 1, 0) == 4
    ensures CountCells(S, 2, 0) == 4 && CountCells(S, 3, 0) == 4
  {
    CellsS0(); CellsS1(); CellsS2(); CellsS3();
  }

  lemma FourCellsI()
    ensures WellFormed(I)
    ensures CountCells(I, 0, 0) == 4 && CountCells(I, 1, 0) == 4
    ensures CountCells(I, 2, 0) == 4 && CountCells(I, 3, 0) == 4
  {
    CellsI0(); CellsI1(); CellsI2(); CellsI3();
  }

  /** Every rotation of every shape covers exactly four cells. */
  lemma FourCells(b: Block, rot: Rot)
    requires b in Table
    ensures WellFormed(b) && CountCells(b, rot, 0) == 4
  {
    if b == Z { FourCellsZ(); }
    else if b == L { FourCellsL(); }
    else if b == T { FourCellsT(); }
    else if b == O { FourCellsO(); }
    else if b == J { FourCellsJ(); }
    else if b == S { FourCellsS(); }
    else { FourCellsI(); }
    AnyRotation(b, rot);
  }
}

=== FILE: board.dfy ===
/** The play field as the C code lays it out in memory: 18 rows of
    10 cells, row after row, in one flat sequence.  This module holds
    the row-level operations of line clearing (`memmove` of the rows above a
    full row, `memset` of the top rows) and the proof that together they
    remove exactly the full rows. */
module Board {
  import opened Defs

  /** Offset of cell (row r, column c) in the flat field. */
  function Idx(r: int, c: int): int {
    r * 10 + c
  }

  /** Row r of a flat field. */
  function Row(f: seq<char>, r: nat): seq<char>
    requires (r + 1) * 10 <= |f|
  {
    f[r * 10 .. r * 10 + 10]
  }

  /** A row is full when none of its cells is blank. */
  predicate RowFull(f: seq<char>, r: nat)
    requires (r + 1) * 10 <= |f|
  {
    Blank !in Row(f, r)
  }

  /** No row of the field is full. */
  ghost predicate NoFullRow(f: seq<char>) {
    forall r: nat :: (r + 1) * 10 <= |f| ==> !RowFull(f, r)
  }

  function Spaces(n: nat): (s: seq<char>)
    ensures |s| == n && forall i :: 0 <= i < n ==> s[i] == Blank
  {
    seq(n, _ => Blank)
  }

  /** The full rows among rows n .. 18-1, bottom row first: the order
      in which the scan of test_remove_lines finds them. */
  function FullRows(f: seq<char>, n: nat): (rows: seq<int>)
    requires |f| == 180
    ensures forall i :: 0 <= i < |rows| ==> n <= rows[i] < 18
    ensures |rows| <= 18 - n || n > 18
    decreases 18 - n
  {
    if n >= 18 then []
    else FullRows(f, n + 1) + (if RowFull(f, n) then [n] else [])
  }

  /** `memmove(field[1], field[0], 10 * l)`: rows 0 .. l-1 move one row
      down, row l is overwritten, row 0 and the rows below l stay. */
  function Shift(f: seq<char>, l: nat): (g: seq<char>)
    requires l < 18 && |f| == 180
    ensures |g| == 180
  {
    seq(|f|, k requires 0 <= k < |f| =>
      if 10 <= k < 10 + 10 * l then f[k - 10] else f[k])
  }

  /** The second loop of test_remove_lines: the listed rows are removed from
      the last entry (the topmost row) to the first. */
  function Collapse(f: seq<char>, lines: seq<int>): (g: seq<char>)
    requires |f| == 180
    requires forall i :: 0 <= i < |lines| ==> 0 <= lines[i] < 18
    ensures |g| == 180
    decreases |lines|
  {
    if lines == [] then f
    else Collapse(Shift(f, lines[|lines| - 1]), lines[..|lines| - 1])
  }

  /** `memset(field[0], ' ', 10 * k)`: the top k rows become blank. */
  function BlankTop(f: seq<char>, k: nat): (g: seq<char>)
    requires k <= 18 && |f| == 180
    ensures |g| == 180
  {
    seq(|f|, i requires 0 <= i < |f| => if i < 10 * k then Blank else f[i])
  }

  /** The rows 0 .. n-1 that are not full, top to bottom, concatenated. */
  function Keep(f: seq<char>, n: nat): (s: seq<char>)
    requires n <= 18 && |f| == 180
    ensures |s| <= n * 10
  {
    if n == 0 then []
    else Keep(f, n - 1) + (if RowFull(f, n - 1) then [] else Row(f, n - 1))
  }

  /** What test_remove_lines does to the field. */
  function ClearLines(f: seq<char>): (g: seq<char>)
    requires |f| == 180
    ensures |g| == 180
  {
    var lines := FullRows(f, 0);
    BlankTop(Collapse(f, lines), |lines|)
  }

  /** Every listed row is full. */
  lemma {:induction false} FullRowsFull(f: seq<char>, n: nat)
    requires |f| == 180
    ensures forall i :: 0 <= i < |FullRows(f, n)| ==> RowFull(f, FullRows(f, n)[i])
    decreases 18 - n
  {
    if n < 18 {
      FullRowsFull(f, n + 1);
      var L := FullRows(f, n + 1);
      if RowFull(f, n) {
        assert FullRows(f, n) == L + [n];
      } else {
        assert FullRows(f, n) == L;
      }
    }
  }

  /** The list runs from the bottom row upwards. */
  lemma {:induction false} FullRowsDecreasing(f: seq<char>, n: nat)
    requires |f| == 180
    ensures forall i, j :: 0 <= i < j < |FullRows(f, n)| ==> FullRows(f, n)[i] > FullRows(f, n)[j]
    decreases 18 - n
  {
    if n < 18 {
      FullRowsDecreasing(f, n + 1);
      var L := FullRows(f, n + 1);
      if RowFull(f, n) {
        assert FullRows(f, n) == L + [n];
      } else {
        assert FullRows(f, n) == L;
      }
    }
  }

  /** Every full row in [n, 18) is listed. */
  lemma {:induction false} FullRowsComplete(f: seq<char>, n: nat)
    requires |f| == 180
    ensures forall r: nat :: n <= r < 18 && RowFull(f, r) ==> r in FullRows(f, n)
    decreases 18 - n
  {
    if n < 18 {
      FullRowsComplete(f, n + 1);
      var L := FullRows(f, n + 1);
      if RowFull(f, n) {
        assert FullRows(f, n) == L + [n];
      } else {
        assert FullRows(f, n) == L;
      }
    }
  }

  /** The full-row list is strictly decreasing, lies in [n, 18) and
      lists exactly the full rows there. */
  lemma FullRowsShape(f: seq<char>, n: nat)
    requires |f| == 180
    ensures forall i :: 0 <= i < |FullRows(f, n)| ==>
      n <= FullRows(f, n)[i] < 18 && RowFull(f, FullRows(f, n)[i])
    ensures forall i, j :: 0 <= i < j < |FullRows(f, n)| ==> FullRows(f, n)[i] > FullRows(f, n)[j]
    ensures forall r: nat :: n <= r < 18 && RowFull(f, r) ==> r in FullRows(f, n)
  {
    FullRowsFull(f, n);
    FullRowsDecreasing(f, n);
    FullRowsComplete(f, n);
  }

  /** Scanning from row n - 1 finds what scanning from row n finds, then
      row n - 1 if it is full. */
  lemma FullRowsAbove(f: seq<char>, n: nat)
    requires |f| == 180 && 0 < n <= 18
    ensures RowFull(f, n - 1) ==> FullRows(f, n - 1) == FullRows(f, n) + [n - 1]
    ensures !RowFull(f, n - 1) ==> FullRows(f, n - 1) == FullRows(f, n)
  {
  }

  /** Scanning from a higher row finds no more full rows. */
  lemma {:induction false} FullRowsShorter(f: seq<char>, m: nat, n: nat)
    requires |f| == 180 && m <= n
    ensures |FullRows(f, n)| <= |FullRows(f, m)|
    decreases n - m
  {
    if m < n && m < 18 {
      FullRowsShorter(f, m + 1, n);
    }
  }

  /** A strictly decreasing list of integers in [lo, hi) has at most hi - lo entries. */
  lemma {:induction false} DecreasingBound(s: seq<int>, lo: int, hi: int)
    requires forall i :: 0 <= i < |s| ==> lo <= s[i] < hi
    requires forall i, j :: 0 <= i < j < |s| ==> s[i] > s[j]
    ensures |s| <= if hi - lo < 0 then 0 else hi - lo
  {
    if s != [] {
      DecreasingBound(s[1..], lo, s[0]);
    }
  }

  /** The topmost full row at or below row m, and what lies between. */
  lemma {:induction false} FullRowsLast(f: seq<char>, m: nat, l: int)
    requires |f| == 180 && m <= 18 && FullRows(f, m) != []
    requires l == FullRows(f, m)[|FullRows(f, m)| - 1]
    ensures m <= l < 18 && RowFull(f, l)
    ensures forall r: nat :: m <= r < l ==> !RowFull(f, r)
    ensures FullRows(f, m)[..|FullRows(f, m)| - 1] == FullRows(f, l + 1)
    decreases 18 - m
  {
    if RowFull(f, m) {
      LastHere(f, m, l);
    } else {
      assert FullRows(f, m) == FullRows(f, m + 1);
      FullRowsLast(f, m + 1, l);
    }
  }

  lemma LastHere(f: seq<char>, m: nat, l: int)
    requires |f| == 180 && m < 18 && RowFull(f, m)
    requires l == FullRows(f, m)[|FullRows(f, m)| - 1]
    ensures l == m && FullRows(f, m)[..|FullRows(f, m)| - 1] == FullRows(f, m + 1)
  {
    var L, A := FullRows(f, m), FullRows(f, m + 1);
    assert L == A + [m];
    assert L[..|L| - 1] == A;
  }

  /** Without full rows in [m, n), Keep just appends those rows. */
  lemma {:induction false} KeepNoFull(f: seq<char>, m: nat, n: nat)
    requires |f| == 180 && m <= n <= 18
    requires forall r: nat :: m <= r < n ==> !RowFull(f, r)
    ensures Keep(f, n) == Keep(f, m) + f[m * 10 .. n * 10]
    decreases n - m
  {
    if m < n {
      KeepNoFull(f, m, n - 1);
      var K, A, R := Keep(f, m), f[m * 10 .. (n - 1) * 10], Row(f, n - 1);
      assert Keep(f, n) == (K + A) + R;
      SliceJoin(f, m * 10, (n - 1) * 10, n * 10);
      assert R == f[(n - 1) * 10 .. n * 10];
      AppendAssoc(K, A, R);
    }
  }

  lemma SliceJoin(f: seq<char>, i: nat, j: nat, k: nat)
    requires i <= j <= k <= |f|
    ensures f[i..k] == f[i..j] + f[j..k]
  {
  }

  lemma AppendAssoc(a: seq<char>, b: seq<char>, c: seq<char>)
    ensures (a + b) + c == a + (b + c)
  {
  }

  /** No full rows in [m, 18) means FullRows(f, m) is empty. */
  lemma NoneBelow(f: seq<char>, m: nat)
    requires |f| == 180 && m <= 18 && FullRows(f, m) == []
    ensures forall r: nat :: m <= r < 18 ==> !RowFull(f, r)
  {
    FullRowsShape(f, m);
  }

  /** The invariant of the second loop of test_remove_lines, from the view of
      the original field f: from offset p on, g holds the kept rows above
      row m, then rows m .. 17 of f untouched. */
  ghost predicate Processed(f: seq<char>, g: seq<char>, m: nat, p: nat)
    requires |f| == 180 && |g| == 180 && m <= 18
  {
    p + |Keep(f, m)| == m * 10 && g[p..] == Keep(f, m) + f[m * 10..]
  }

  /** What the loop achieves from row m on: once the full rows at or below m
      are collapsed, the kept rows of f end the field. */
  ghost predicate Collapsed(f: seq<char>, g: seq<char>, m: nat, p: nat)
    requires |f| == 180 && |g| == 180 && m <= 18
  {
    p + 10 * |FullRows(f, m)| <= 180 &&
    Collapse(g, FullRows(f, m))[p + 10 * |FullRows(f, m)|..] == Keep(f, 18)
  }

  /** One step of the collapse: removing full row l, the topmost full row
      at or below m, moves the processed prefix one row down. */
  lemma ShiftStep(f: seq<char>, g: seq<char>, m: nat, l: nat, p: nat)
    requires |f| == 180 && |g| == 180 && m <= l < 18
    requires forall r: nat :: m <= r < l ==> !RowFull(f, r)
    requires RowFull(f, l)
    requires Processed(f, g, m, p)
    ensures Processed(f, Shift(g, l), l + 1, p + 10)
  {
    KeepNoFull(f, m, l);
    SplitTail(Keep(f, m), f, m * 10, l * 10);
    var K := Keep(f, l);
    assert Keep(f, l + 1) == K;
    ShiftTail(f, g, K, l, p);
  }

  lemma SplitTail(a: seq<char>, f: seq<char>, i: nat, j: nat)
    requires i <= j <= |f|
    ensures a + f[i..] == (a + f[i..j]) + f[j..]
  {
    assert f[i..] == f[i..j] + f[j..];
  }

  /** Shifting by one row moves the kept prefix down past a removed row. */
  lemma ShiftTail(f: seq<char>, g: seq<char>, K: seq<char>, l: nat, p: nat)
    requires |f| == 180 && |g| == 180 && l < 18
    requires p + |K| == l * 10 && g[p..] == K + f[l * 10..]
    ensures p + 10 <= 180 && Shift(g, l)[p + 10..] == K + f[(l + 1) * 10..]
  {
    forall j | p <= j < l * 10
      ensures g[j] == K[j - p]
    {
      assert g[j] == g[p..][j - p];
    }
    forall j | l * 10 <= j < 180
      ensures g[j] == f[j]
    {
      assert g[j] == g[p..][j - p];
    }
    var h := Shift(g, l);
    var R := K + f[(l + 1) * 10..];
    assert |h[p + 10..]| == |R|;
    forall k | p + 10 <= k < 180
      ensures h[k] == R[k - p - 10]
    {
      if k < 10 + 10 * l {
        assert h[k] == g[k - 10];
      } else {
        assert h[k] == g[k];
      }
    }
  }

  lemma CollapseLast(g: seq<char>, lines: seq<int>)
    requires |g| == 180 && lines != []
    requires forall i :: 0 <= i < |lines| ==> 0 <= lines[i] < 18
    ensures Collapse(g, lines) == Collapse(Shift(g, lines[|lines| - 1]), lines[..|lines| - 1])
  {
  }

  /** With no full rows left, the invariant already shows the kept rows. */
  lemma CollapseNone(f: seq<char>, g: seq<char>, m: nat, p: nat)
    requires |f| == 180 && |g| == 180 && m <= 18 && FullRows(f, m) == []
    requires Processed(f, g, m, p)
    ensures Collapsed(f, g, m, p)
  {
    assert Keep(f, 18) == Keep(f, m) + f[m * 10..] by {
      NoneBelow(f, m);
      KeepNoFull(f, m, 18);
      assert f[m * 10..] == f[m * 10 .. 18 * 10];
    }
    assert Collapse(g, FullRows(f, m)) == g;
  }

  /** One round of the second loop of test_remove_lines, seen from the
      collapse invariant: either no full row is left at or below m and the
      goal holds, or removing the topmost remaining full row l yields a field
      h for which the invariant holds again from row l + 1 on. */
  lemma CollapseRound(f: seq<char>, g: seq<char>, m: nat, p: nat) returns (done: bool, l: nat, h: seq<char>)
    requires |f| == 180 && |g| == 180 && m <= 18
    requires Processed(f, g, m, p)
    ensures done ==> Collapsed(f, g, m, p)
    ensures !done ==> m <= l < 18 && |h| == 180 && Processed(f, h, l + 1, p + 10)
    ensures !done ==> (Collapsed(f, h, l + 1, p + 10) ==> Collapsed(f, g, m, p))
  {
    var L := FullRows(f, m);
    if L == [] {
      CollapseNone(f, g, m, p);
      return true, 0, g;
    }
    l := L[|L| - 1];
    FullRowsLast(f, m, l);
    ShiftStep(f, g, m, l, p);
    CollapsedStep(f, g, m, l, p);
    return false, l, Shift(g, l);
  }

  /** Removing the topmost full row l first leaves the rest of the collapse
      to the full rows below l. */
  lemma CollapsedStep(f: seq<char>, g: seq<char>, m: nat, l: nat, p: nat)
    requires |f| == 180 && |g| == 180 && m <= l < 18
    requires FullRows(f, m) != [] && l == FullRows(f, m)[|FullRows(f, m)| - 1]
    requires FullRows(f, m)[..|FullRows(f, m)| - 1] == FullRows(f, l + 1)
    ensures Collapsed(f, Shift(g, l), l + 1, p + 10) ==> Collapsed(f, g, m, p)
  {
    var L := FullRows(f, m);
    CollapseLast(g, L);
    assert Collapse(g, L) == Collapse(Shift(g, l), FullRows(f, l + 1));
    assert p + 10 * |L| == p + 10 + 10 * |FullRows(f, l + 1)|;
  }

  /** The heart of line clearing.  Suppose the rows above m have already been
      processed: from offset p on, g holds the kept rows above m followed by
      the untouched rows from m down.  Then collapsing the remaining full rows
      leaves all kept rows, in order, from offset p + 10 * (number of
      rows collapsed) to the end. */
  lemma {:induction false} CollapseKeeps(f: seq<char>, g: seq<char>, m: nat, p: nat)
    requires |f| == 180 && |g| == 180 && m <= 18
    requires Processed(f, g, m, p)
    ensures Collapsed(f, g, m, p)
    decreases 18 - m
  {
    var done, l, h := CollapseRound(f, g, m, p);
    if !done {
      CollapseKeeps(f, h, l + 1, p + 10);
    }
  }

  /** After test_remove_lines the field is k blank rows above the rows that
      were not full, in their original order, where k is the number of full
      rows. */
  lemma ClearLinesKeepsRows(f: seq<char>)
    requires |f| == 180
    ensures ClearLines(f) == Spaces(10 * |FullRows(f, 0)|) + Keep(f, 18)
  {
    assert Processed(f, f, 0, 0) by {
      assert Keep(f, 0) == [];
      assert f[0..] == [] + f[0 * 10..];
    }
    CollapseKeeps(f, f, 0, 0);
    BlankTopSplit(Collapse(f, FullRows(f, 0)), |FullRows(f, 0)|);
  }

  lemma BlankTopSplit(c: seq<char>, k: nat)
    requires |c| == 180 && k <= 18
    ensures BlankTop(c, k) == Spaces(10 * k) + c[10 * k..]
  {
  }

  /** A row of a concatenation whose first part is a whole number of rows. */
  lemma RowOfConcat(a: seq<char>, b: seq<char>, r: nat)
    requires |a| % 10 == 0 && (r + 1) * 10 <= |a| + |b|
    ensures r * 10 < |a| ==> (r + 1) * 10 <= |a| && Row(a + b, r) == Row(a, r)
    ensures |a| <= r * 10 ==>
      var q := r - |a| / 10;
      q >= 0 && (q + 1) * 10 <= |b| && Row(a + b, r) == Row(b, q)
  {
    var n := |a| / 10;
    assert |a| == n * 10;
    if r * 10 < |a| {
      assert r < n;
      assert (r + 1) * 10 <= |a|;
    } else {
      assert r >= n;
      var q := r - n;
      assert Row(a + b, r) == (a + b)[r * 10 .. r * 10 + 10];
      assert r * 10 == |a| + q * 10;
    }
  }

  lemma {:induction false} KeepWholeRows(f: seq<char>, n: nat)
    requires n <= 18 && |f| == 180
    ensures |Keep(f, n)| % 10 == 0
  {
    if n > 0 {
      KeepWholeRows(f, n - 1);
    }
  }

  /** Kept rows are never full. */
  lemma {:induction false} KeepNoFullRow(f: seq<char>, n: nat)
    requires n <= 18 && |f| == 180
    ensures NoFullRow(Keep(f, n))
  {
    if n > 0 {
      KeepNoFullRow(f, n - 1);
      KeepWholeRows(f, n - 1);
      var a := Keep(f, n - 1);
      var b := if RowFull(f, n - 1) then [] else Row(f, n - 1);
      forall r: nat | (r + 1) * 10 <= |a + b|
        ensures !RowFull(a + b, r)
      {
        RowOfConcat(a, b, r);
        if r * 10 < |a| {
          assert !RowFull(a, r);
        } else {
          assert b == Row(f, n - 1) && !RowFull(f, n - 1);
          assert r - |a| / 10 == 0;
          assert Row(b, 0) == b;
        }
      }
    }
  }

  /** After test_remove_lines no row is full. */
  lemma ClearLinesNoFullRow(f: seq<char>)
    requires |f| == 180
    ensures NoFullRow(ClearLines(f))
  {
    ClearLinesKeepsRows(f);
    KeepNoFullRow(f, 18);
    KeepWholeRows(f, 18);
    BlankAboveNoFullRow(|FullRows(f, 0)|, Keep(f, 18));
  }

  /** Blank rows stacked on rows that are not full leave no full row. */
  lemma BlankAboveNoFullRow(k: nat, b: seq<char>)
    requires |b| % 10 == 0 && NoFullRow(b)
    ensures NoFullRow(Spaces(10 * k) + b)
  {
    var a := Spaces(10 * k);
    forall r: nat | (r + 1) * 10 <= |a + b|
      ensures !RowFull(a + b, r)
    {
      RowOfConcat(a, b, r);
      if r * 10 < |a| {
        assert Row(a, r)[0] == Blank;
      } else {
        assert !RowFull(b, r - |a| / 10);
      }
    }
  }

  /** Cells outside rows lo .. hi-1 are equal. */
  ghost predicate SameOutside(f: seq<char>, g: seq<char>, lo: int, hi: int)
    requires |f| == 180 && |g| == 180
  {
    forall j :: 0 <= j < 180 && !(lo * 10 <= j < hi * 10) ==> g[j] == f[j]
  }

  lemma RowUnchanged(f0: seq<char>, f: seq<char>, lo: int, hi: int, r: nat)
    requires |f0| == 180 && |f| == 180 && r < 18 && SameOutside(f0, f, lo, hi)
    ensures !(lo <= r < hi) ==> Row(f, r) == Row(f0, r)
  {
    if !(lo <= r < hi) {
      assert forall j :: 0 <= j < 10 ==> Row(f, r)[j] == f[r * 10 + j] == f0[r * 10 + j];
    }
  }

  /** Without full rows, test_remove_lines finds nothing... */
  lemma {:induction false} NoLines(f: seq<char>, n: nat)
    requires |f| == 180 && NoFullRow(f)
    ensures FullRows(f, n) == []
    decreases 18 - n
  {
    if n < 18 {
      NoLines(f, n + 1);
      assert !RowFull(f, n);
    }
  }

  /** ... and the field stays as it is. */
  lemma ClearLinesIdle(f: seq<char>)
    requires |f| == 180 && NoFullRow(f)
    ensures ClearLines(f) == f
  {
    NoLines(f, 0);
    assert Collapse(f, FullRows(f, 0)) == f;
    BlankTopNone(f);
  }

  lemma BlankTopNone(f: seq<char>)
    requires |f| == 180
    ensures BlankTop(f, 0) == f
  {
  }

  /** If a field without full rows changes only in rows lo .. hi-1, every
      full row of the result lies there, so there are at most hi - lo. */
  lemma FullRowsWithin(f0: seq<char>, f: seq<char>, lo: int, hi: int)
    requires |f0| == 180 && |f| == 180 && NoFullRow(f0) && 0 <= lo <= hi <= 18
    requires SameOutside(f0, f, lo, hi)
    ensures forall i :: 0 <= i < |FullRows(f, 0)| ==> lo <= FullRows(f, 0)[i] < hi
    ensures |FullRows(f, 0)| <= hi - lo
  {
    FullRowsShape(f, 0);
    var L := FullRows(f, 0);
    forall i | 0 <= i < |L|
      ensures lo <= L[i] < hi
    {
      var r: nat := L[i];
      assert RowFull(f, r);
      assert !RowFull(f0, r);
      RowUnchanged(f0, f, lo, hi, r);
    }
    DecreasingBound(L, lo, hi);
  }
}

=== FILE: client.dfy ===
/** The terminal client: the keys it sends and the frames it decodes. */
module Client {
  import opened Defs
  import opened Codec

  /** The curses codes of the arrow keys. */
  const KeyDown: int := 0x102
  const KeyUp: int := 0x103
  const KeyLeft: int := 0x104
  const KeyRight: int := 0x105

  /** The input sent for a key pressed in the game loop. */
  function KeyInput(ch: int): Input {
    if ch == KeyUp then Clock
    else if ch == KeyDown then Down
    else if ch == KeyLeft then Left
    else if ch == KeyRight then Right
    else if ch == 'r' as int then Restart
    else if ch == ' ' as int then DownInstant
    else Void
  }

  /** Six keys do something; every other key sends the ignored input. */
  lemma KeyInputActive(ch: int)
    ensures KeyInput(ch) != Void <==> ch in {KeyUp, KeyDown, KeyLeft, KeyRight, 'r' as int, ' ' as int}
  {
  }

  /** The byte sent is a code of the input enumeration, so the engine's
      check for an unknown code never rejects it; and the client never
      sends the counter-clockwise, cheat, pause, faster or slower inputs. */
  lemma KeyInputSent(ch: int)
    ensures InputOf(KeyInput(ch).Code()) == Some(KeyInput(ch))
    ensures KeyInput(ch) !in {CounterClock, Cheat, Pause, Faster, Slower}
  {
    InputCodeRoundTrip(KeyInput(ch));
  }

  /** `b[at] || b[at+1] << 8 || b[at+2] << 16 || b[at+3] << 24`: a logical
      OR, so 1 when any of the four bytes is set and 0 otherwise. */
  function AnySet(b: seq<Byte>, at: nat): (r: int)
    requires at + 4 <= |b|
    ensures r == 0 || r == 1
    ensures r == 1 <==> exists k :: at <= k < at + 4 && b[k] != 0
  {
    if b[at] != 0 || (b[at + 1] as int) * 0x100 != 0 || (b[at + 2] as int) * 0x1_0000 != 0
       || (b[at + 3] as int) * 0x100_0000 != 0
    then 1 else 0
  }

  /** The logical OR tells only whether the bitwise decoding is non-zero. */
  lemma AnySetIsNonZero(b: seq<Byte>, at: nat)
    requires at + 4 <= |b|
    ensures AnySet(b, at) == if Word(b, at) == 0 then 0 else 1
  {
  }

  /** A byte read back as a signed `char`. */
  function SignedByte(b: Byte): (r: int)
    ensures -0x80 <= r < 0x80 && r % 0x100 == b
  {
    if b < 0x80 then b else b - 0x100
  }

  lemma SignedPhase(p: Phase)
    ensures SignedByte(PhaseByte(p)) == p.Code()
  {
  }

  /** The client's `struct game_state` and the field buffer it points to. */
  class Receiver {
    var phase: int
    var points: int
    var level: int
    var togo: int
    const field: array<char>

    predicate Valid()
      reads this
    {
      field.Length == FieldSize
    }

    /** A zeroed state over a blank field. */
    constructor()
      ensures Valid() && phase == 0 && points == 0 && level == 0 && togo == 0
      ensures forall i :: 0 <= i < FieldSize ==> field[i] == Blank
    {
      phase, points, level, togo := 0, 0, 0, 0;
      field := new char[FieldSize](_ => Blank);
    }

    /** recv_data as written, on the FIELD_SIZE + 16 bytes received (the
        buffer is zeroed first, so a short read leaves zeros at its end). */
    method RecvData(data: seq<Byte>)
      requires Valid() && |data| == FieldSize + 16
      modifies this, field
      ensures Valid()
      ensures phase == AnySet(data, 0) && points == AnySet(data, 4)
      ensures level == AnySet(data, 8) && togo == AnySet(data, 12)
      ensures field[..] == Decode(data).cells
    {
      phase := AnySet(data, 0);
      points := AnySet(data, 4);
      level := AnySet(data, 8);
      togo := AnySet(data, 12);
      CopyCells(data);
    }

    /** recv_data with `|` for `||` and the phase byte read as a signed
        `char`: the decoding serialize_data's frame is made for. */
    method Receive(data: seq<Byte>)
      requires Valid() && |data| == FieldSize + 16
      modifies this, field
      ensures Valid()
      ensures phase == SignedByte(data[0])
      ensures points == Decode(data).points && level == Decode(data).level && togo == Decode(data).togo
      ensures field[..] == Decode(data).cells
    {
      phase := SignedByte(data[0]);
      points := Word(data, 4);
      level := Word(data, 8);
      togo := Word(data, 12);
      CopyCells(data);
    }

    /** The field loop: cell i is data[16 + i], for i < FIELD_SIZE exactly. */
    method CopyCells(data: seq<Byte>)
      requires Valid() && |data| == FieldSize + 16
      modifies field
      ensures field[..] == Decode(data).cells
    {
      var i := 0;
      while i < FieldSize
        invariant 0 <= i <= FieldSize
        invariant field[..i] == Decode(data).cells[..i]
      {
        field[i] := ByteChar(data[i + 16]);
        i := i + 1;
      }
    }
  }

  /** What recv_data as written makes of serialize_data's frame: each
      counter arrives as 1 when non-zero, and the phase as 1 unless the
      game is won; the cells arrive intact. */
  lemma RecvSerialized(v: View)
    requires Sendable(v)
    ensures AnySet(Frame(v), 0) == if v.phase == Win then 0 else 1
    ensures AnySet(Frame(v), 4) == if v.points == 0 then 0 else 1
    ensures AnySet(Frame(v), 8) == if v.level == 0 then 0 else 1
    ensures AnySet(Frame(v), 12) == if v.togo == 0 then 0 else 1
  {
    var f := Frame(v);
    assert f[0] == PhaseByte(v.phase) && f[1] == 0 && f[2] == 0 && f[3] == 0;
    AnySetIsNonZero(f, 4);
    AnySetIsNonZero(f, 8);
    AnySetIsNonZero(f, 12);
    assert f[4..8] == Le32(v.points);
    assert f[8..12] == Le32(v.level);
    assert f[12..16] == Le32(v.togo);
    Le32RoundTrip(v.points, f, 4);
    Le32RoundTrip(v.level, f, 8);
    Le32RoundTrip(v.togo, f, 12);
  }

  /** Two points arrive as one, and a game in progress arrives as phase 1
      (stopped), where the corrected decoding gives both back. */
  lemma RecvLosesPoints(v: View)
    requires Sendable(v) && v.points == 2 && v.phase == InProgress
    ensures AnySet(Frame(v), 4) == 1 && AnySet(Frame(v), 0) == Stopped.Code()
    ensures Decode(Frame(v)).points == 2 && SignedByte(Frame(v)[0]) == InProgress.Code()
  {
    RecvSerialized(v);
    var f := Frame(v);
    assert f[4..8] == Le32(v.points);
    Le32RoundTrip(v.points, f, 4);
  }

  /** The corrected decoding inverts serialize_data for every state whose
      counters fit 32 bits and whose cells are single bytes. */
  lemma ReceiveRoundTrip(v: View)
    requires Sendable(v)
    requires forall i :: 0 <= i < FieldSize ==> (v.cells[i] as int) < 0x100
    ensures SignedByte(Frame(v)[0]) == v.phase.Code()
    ensures Decode(Frame(v)) == Decoded(Some(v.phase), v.points, v.level, v.togo, v.cells)
  {
    SignedPhase(v.phase);
    FrameRoundTrip(v);
  }

  /** What recv_data as written makes of the FIELD_SIZE + 16 bytes the older
      server sends (its frame, then three bytes of the memory after it):
      every header word is three bytes early and is collapsed to 0 or 1, so
      the phase word holds the phase and the points' low byte, the points
      word the level's low byte, the level word the togo's, and the togo
      word the first three cells. */
  lemma LegacyRecvData(v: View, tail: seq<Byte>)
    requires Sendable(v) && |tail| == 3
    ensures AnySet(LegacyFrame(v) + tail, 0) == if v.phase == Win && v.points % 0x100 == 0 then 0 else 1
    ensures AnySet(LegacyFrame(v) + tail, 4) == if v.level % 0x100 == 0 then 0 else 1
    ensures AnySet(LegacyFrame(v) + tail, 8) == if v.togo % 0x100 == 0 then 0 else 1
    ensures AnySet(LegacyFrame(v) + tail, 12)
            == if CellByte(v.cells[0]) == 0 && CellByte(v.cells[1]) == 0 && CellByte(v.cells[2]) == 0 then 0 else 1
  {
    var f := LegacyFrame(v) + tail;
    LegacyLowBytes(v);
    assert f[0] == PhaseByte(v.phase) && f[1] == v.points % 0x100 && f[2] == 0 && f[3] == 0;
    assert f[4] == 0 && f[5] == v.level % 0x100 && f[6] == 0 && f[7] == 0;
    assert f[8] == 0 && f[9] == v.togo % 0x100 && f[10] == 0 && f[11] == 0;
    assert f[12] == 0;
    assert f[13] == CellByte(v.cells[0]) && f[14] == CellByte(v.cells[1]) && f[15] == CellByte(v.cells[2]);
  }

  /** A game just started (0 points, level 1) is shown through the older
      server as 1 point, where a decoder with bitwise OR reads 256. */
  lemma LegacyRecvStart(v: View, tail: seq<Byte>)
    requires Sendable(v) && |tail| == 3 && v.points == 0 && v.level == 1
    requires forall i :: 0 <= i < FieldSize ==> (v.cells[i] as int) < 0x100
    ensures AnySet(LegacyFrame(v) + tail, 4) == 1
    ensures Decode(LegacyFrame(v) + tail).points == 256
  {
    LegacyRecvData(v, tail);
    LegacyDecodes(v, tail);
  }
}

=== FILE: codec.dfy ===
/** The frames the server sends a client after every step: a header with
    the phase and the three counters, then the 180 cells of the field the
    state shows.  Three packings exist: `serialize_data` of the shared
    module (16-byte header, little-endian counters), `send_data` of the
    newer server, server.c (the same layout, bytes masked but never
    shifted), and `send_data` of the older server (13-byte header, masked bytes). */
module Codec {
  import opened Defs

  /** The counters of a state fit an `unsigned int`, and the field its
      180 cells. */
  predicate Sendable(v: View) {
    v.points < U32Limit && v.level < U32Limit && v.togo < U32Limit && |v.cells| == FieldSize
  }

  /** `(char)(x >> 8 * k)` for k = 0 .. 3: the bytes of x, low first. */
  function Le32(x: U32): (b: seq<Byte>)
    ensures |b| == 4
  {
    [x % 0x100, x / 0x100 % 0x100, x / 0x1_0000 % 0x100, x / 0x100_0000 % 0x100]
  }

  /** `b[at] | b[at+1] << 8 | b[at+2] << 16 | b[at+3] << 24` on unsigned
      values: the four bytes occupy disjoint bits, so the OR is a sum. */
  function Word(b: seq<Byte>, at: nat): (x: U32)
    requires at + 4 <= |b|
  {
    var lo: int := (b[at] as int) + 0x100 * (b[at + 1] as int);
    var hi: int := 0x1_0000 * (b[at + 2] as int) + 0x100_0000 * (b[at + 3] as int);
    lo + hi
  }

  /** Decoding the four bytes of a counter gives the counter back. */
  lemma Le32RoundTrip(x: U32, b: seq<Byte>, at: nat)
    requires at + 4 <= |b| && b[at..at + 4] == Le32(x)
    ensures Word(b, at) == x
  {
    assert b[at] == x % 0x100 && b[at + 1] == x / 0x100 % 0x100;
    assert b[at + 2] == x / 0x1_0000 % 0x100 && b[at + 3] == x / 0x100_0000 % 0x100;
    var q1 := x / 0x100;
    var q2 := q1 / 0x100;
    assert x / 0x1_0000 == q2;
    assert x / 0x100_0000 == q2 / 0x100;
  }

  /** `(char)gs->phase`: the enumeration value as a byte (TET_LOSE is 0xff). */
  function PhaseByte(p: Phase): Byte {
    p.Code() % 0x100
  }

  /** A phase byte read back as a signed `char`. */
  function PhaseOfByte(b: Byte): (p: Option<Phase>)
    ensures p.Some? ==> PhaseByte(p.value) == b
  {
    if b == 0xff then Some(Lose)
    else if b == 0 then Some(Win)
    else if b == 1 then Some(Stopped)
    else if b == 2 then Some(InProgress)
    else None
  }

  lemma PhaseRoundTrip(p: Phase)
    ensures PhaseOfByte(PhaseByte(p)) == Some(p)
  {
  }

  /** A field cell stored in a `char` of the frame. */
  function CellByte(c: char): Byte {
    (c as int) % 0x100
  }

  /** A frame byte stored back into a `char` of the client's field. */
  function ByteChar(b: Byte): char {
    b as char
  }

  /** The field's characters (blank and '#') are single bytes, so they
      survive the frame. */
  lemma CellRoundTrip(c: char)
    requires (c as int) < 0x100
    ensures ByteChar(CellByte(c)) == c
  {
  }

  function CellBytes(cells: seq<char>): (b: seq<Byte>)
    ensures |b| == |cells| && forall i :: 0 <= i < |cells| ==> b[i] == CellByte(cells[i])
  {
    seq(|cells|, i requires 0 <= i < |cells| => CellByte(cells[i]))
  }

  // ---------------------------------------------------------------- serialize_data

  /** The 16-byte header of serialize_data: the phase, three reserved zero
      bytes, then points, level and togo little-endian. */
  function Header(v: View): (h: seq<Byte>)
    requires Sendable(v)
    ensures |h| == 16
  {
    [PhaseByte(v.phase), 0, 0, 0] + Le32(v.points) + Le32(v.level) + Le32(v.togo)
  }

  /** The frame serialize_data fills: the header, then cell i at 16 + i. */
  function Frame(v: View): (data: seq<Byte>)
    requires Sendable(v)
    ensures |data| == FieldSize + 16
  {
    Header(v) + CellBytes(v.cells)
  }

  /** What a receiver decoding with shifts and bitwise OR reads. */
  datatype Decoded = Decoded(phase: Option<Phase>, points: U32, level: U32, togo: U32, cells: seq<char>)

  function Decode(data: seq<Byte>): (d: Decoded)
    requires |data| == FieldSize + 16
    ensures |d.cells| == FieldSize
  {
    Decoded(PhaseOfByte(data[0]), Word(data, 4), Word(data, 8), Word(data, 12),
            seq(FieldSize, i requires 0 <= i < FieldSize => ByteChar(data[16 + i])))
  }

  /** Decoding a frame gives back the phase, the three counters and every
      single-byte cell. */
  lemma FrameRoundTrip(v: View)
    requires Sendable(v)
    requires forall i :: 0 <= i < FieldSize ==> (v.cells[i] as int) < 0x100
    ensures Decode(Frame(v)) == Decoded(Some(v.phase), v.points, v.level, v.togo, v.cells)
  {
    var f := Frame(v);
    PhaseRoundTrip(v.phase);
    assert f[4..8] == Le32(v.points);
    assert f[8..12] == Le32(v.level);
    assert f[12..16] == Le32(v.togo);
    Le32RoundTrip(v.points, f, 4);
    Le32RoundTrip(v.level, f, 8);
    Le32RoundTrip(v.togo, f, 12);
    forall i | 0 <= i < FieldSize
      ensures ByteChar(f[16 + i]) == v.cells[i]
    {
      CellRoundTrip(v.cells[i]);
    }
  }

  /** The header stores of serialize_data: data[0 .. 15] become the header,
      and the rest of the buffer is kept. */
  method PutHeader(data: array<Byte>, v: View)
    requires data.Length >= 16 && Sendable(v)
    modifies data
    ensures data[..] == Header(v) + old(data[16..])
  {
    ghost var rest := data[16..];
    data[0] := PhaseByte(v.phase);
    data[1] := 0;
    data[2] := 0;
    data[3] := 0;
    PutWord(data, 4, Le32(v.points));
    PutWord(data, 8, Le32(v.level));
    PutWord(data, 12, Le32(v.togo));
    assert data[..16] == Header(v);
    assert data[16..] == rest;
    assert data[..] == data[..16] + data[16..];
  }

  /** serialize_data with the field loop bounded by `i < FIELD_SIZE`: the
      buffer becomes the frame. */
  method SerializeData(data: array<Byte>, v: View)
    requires data.Length == FieldSize + 16 && Sendable(v)
    modifies data
    ensures data[..] == Frame(v)
  {
    PutHeader(data, v);
    CopyCells(data, v.cells, 16);
  }

  /** serialize_data as written, on its FIELD_SIZE + 16 bytes followed by
      the byte of memory after them (mem[FieldSize + 16]).  The loop runs
      to `i <= FIELD_SIZE`, so its last round reads `next`, the character
      one past the field, and stores it in that following byte. */
  method SerializeAsWritten(mem: array<Byte>, v: View, next: char)
    requires mem.Length == FieldSize + 17 && Sendable(v)
    modifies mem
    ensures mem[..FieldSize + 16] == Frame(v)
    ensures mem[FieldSize + 16] == CellByte(next)
  {
    PutHeader(mem, v);
    CopyCellsThrough(mem, v.cells + [next], 16);
  }

  /** The four byte stores of one counter, at data[at] .. data[at + 3]. */
  method PutWord(data: array<Byte>, at: nat, b: seq<Byte>)
    requires |b| == 4 && at + 4 <= data.Length
    modifies data
    ensures data[..] == old(data[..at]) + b + old(data[at + 4..])
  {
    data[at] := b[0];
    data[at + 1] := b[1];
    data[at + 2] := b[2];
    data[at + 3] := b[3];
    assert data[..] == old(data[..at]) + b + old(data[at + 4..]);
  }

  /** The field loop `i < FIELD_SIZE`: cell i goes to data[at + i], and
      every byte outside data[at .. at + FIELD_SIZE - 1] is kept. */
  method CopyCells(data: array<Byte>, cells: seq<char>, at: nat)
    requires |cells| == FieldSize && at + FieldSize <= data.Length
    modifies data
    ensures data[..] == old(data[..at]) + CellBytes(cells) + old(data[at + FieldSize..])
  {
    ghost var head, tail := data[..at], data[at + FieldSize..];
    var i := 0;
    while i < FieldSize
      invariant 0 <= i <= FieldSize
      invariant data[..at] == head && data[at + FieldSize..] == tail
      invariant data[at..at + i] == CellBytes(cells)[..i]
    {
      data[at + i] := CellByte(cells[i]);
      i := i + 1;
    }
    assert data[..] == data[..at] + data[at..at + FieldSize] + data[at + FieldSize..];
  }

  /** The field loop as written, `i <= FIELD_SIZE`: it copies FIELD_SIZE + 1
      characters, the last of them from one past the field. */
  method CopyCellsThrough(data: array<Byte>, src: seq<char>, at: nat)
    requires |src| == FieldSize + 1 && at + FieldSize + 1 <= data.Length
    modifies data
    ensures data[..] == old(data[..at]) + CellBytes(src) + old(data[at + FieldSize + 1..])
  {
    ghost var head, tail := data[..at], data[at + FieldSize + 1..];
    var i := 0;
    while i <= FieldSize
      invariant 0 <= i <= FieldSize + 1
      invariant data[..at] == head && data[at + FieldSize + 1..] == tail
      invariant data[at..at + i] == CellBytes(src)[..i]
    {
      data[at + i] := CellByte(src[i]);
      i := i + 1;
    }
    assert data[..] == data[..at] + data[at..at + FieldSize + 1] + data[at + FieldSize + 1..];
  }

  // ---------------------------------------------------------------- send_data

  /** 256 to the power k: the weight of byte k of a word. */
  function Weight(k: nat): (w: nat)
    requires k < 4
    ensures w > 0 && (k > 0 ==> w % 0x100 == 0)
  {
    if k == 0 then 1 else if k == 1 then 0x100 else if k == 2 then 0x1_0000 else 0x100_0000
  }

  /** `(char)(x & (0xff << 8 * k))`: the mask keeps byte k of x where it
      is, and the `char` keeps the low byte of that. */
  function Masked(x: U32, k: nat): Byte
    requires k < 4
  {
    (x / Weight(k) % 0x100) * Weight(k) % 0x100
  }

  lemma MaskedLow(x: U32)
    ensures Masked(x, 0) == x % 0x100
  {
  }

  /** A mask above the low byte leaves a multiple of 256, stored as 0. */
  lemma MaskedHigh(x: U32, k: nat)
    requires 0 < k < 4
    ensures Masked(x, k) == 0
  {
    var b := x / Weight(k) % 0x100;
    var q := Weight(k) / 0x100;
    assert Weight(k) == 0x100 * q;
    assert b * Weight(k) == (b * q) * 0x100;
  }

  lemma HighBytes(x: U32)
    ensures MaskedBytes(x) == [x % 0x100, 0, 0, 0]
  {
    MaskedHigh(x, 1);
    MaskedHigh(x, 2);
    MaskedHigh(x, 3);
  }

  /** The four masked bytes of a counter. */
  function MaskedBytes(x: U32): (b: seq<Byte>)
    ensures |b| == 4
  {
    [Masked(x, 0), Masked(x, 1), Masked(x, 2), Masked(x, 3)]
  }

  /** The newer server's 16-byte header: the phase, three zero bytes,
      then the masked bytes of points, level and togo. */
  function MaskedHeader(v: View): (h: seq<Byte>)
    requires Sendable(v)
    ensures |h| == 16
  {
    [PhaseByte(v.phase), 0, 0, 0] + MaskedBytes(v.points) + MaskedBytes(v.level) + MaskedBytes(v.togo)
  }

  /** The frame the newer server's send_data fills. */
  function MaskedFrame(v: View): (data: seq<Byte>)
    requires Sendable(v)
    ensures |data| == FieldSize + 16
  {
    MaskedHeader(v) + CellBytes(v.cells)
  }

  /** Every counter byte above the lowest is 0, so a receiver decodes each
      counter modulo 256. */
  lemma MaskedFrameDecodes(v: View)
    requires Sendable(v)
    ensures Decode(MaskedFrame(v)).points == v.points % 0x100
    ensures Decode(MaskedFrame(v)).level == v.level % 0x100
    ensures Decode(MaskedFrame(v)).togo == v.togo % 0x100
  {
    HighBytes(v.points);
    HighBytes(v.level);
    HighBytes(v.togo);
  }

  /** 256 points arrive as 0 where serialize_data's frame carries them. */
  lemma MaskedLosesPoints(v: View)
    requires Sendable(v) && v.points == 256
    ensures Decode(MaskedFrame(v)).points == 0
    ensures Decode(Frame(v)).points == 256
  {
    MaskedFrameDecodes(v);
    var f := Frame(v);
    assert f[4..8] == Le32(v.points);
    Le32RoundTrip(v.points, f, 4);
  }

  /** The header stores of the newer server's send_data. */
  method PutMaskedHeader(data: array<Byte>, v: View)
    requires data.Length >= 16 && Sendable(v)
    modifies data
    ensures data[..] == MaskedHeader(v) + old(data[16..])
  {
    ghost var rest := data[16..];
    data[0] := PhaseByte(v.phase);
    data[1] := 0;
    data[2] := 0;
    data[3] := 0;
    PutWord(data, 4, MaskedBytes(v.points));
    PutWord(data, 8, MaskedBytes(v.level));
    PutWord(data, 12, MaskedBytes(v.togo));
    assert data[..16] == MaskedHeader(v);
    assert data[16..] == rest;
    assert data[..] == data[..16] + data[16..];
  }

  /** send_data of the newer server with the field loop bounded by
      `i < FIELD_SIZE`: the buffer becomes the masked frame. */
  method SendData(data: array<Byte>, v: View)
    requires data.Length == FieldSize + 16 && Sendable(v)
    modifies data
    ensures data[..] == MaskedFrame(v)
  {
    PutMaskedHeader(data, v);
    CopyCells(data, v.cells, 16);
  }

  /** send_data of the newer server as written, on its FIELD_SIZE + 16
      bytes followed by the byte after them: the `i <= FIELD_SIZE` loop
      stores the character one past the field there.  The FIELD_SIZE + 16
      bytes it then sends are the masked frame. */
  method SendDataAsWritten(mem: array<Byte>, v: View, next: char)
    requires mem.Length == FieldSize + 17 && Sendable(v)
    modifies mem
    ensures mem[..FieldSize + 16] == MaskedFrame(v)
    ensures mem[FieldSize + 16] == CellByte(next)
  {
    PutMaskedHeader(mem, v);
    CopyCellsThrough(mem, v.cells + [next], 16);
  }

  // ---------------------------------------------------------------- the older server

  /** The older server's frame: the phase, then the masked counters with no
      reserved bytes, and cell i at 13 + i. */
  function LegacyFrame(v: View): (data: seq<Byte>)
    requires Sendable(v)
    ensures |data| == FieldSize + 13
  {
    [PhaseByte(v.phase)] + MaskedBytes(v.points) + MaskedBytes(v.level) + MaskedBytes(v.togo)
      + CellBytes(v.cells)
  }

  /** The stores of the older server's send_data: its 13 header bytes and
      the field loop from data[13], on memory of at least FIELD_SIZE + 13
      bytes; whatever follows is kept. */
  method PackLegacy(mem: array<Byte>, v: View)
    requires mem.Length >= FieldSize + 13 && Sendable(v)
    modifies mem
    ensures mem[..] == LegacyFrame(v) + old(mem[FieldSize + 13..])
  {
    ghost var rest := mem[13..];
    mem[0] := PhaseByte(v.phase);
    PutWord(mem, 1, MaskedBytes(v.points));
    PutWord(mem, 5, MaskedBytes(v.level));
    PutWord(mem, 9, MaskedBytes(v.togo));
    assert mem[..13] == LegacyFrame(v)[..13];
    assert mem[13..] == rest;
    assert mem[FieldSize + 13..] == rest[FieldSize..];
    CopyCells(mem, v.cells, 13);
    assert LegacyFrame(v) == LegacyFrame(v)[..13] + CellBytes(v.cells);
  }

  /** The older server's send_data as written: `mem` is its FIELD_SIZE + 12
      bytes followed by the four bytes after them.  The loop's last store
      lands on mem[FieldSize + 12], past the buffer, and the FIELD_SIZE + 16
      bytes sent are the frame followed by three bytes of that memory. */
  method SendLegacyAsWritten(mem: array<Byte>, v: View) returns (sent: seq<Byte>)
    requires mem.Length == FieldSize + 16 && Sendable(v)
    modifies mem
    ensures mem[FieldSize + 12] == CellByte(v.cells[FieldSize - 1])
    ensures sent == LegacyFrame(v) + old(mem[FieldSize + 13..]) && |sent| == FieldSize + 16
  {
    PackLegacy(mem, v);
    sent := mem[..FieldSize + 16];
  }

  /** The older server's send_data with a buffer of FIELD_SIZE + 13 bytes,
      sending that many: exactly the frame is sent. */
  method SendLegacy(data: array<Byte>, v: View) returns (sent: seq<Byte>)
    requires data.Length == FieldSize + 13 && Sendable(v)
    modifies data
    ensures sent == LegacyFrame(v) && data[..] == sent
  {
    PackLegacy(data, v);
    sent := data[..];
  }

  /** Only the low byte of each counter of the older frame can be non-zero. */
  lemma LegacyLowBytes(v: View)
    requires Sendable(v)
    ensures LegacyFrame(v)[1] == v.points % 0x100 && LegacyFrame(v)[5] == v.level % 0x100
    ensures LegacyFrame(v)[9] == v.togo % 0x100
    ensures forall k :: k in {2, 3, 4, 6, 7, 8, 10, 11, 12} ==> LegacyFrame(v)[k] == 0
  {
    HighBytes(v.points);
    HighBytes(v.level);
    HighBytes(v.togo);
  }

  /** What a decoder with bitwise OR (the corrected client) reads from the
      FIELD_SIZE + 16 bytes the older server sends: every field is three bytes early, so the
      points word holds the level's low byte, the level word the togo's, the
      togo word the first three cells, and the field starts at its fourth
      cell and ends with the three bytes past the frame. */
  lemma LegacyDecodes(v: View, tail: seq<Byte>)
    requires Sendable(v) && |tail| == 3
    requires forall i :: 0 <= i < FieldSize ==> (v.cells[i] as int) < 0x100
    ensures Decode(LegacyFrame(v) + tail).phase == Some(v.phase)
    ensures Decode(LegacyFrame(v) + tail).points == (v.level % 0x100) * 0x100
    ensures Decode(LegacyFrame(v) + tail).level == (v.togo % 0x100) * 0x100
    ensures Decode(LegacyFrame(v) + tail).togo
            == CellByte(v.cells[0]) * 0x100 + CellByte(v.cells[1]) * 0x1_0000 + CellByte(v.cells[2]) * 0x100_0000
    ensures forall i :: 0 <= i < FieldSize - 3 ==> Decode(LegacyFrame(v) + tail).cells[i] == v.cells[i + 3]
    ensures forall i :: FieldSize - 3 <= i < FieldSize ==>
              Decode(LegacyFrame(v) + tail).cells[i] == ByteChar(tail[i - (FieldSize - 3)])
  {
    var f := LegacyFrame(v) + tail;
    LegacyLowBytes(v);
    PhaseRoundTrip(v.phase);
    assert f[4] == 0 && f[5] == v.level % 0x100 && f[6] == 0 && f[7] == 0;
    assert f[8] == 0 && f[9] == v.togo % 0x100 && f[10] == 0 && f[11] == 0;
    assert f[12] == 0;
    assert f[13] == CellByte(v.cells[0]) && f[14] == CellByte(v.cells[1]) && f[15] == CellByte(v.cells[2]);
    var d := Decode(f);
    forall i | 0 <= i < FieldSize - 3
      ensures d.cells[i] == v.cells[i + 3]
    {
      assert d.cells[i] == ByteChar(f[16 + i]);
      CellRoundTrip(v.cells[i + 3]);
    }
  }

  /** A game just started (level 1, 0 points) reaches a decoder with
      bitwise OR through the older server as 256 points. */
  lemma LegacyMisreadsStart(v: View, tail: seq<Byte>)
    requires Sendable(v) && |tail| == 3 && v.points == 0 && v.level == 1
    requires forall i :: 0 <= i < FieldSize ==> (v.cells[i] as int) < 0x100
    ensures Decode(LegacyFrame(v) + tail).points == 256 != v.points
  {
    LegacyDecodes(v, tail);
  }
}

=== FILE: defs.dfy ===
/** Constants, enumerations and the exposed game state of the Tetris engine
    (the public header of the game). */
module Defs {

  /** Maximum number of concurrent games. */
  const ClientsMax: nat := 5
  /** Difficulty, scoring and timing. */
  const MaxLevel: nat := 5
  const InitLinesPerLevel: nat := 1
  const StepTimeGranularity: nat := 100
  const StepTimeInit: nat := 1000
  /** Upper clamp used when the pace is slowed down. */
  const StepTimeMax: nat := 2000

  /** Field dimensions. */
  const FieldWidth: nat := 10
  const FieldHeight: nat := 18
  const FieldSize: nat := 180

  /** `unsigned int` / `uint32_t` values wrap modulo this bound. */
  const U32Limit: nat := 0x1_0000_0000

  const InvalidClientId: int := -1

  /** The values of a `uint32_t` / `unsigned int`. */
  type U32 = x: int | 0 <= x < U32Limit

  /** The values of a byte of a frame buffer, read as unsigned. */
  type Byte = x: int | 0 <= x < 256

  /** The empty cell of a field. */
  const Blank: char := ' '

  datatype Option<T> = None | Some(value: T)

  /** The phases of a game, with the integer codes of the C enumeration. */
  datatype Phase = Lose | Win | Stopped | InProgress {
    function Code(): int {
      match this
      case Lose => -1
      case Win => 0
      case Stopped => 1
      case InProgress => 2
    }
  }

  /** The input "keys" the engine understands. */
  datatype Input =
    | Void | Left | Right | Down | DownInstant | Clock | CounterClock
    | Cheat | Pause | Restart | Faster | Slower
  {
    /** The value of the key in the C enumeration (declaration order). */
    function Code(): (c: int)
      ensures 0 <= c < 12
    {
      match this
      case Void => 0
      case Left => 1
      case Right => 2
      case Down => 3
      case DownInstant => 4
      case Clock => 5
      case CounterClock => 6
      case Cheat => 7
      case Pause => 8
      case Restart => 9
      case Faster => 10
      case Slower => 11
    }
  }

  /** The key with a given code, or None for a code outside the enumeration. */
  function InputOf(code: int): (r: Option<Input>)
    ensures r.Some? <==> 0 <= code < 12
    ensures r.Some? ==> r.value.Code() == code
  {
    if code == 0 then Some(Void)
    else if code == 1 then Some(Left)
    else if code == 2 then Some(Right)
    else if code == 3 then Some(Down)
    else if code == 4 then Some(DownInstant)
    else if code == 5 then Some(Clock)
    else if code == 6 then Some(CounterClock)
    else if code == 7 then Some(Cheat)
    else if code == 8 then Some(Pause)
    else if code == 9 then Some(Restart)
    else if code == 10 then Some(Faster)
    else if code == 11 then Some(Slower)
    else None
  }

  lemma InputCodeRoundTrip(i: Input)
    ensures InputOf(i.Code()) == Some(i)
  {
  }

  /** `struct game_state`: what the engine hands to its caller.  `cells` is the
      content of the buffer the `field` pointer designates at that moment. */
  datatype View = View(phase: Phase, points: nat, level: nat, togo: nat, cells: seq<char>)
}

=== FILE: drawing.dfy ===
/** What draw_block does, stated against the scan it performs: it reports a
    collision exactly when the piece does not fit, it renders the piece
    exactly where its cells are, only into the buffer it is given, and never
    outside the rows of the piece's box. */
module Drawing {
  import opened Defs
  import opened Blocks
  import opened Board
  import opened Engine

  /** Two piece cells inside the row sit at the same flat position only if
      they are the same cell. */
  lemma DistinctCells(p: Piece, r: int, c: int, r2: int, c2: int)
    requires 0 <= c && p.x + c < 10 && 0 <= c2 && p.x + c2 < 10
    ensures Idx(p.y + r, p.x + c) == Idx(p.y + r2, p.x + c2) <==> r == r2 && c == c2
  {
  }

  /** Rendering a cell into the field does not change whether the cells
      scanned after it fit. */
  lemma {:induction false} FitsFromWrite(f: seq<char>, p: Piece, r0: nat, c0: nat, ch: char, r: nat, c: nat)
    requires |f| == 180 && p.y + Height(p) <= 18 && c <= Width(p)
    requires IsCell(p, r0, c0) && p.x + c0 < 10 && !AtOrAfter(r0, c0, r, c)
    ensures FitsFrom(f[Idx(p.y + r0, p.x + c0) := ch], p, r, c) == FitsFrom(f, p, r, c)
    decreases Height(p) - r, Width(p) - c
  {
    if r >= Height(p) {
    } else if c == Width(p) {
      FitsFromWrite(f, p, r0, c0, ch, r + 1, 0);
    } else {
      FitsFromWrite(f, p, r0, c0, ch, r, c + 1);
      if IsCell(p, r, c) && p.x + c < 10 {
        DistinctCells(p, r0, c0, r, c);
      }
    }
  }

  /** The scan-order definition of fitting, stated with a quantifier. */
  lemma {:induction false} FitsFromAll(f: seq<char>, p: Piece, r: nat, c: nat)
    requires |f| == 180 && p.y + Height(p) <= 18 && c <= Width(p)
    ensures FitsFrom(f, p, r, c) <==>
      forall r2, c2 :: IsCell(p, r2, c2) && AtOrAfter(r2, c2, r, c) ==>
        p.x + c2 < 10 && f[Idx(p.y + r2, p.x + c2)] == Blank
    decreases Height(p) - r, Width(p) - c
  {
    if r >= Height(p) {
    } else if c == Width(p) {
      FitsFromAll(f, p, r + 1, 0);
      AllFitWrap(f, p, r);
    } else {
      FitsFromAll(f, p, r, c + 1);
      AllFitCell(f, p, r, c);
    }
  }

  lemma AllFitWrap(f: seq<char>, p: Piece, r: nat)
    requires |f| == 180 && p.y + Height(p) <= 18
    ensures (forall r2, c2 :: IsCell(p, r2, c2) && AtOrAfter(r2, c2, r, Width(p)) ==>
               p.x + c2 < 10 && f[Idx(p.y + r2, p.x + c2)] == Blank)
        <==> (forall r2, c2 :: IsCell(p, r2, c2) && AtOrAfter(r2, c2, r + 1, 0) ==>
               p.x + c2 < 10 && f[Idx(p.y + r2, p.x + c2)] == Blank)
  {
    forall r2, c2 | IsCell(p, r2, c2)
      ensures AtOrAfter(r2, c2, r, Width(p)) == AtOrAfter(r2, c2, r + 1, 0)
    {
    }
  }

  lemma AllFitCell(f: seq<char>, p: Piece, r: nat, c: nat)
    requires |f| == 180 && p.y + Height(p) <= 18 && r < Height(p) && c < Width(p)
    ensures (forall r2, c2 :: IsCell(p, r2, c2) && AtOrAfter(r2, c2, r, c) ==>
               p.x + c2 < 10 && f[Idx(p.y + r2, p.x + c2)] == Blank)
        <==> (IsCell(p, r, c) ==> p.x + c < 10 && f[Idx(p.y + r, p.x + c)] == Blank) &&
             (forall r2, c2 :: IsCell(p, r2, c2) && AtOrAfter(r2, c2, r, c + 1) ==>
               p.x + c2 < 10 && f[Idx(p.y + r2, p.x + c2)] == Blank)
  {
    forall r2, c2 | IsCell(p, r2, c2)
      ensures AtOrAfter(r2, c2, r, c) == ((r2 == r && c2 == c) || AtOrAfter(r2, c2, r, c + 1))
    {
    }
  }

  /** Flat position j shows box cell (r, c) exactly when j is that cell's index. */
  lemma PositionOfCell(p: Piece, j: int, r: int, c: int)
    requires 0 <= j < 180 && 0 <= c && p.x + c < 10
    ensures (j / 10 - p.y == r && j % 10 - p.x == c) <==> j == Idx(p.y + r, p.x + c)
  {
  }

  /** Among the positions covered from cell (r, c) on, only that cell's own
      position is not covered from the next column on. */
  lemma CoversAfterCell(p: Piece, j: int, r: int, c: int)
    requires 0 <= j < 180 && IsCell(p, r, c) && p.x + c < 10
    ensures j == Idx(p.y + r, p.x + c) ==> CoversFrom(p, j, r, c) && !CoversFrom(p, j, r, c + 1)
    ensures j != Idx(p.y + r, p.x + c) ==> CoversFrom(p, j, r, c) == CoversFrom(p, j, r, c + 1)
  {
    PositionOfCell(p, j, r, c);
  }

  /** Rendering one cell and then the cells after it is rendering from that cell. */
  lemma OverlayCell(g: seq<char>, p: Piece, r: nat, c: nat)
    requires |g| == 180 && p.y + Height(p) <= 18
    requires IsCell(p, r, c) && p.x + c < 10
    ensures OverlayFrom(g[Idx(p.y + r, p.x + c) := ShapeAt(p.block, p.rot, r, c)], p, r, c + 1)
         == OverlayFrom(g, p, r, c)
  {
    var i := Idx(p.y + r, p.x + c);
    var ch := ShapeAt(p.block, p.rot, r, c);
    forall j | 0 <= j < 180
      ensures OverlayFrom(g[i := ch], p, r, c + 1)[j] == OverlayFrom(g, p, r, c)[j]
    {
      OverlayCellAt(g, p, r, c, j);
    }
  }

  lemma OverlayCellAt(g: seq<char>, p: Piece, r: nat, c: nat, j: int)
    requires |g| == 180 && p.y + Height(p) <= 18 && 0 <= j < 180
    requires IsCell(p, r, c) && p.x + c < 10
    ensures OverlayFrom(g[Idx(p.y + r, p.x + c) := ShapeAt(p.block, p.rot, r, c)], p, r, c + 1)[j]
         == OverlayFrom(g, p, r, c)[j]
  {
    CoversAfterCell(p, j, r, c);
  }

  /** A box cell that is not a piece cell renders nothing. */
  lemma OverlaySkip(g: seq<char>, p: Piece, r: int, c: int)
    requires |g| == 180 && !IsCell(p, r, c)
    ensures OverlayFrom(g, p, r, c + 1) == OverlayFrom(g, p, r, c)
  {
    var a := OverlayFrom(g, p, r, c + 1);
    var b := OverlayFrom(g, p, r, c);
    forall j | 0 <= j < 180
      ensures a[j] == b[j]
    {
    }
  }

  /** Past the last column of a row the scan goes on with the next row. */
  lemma OverlayWrap(g: seq<char>, p: Piece, r: int)
    requires |g| == 180
    ensures OverlayFrom(g, p, r, Width(p)) == OverlayFrom(g, p, r + 1, 0)
  {
    var a := OverlayFrom(g, p, r, Width(p));
    var b := OverlayFrom(g, p, r + 1, 0);
    forall j | 0 <= j < 180
      ensures a[j] == b[j]
    {
    }
  }

  /** Nothing is covered once the scan is past the last row. */
  lemma OverlayDone(g: seq<char>, p: Piece)
    requires |g| == 180
    ensures OverlayFrom(g, p, Height(p), 0) == g
  {
  }

  /** The scan position after (r, c): the next column, or the start of the
      next row once the row is done. */
  function NextPos(p: Piece, r: nat, c: nat): (n: (nat, nat))
    requires r < Height(p) && c <= Width(p)
    ensures n.0 <= Height(p) && n.1 <= Width(p)
    ensures !AtOrAfter(r, c, n.0, n.1)
  {
    if c == Width(p) then (r + 1, 0) else (r, c + 1)
  }

  /** The cell at scan position (r, c), if there is one, fits. */
  ghost predicate CellFits(f: seq<char>, p: Piece, r: nat, c: nat)
    requires |f| == 180 && p.y + Height(p) <= 18 && r < Height(p)
  {
    c < Width(p) && IsCell(p, r, c) ==> p.x + c < 10 && f[Idx(p.y + r, p.x + c)] == Blank
  }

  /** Fitting from (r, c) is fitting there and from the next position on. */
  lemma FitsStep(f: seq<char>, p: Piece, r: nat, c: nat)
    requires |f| == 180 && p.y + Height(p) <= 18 && r < Height(p) && c <= Width(p)
    ensures FitsFrom(f, p, r, c) <==> CellFits(f, p, r, c) && FitsFrom(f, p, NextPos(p, r, c).0, NextPos(p, r, c).1)
  {
  }

  /** One step of the scan at (r, c) inside the box: it stops with a
      collision exactly where the cell does not fit, and otherwise goes on
      from the next position with the cell rendered into the target. */
  lemma ScanStep(field: seq<char>, canvas: seq<char>, t: Target, p: Piece, r: nat, c: nat)
    returns (stop: bool, f2: seq<char>, k2: seq<char>)
    requires |field| == 180 && |canvas| == 180
    requires p.y + Height(p) <= 18 && r < Height(p) && c <= Width(p)
    ensures |f2| == 180 && |k2| == 180
    ensures stop ==> Scan(field, canvas, t, p, r, c) == Drawn(true, field, canvas)
    ensures !stop ==> Scan(field, canvas, t, p, r, c) == Scan(f2, k2, t, p, NextPos(p, r, c).0, NextPos(p, r, c).1)
    ensures stop <==> !CellFits(field, p, r, c)
    ensures !stop && !IsCell(p, r, c) ==> f2 == field && k2 == canvas
    ensures !stop && IsCell(p, r, c) ==> p.x + c < 10
    ensures !stop && IsCell(p, r, c) ==>
      f2 == (if t == IntoField then field[Idx(p.y + r, p.x + c) := ShapeAt(p.block, p.rot, r, c)] else field)
    ensures !stop && IsCell(p, r, c) ==>
      k2 == (if t == IntoCanvas then canvas[Idx(p.y + r, p.x + c) := ShapeAt(p.block, p.rot, r, c)] else canvas)
  {
    if c == Width(p) {
      stop, f2, k2 := false, field, canvas;
    } else {
      var ch := ShapeAt(p.block, p.rot, r, c);
      if ch == Blank {
        stop, f2, k2 := false, field, canvas;
      } else if p.x + c >= 10 || field[Idx(p.y + r, p.x + c)] != Blank {
        stop, f2, k2 := true, field, canvas;
      } else {
        var i := Idx(p.y + r, p.x + c);
        stop := false;
        f2 := if t == IntoField then field[i := ch] else field;
        k2 := if t == IntoCanvas then canvas[i := ch] else canvas;
      }
    }
  }

  /** Rendering from (r, c) is rendering the cell at (r, c), if it is one,
      and then rendering from the next position. */
  lemma OverlayStep(g: seq<char>, p: Piece, r: nat, c: nat)
    requires |g| == 180 && p.y + Height(p) <= 18 && r < Height(p) && c <= Width(p)
    ensures !IsCell(p, r, c) ==> OverlayFrom(g, p, r, c) == OverlayFrom(g, p, NextPos(p, r, c).0, NextPos(p, r, c).1)
    ensures IsCell(p, r, c) && p.x + c < 10 ==>
      OverlayFrom(g, p, r, c) ==
      OverlayFrom(g[Idx(p.y + r, p.x + c) := ShapeAt(p.block, p.rot, r, c)], p, NextPos(p, r, c).0, NextPos(p, r, c).1)
  {
    if c == Width(p) {
      OverlayWrap(g, p, r);
    } else if !IsCell(p, r, c) {
      OverlaySkip(g, p, r, c);
    } else if p.x + c < 10 {
      OverlayCell(g, p, r, c);
    }
  }

  /** The scan writes only into its target. */
  lemma {:induction false} ScanTargets(field: seq<char>, canvas: seq<char>, t: Target, p: Piece, r: nat, c: nat)
    requires |field| == 180 && |canvas| == 180
    requires p.y + Height(p) <= 18 && r <= Height(p) && c <= Width(p)
    ensures t != IntoField ==> Scan(field, canvas, t, p, r, c).field == field
    ensures t != IntoCanvas ==> Scan(field, canvas, t, p, r, c).canvas == canvas
    decreases Height(p) - r, Width(p) - c
  {
    if r < Height(p) {
      var stop, f2, k2 := ScanStep(field, canvas, t, p, r, c);
      if !stop {
        var n := NextPos(p, r, c);
        ScanTargets(f2, k2, t, p, n.0, n.1);
      }
    }
  }

  /** The scan reports a collision exactly when some cell from (r, c) on
      does not fit, whatever the target. */
  lemma {:induction false} ScanCollision(field: seq<char>, canvas: seq<char>, t: Target, p: Piece, r: nat, c: nat)
    requires |field| == 180 && |canvas| == 180
    requires p.y + Height(p) <= 18 && r <= Height(p) && c <= Width(p)
    ensures Scan(field, canvas, t, p, r, c).collided <==> !FitsFrom(field, p, r, c)
    decreases Height(p) - r, Width(p) - c
  {
    if r < Height(p) {
      var stop, f2, k2 := ScanStep(field, canvas, t, p, r, c);
      FitsStep(field, p, r, c);
      if !stop {
        var n := NextPos(p, r, c);
        ScanCollision(f2, k2, t, p, n.0, n.1);
        if IsCell(p, r, c) {
          FitsFromWrite(field, p, r, c, ShapeAt(p.block, p.rot, r, c), n.0, n.1);
        }
      }
    }
  }

  /** When the cells from (r, c) on fit, the scan renders exactly them into
      its target. */
  lemma {:induction false} ScanRenders(field: seq<char>, canvas: seq<char>, t: Target, p: Piece, r: nat, c: nat)
    requires |field| == 180 && |canvas| == 180
    requires p.y + Height(p) <= 18 && r <= Height(p) && c <= Width(p)
    requires FitsFrom(field, p, r, c)
    ensures t == IntoField ==> Scan(field, canvas, t, p, r, c).field == OverlayFrom(field, p, r, c)
    ensures t == IntoCanvas ==> Scan(field, canvas, t, p, r, c).canvas == OverlayFrom(canvas, p, r, c)
    decreases Height(p) - r, Width(p) - c
  {
    if r == Height(p) {
      OverlayDone(field, p);
      OverlayDone(canvas, p);
    } else {
      var stop, f2, k2 := ScanStep(field, canvas, t, p, r, c);
      FitsStep(field, p, r, c);
      var n := NextPos(p, r, c);
      if IsCell(p, r, c) {
        FitsFromWrite(field, p, r, c, ShapeAt(p.block, p.rot, r, c), n.0, n.1);
      }
      ScanRenders(f2, k2, t, p, n.0, n.1);
      OverlayStep(field, p, r, c);
      OverlayStep(canvas, p, r, c);
    }
  }

  /** Writing a cell inside rows [lo, hi) leaves the rest alone. */
  lemma SameOutsideWrite(f: seq<char>, g: seq<char>, i: int, ch: char, lo: int, hi: int)
    requires |f| == 180 && |g| == 180 && lo * 10 <= i < hi * 10 && 0 <= i < 180
    requires SameOutside(f[i := ch], g, lo, hi)
    ensures SameOutside(f, g, lo, hi)
  {
  }

  /** The scan leaves every cell outside the rows of the box as it was. */
  lemma {:induction false} ScanFrame(field: seq<char>, canvas: seq<char>, t: Target, p: Piece, r: nat, c: nat)
    requires |field| == 180 && |canvas| == 180
    requires p.y + Height(p) <= 18 && r <= Height(p) && c <= Width(p)
    ensures SameOutside(field, Scan(field, canvas, t, p, r, c).field, p.y, p.y + Height(p))
    ensures SameOutside(canvas, Scan(field, canvas, t, p, r, c).canvas, p.y, p.y + Height(p))
    decreases Height(p) - r, Width(p) - c
  {
    if r < Height(p) {
      var stop, f2, k2 := ScanStep(field, canvas, t, p, r, c);
      if !stop {
        var n := NextPos(p, r, c);
        ScanFrame(f2, k2, t, p, n.0, n.1);
        var d := Scan(f2, k2, t, p, n.0, n.1);
        if IsCell(p, r, c) {
          var i := Idx(p.y + r, p.x + c);
          var ch := ShapeAt(p.block, p.rot, r, c);
          if t == IntoField {
            SameOutsideWrite(field, d.field, i, ch, p.y, p.y + Height(p));
          } else if t == IntoCanvas {
            SameOutsideWrite(canvas, d.canvas, i, ch, p.y, p.y + Height(p));
          }
        }
      }
    }
  }

  /** draw_block returns 1 exactly when the piece does not fit: its box
      reaches below the floor, or one of its cells is right of the last
      column or on an occupied cell. */
  lemma DrawCollision(field: seq<char>, canvas: seq<char>, p: Piece, t: Target)
    requires |field| == 180 && |canvas| == 180
    ensures Draw(field, canvas, p, t).collided <==>
      (p.y + Height(p) > 18 ||
       exists r, c :: IsCell(p, r, c) && (p.x + c >= 10 || field[Idx(p.y + r, p.x + c)] != Blank))
  {
    if p.y + Height(p) <= 18 {
      ScanCollision(field, canvas, t, p, 0, 0);
      FitsFromAll(field, p, 0, 0);
    }
  }

  /** Collision in one word: Draw collides exactly when the piece does not fit. */
  lemma DrawFits(field: seq<char>, canvas: seq<char>, p: Piece, t: Target)
    requires |field| == 180 && |canvas| == 180
    ensures Draw(field, canvas, p, t).collided <==> !Fits(field, p)
  {
    if p.y + Height(p) <= 18 {
      ScanCollision(field, canvas, t, p, 0, 0);
    }
  }

  /** A piece that fits is rendered exactly into the target buffer; the
      other buffer is left alone, and with no target nothing is written. */
  lemma DrawRenders(field: seq<char>, canvas: seq<char>, p: Piece, t: Target)
    requires |field| == 180 && |canvas| == 180 && Fits(field, p)
    ensures Draw(field, canvas, p, t).field == (if t == IntoField then Overlay(field, p) else field)
    ensures Draw(field, canvas, p, t).canvas == (if t == IntoCanvas then Overlay(canvas, p) else canvas)
  {
    ScanRenders(field, canvas, t, p, 0, 0);
    ScanTargets(field, canvas, t, p, 0, 0);
  }

  /** Whatever happens, a draw writes only into its target, and only into
      the rows of the piece's box. */
  lemma DrawFrame(field: seq<char>, canvas: seq<char>, p: Piece, t: Target)
    requires |field| == 180 && |canvas| == 180
    ensures t != IntoField ==> Draw(field, canvas, p, t).field == field
    ensures t != IntoCanvas ==> Draw(field, canvas, p, t).canvas == canvas
    ensures SameOutside(field, Draw(field, canvas, p, t).field, p.y, p.y + Height(p))
    ensures SameOutside(canvas, Draw(field, canvas, p, t).canvas, p.y, p.y + Height(p))
  {
    if p.y + Height(p) <= 18 {
      ScanTargets(field, canvas, t, p, 0, 0);
      ScanFrame(field, canvas, t, p, 0, 0);
    }
  }

  /** The rendered piece covers exactly the flat positions of its cells,
      each showing the cell's character. */
  lemma OverlayCells(g: seq<char>, p: Piece, r: int, c: int)
    requires |g| == 180 && IsCell(p, r, c) && p.x + c < 10 && p.y + r < 18
    ensures Overlay(g, p)[Idx(p.y + r, p.x + c)] == ShapeAt(p.block, p.rot, r, c)
  {
    PositionOfCell(p, Idx(p.y + r, p.x + c), r, c);
  }
}

=== FILE: engine.dfy ===
/** The game engine of one session as pure functions over a `State` value.
    These functions are the specification the imperative `Session` class is
    proved against; the properties of the game are proved about them. */
module Engine {
  import opened Defs
  import opened Blocks
  import opened Board

  /** A shape of the table: a well-formed matrix of at most 4 rows and 3 columns. */
  type Shape = b: Block | WellFormed(b) && b.cols <= 3 && b.rows <= 4 witness Block('O', 2, 2, "####")

  /** `blocks[rand() % num_blocks]`. */
  function Pick(n: nat): (b: Shape)
    ensures b == Table[n % NumBlocks]
  {
    TableFacts(Table[n % NumBlocks]);
    Table[n % NumBlocks]
  }

  /** `struct block_state`: a copy of the falling shape, its rotation and
      the top-left corner of its rotated bounding box. */
  datatype Piece = Piece(block: Shape, rot: Rot, x: nat, y: nat)

  function Height(p: Piece): (h: nat)
    ensures 1 <= h <= 4
  {
    BoxHeight(p.block, p.rot)
  }

  function Width(p: Piece): (w: nat)
    ensures 1 <= w <= 4
  {
    BoxWidth(p.block, p.rot)
  }

  /** (r, c) is a `'#'` cell of the rotated box. */
  predicate IsCell(p: Piece, r: int, c: int) {
    0 <= r < Height(p) && 0 <= c < Width(p) && ShapeAt(p.block, p.rot, r, c) != Blank
  }

  /** Where draw_block renders: nowhere (`tmpfield == NULL`), into the field,
      or into the canvas. */
  datatype Target = NoTarget | IntoField | IntoCanvas

  /** The result of draw_block: its return value and both buffers afterwards. */
  datatype Drawn = Drawn(collided: bool, field: seq<char>, canvas: seq<char>)

  /** The loop nest of draw_block from cell (r, c) on, row by row.  Collision
      reads the field as it is at that moment, so when the target is the field
      itself the cells already rendered are visible to later reads, as in the
      C code.  A `'#'` cell right of the last column counts as a collision. */
  function Scan(field: seq<char>, canvas: seq<char>, t: Target, p: Piece, r: nat, c: nat): (d: Drawn)
    requires |field| == 180 && |canvas| == 180
    requires p.y + Height(p) <= 18 && r <= Height(p) && c <= Width(p)
    ensures |d.field| == 180 && |d.canvas| == 180
    decreases Height(p) - r, Width(p) - c
  {
    if r == Height(p) then Drawn(false, field, canvas)
    else if c == Width(p) then Scan(field, canvas, t, p, r + 1, 0)
    else
      var ch := ShapeAt(p.block, p.rot, r, c);
      if ch == Blank then Scan(field, canvas, t, p, r, c + 1)
      else if p.x + c >= 10 || field[Idx(p.y + r, p.x + c)] != Blank then Drawn(true, field, canvas)
      else
        var i := Idx(p.y + r, p.x + c);
        match t
        case NoTarget => Scan(field, canvas, t, p, r, c + 1)
        case IntoField => Scan(field[i := ch], canvas, t, p, r, c + 1)
        case IntoCanvas => Scan(field, canvas[i := ch], t, p, r, c + 1)
  }

  /** draw_block: the floor check, then the scan. */
  function Draw(field: seq<char>, canvas: seq<char>, p: Piece, t: Target): (d: Drawn)
    requires |field| == 180 && |canvas| == 180
    ensures |d.field| == 180 && |d.canvas| == 180
  {
    if p.y + Height(p) > 18 then Drawn(true, field, canvas)
    else Scan(field, canvas, t, p, 0, 0)
  }

  /** draw_block with `tmpfield == NULL`. */
  predicate Collides(field: seq<char>, p: Piece)
    requires |field| == 180
  {
    Draw(field, field, p, NoTarget).collided
  }

  /** Scan order: cell (r, c) is visited at or after cell (r0, c0). */
  predicate AtOrAfter(r: int, c: int, r0: int, c0: int) {
    r > r0 || (r == r0 && c >= c0)
  }

  /** Every piece cell visited from (r, c) on, in the scan order of
      draw_block, lies left of the right edge and on a blank field cell. */
  ghost predicate FitsFrom(f: seq<char>, p: Piece, r: nat, c: nat)
    requires |f| == 180 && p.y + Height(p) <= 18 && c <= Width(p)
    decreases Height(p) - r, Width(p) - c
  {
    if r >= Height(p) then true
    else if c == Width(p) then FitsFrom(f, p, r + 1, 0)
    else (IsCell(p, r, c) ==> p.x + c < 10 && f[Idx(p.y + r, p.x + c)] == Blank) && FitsFrom(f, p, r, c + 1)
  }

  /** The piece fits: above the floor, inside the rows, on blank cells. */
  ghost predicate Fits(f: seq<char>, p: Piece)
    requires |f| == 180
  {
    p.y + Height(p) <= 18 && FitsFrom(f, p, 0, 0)
  }

  /** Flat position i shows a piece cell visited from (r0, c0) on. */
  predicate CoversFrom(p: Piece, i: int, r0: int, c0: int) {
    IsCell(p, i / 10 - p.y, i % 10 - p.x) && AtOrAfter(i / 10 - p.y, i % 10 - p.x, r0, c0)
  }

  /** g with the piece cells visited from (r0, c0) on rendered into it. */
  function OverlayFrom(g: seq<char>, p: Piece, r0: int, c0: int): (o: seq<char>)
    requires |g| == 180
    ensures |o| == 180
  {
    seq(180, i requires 0 <= i < 180 =>
      if CoversFrom(p, i, r0, c0) then ShapeAt(p.block, p.rot, i / 10 - p.y, i % 10 - p.x) else g[i])
  }

  /** g with the whole piece rendered into it. */
  function Overlay(g: seq<char>, p: Piece): (o: seq<char>)
    requires |g| == 180
    ensures |o| == 180
  {
    OverlayFrom(g, p, 0, 0)
  }

  /** A piece cell inside the row sits at flat position Idx(y + r, x + c). */
  lemma CellPosition(p: Piece, r: int, c: int)
    requires IsCell(p, r, c) && p.x + c < 10
    ensures var i := Idx(p.y + r, p.x + c); i / 10 - p.y == r && i % 10 - p.x == c
  {
  }

  // ---------------------------------------------------------------- pace

  /** change_step_time: factor 0.5f (`faster`) or 2.0f, then the clamp to
      [STEP_TIME_GRANULARITY, 2000]. */
  function Rescale(t: nat, faster: bool): nat {
    var u := if faster then t / 2 else t * 2;
    if u < StepTimeGranularity then StepTimeGranularity
    else if u > StepTimeMax then StepTimeMax
    else u
  }

  /** `step_time_next *= TIME_FACTOR_PER_LEVEL` (0.7f), truncated. */
  function Decay(t: nat): nat {
    t * 7 / 10
  }

  // ---------------------------------------------------------------- state

  /** `struct game_state_int`: the exposed game state, the pace, the piece
      and the two buffers.  `showCanvas` records which buffer `gs.field`
      points to. */
  datatype State = State(
    phase: Phase, points: nat, level: nat, togo: nat, showCanvas: bool,
    stepCur: nat, stepNext: nat, piece: Piece,
    field: seq<char>, canvas: seq<char>)

  predicate Sized(s: State) {
    |s.field| == 180 && |s.canvas| == 180
  }

  /** The `struct game_state` the engine hands out, with the content of the
      buffer `gs.field` points to. */
  function ViewOf(s: State): View {
    View(s.phase, s.points, s.level, s.togo, if s.showCanvas then s.canvas else s.field)
  }

  /** The piece new_block spawns from two results of rand(). */
  function Spawn(r1: nat, r2: nat): Piece {
    Piece(Pick(r1), 0, r2 % (10 - Pick(r1).cols), 0)
  }

  /** Both buffers as a draw_block call left them. */
  function Store(s: State, d: Drawn): (r: State)
    requires |d.field| == 180 && |d.canvas| == 180
    ensures Sized(r)
  {
    s.(field := d.field, canvas := d.canvas)
  }

  /** new_block: spawn a piece and render it into the canvas; the flag is
      draw_block's return value. */
  function NewBlock(s: State, r1: nat, r2: nat): (r: (State, bool))
    requires Sized(s)
    ensures Sized(r.0)
  {
    (Store(s.(piece := Spawn(r1, r2)), Draw(s.field, s.canvas, Spawn(r1, r2), IntoCanvas)),
     Draw(s.field, s.canvas, Spawn(r1, r2), IntoCanvas).collided)
  }

  /** init_game: blank field, canvas copied from it, a fresh piece, level 1. */
  function Init(r1: nat, r2: nat): (s: State)
    ensures Sized(s)
  {
    NewBlock(State(InProgress, 0, 1, InitLinesPerLevel, false, StepTimeInit, StepTimeInit,
                   Spawn(r1, r2), Spaces(180), Spaces(180)), r1, r2).0
      .(phase := InProgress, points := 0, level := 1, togo := InitLinesPerLevel, showCanvas := false)
  }

  // ---------------------------------------------------------------- scoring

  /** The entry after position i of the `lines` array, which holds -1 past
      the rows found. */
  function NextLine(lines: seq<int>, i: nat): int {
    if i + 1 < |lines| then lines[i + 1] else -1
  }

  /** The combo counter of test_remove_lines over positions 0 .. n-1:
      position i counts when i < 3 and the next entry is lines[i] - 1. */
  function Combos(lines: seq<int>, n: nat): nat
    requires n <= |lines|
  {
    if n == 0 then 0
    else Combos(lines, n - 1) + (if n - 1 < 3 && NextLine(lines, n - 1) == lines[n - 1] - 1 then 1 else 0)
  }

  function Pow2(n: nat): nat {
    if n == 0 then 1 else 2 * Pow2(n - 1)
  }

  /** Points a clearing of `lines` earns at `level`. */
  function LinePoints(lines: seq<int>, level: nat): nat {
    (Pow2(Combos(lines, |lines|)) + |lines|) * level
  }

  /** test_remove_lines: clear the full rows, score them, and advance the
      level (or win) once enough rows are cleared. */
  function RemoveLines(s: State): (r: State)
    requires Sized(s)
    ensures Sized(r)
  {
    Score(s.(field := ClearLines(s.field)), |FullRows(s.field, 0)|, LinePoints(FullRows(s.field, 0), s.level))
  }

  /** The counters of test_remove_lines after k rows worth `gained` points
      were cleared: the score wraps as an `unsigned`, and the level advances
      (or the game is won) once the rows to go are used up. */
  function Score(s: State, k: nat, gained: nat): (r: State)
    ensures r.field == s.field && r.canvas == s.canvas && r.piece == s.piece
    ensures r.stepCur == s.stepCur && r.showCanvas == s.showCanvas
  {
    if k == 0 then s
    else if s.togo <= k then
      if s.level >= MaxLevel then s.(points := (s.points + gained) % U32Limit, phase := Win)
      else s.(points := (s.points + gained) % U32Limit, level := s.level + 1,
              togo := (s.level + 1) * InitLinesPerLevel, stepNext := Decay(s.stepNext))
    else s.(points := (s.points + gained) % U32Limit, togo := s.togo - k)
  }

  // ---------------------------------------------------------------- moves

  /** The lock path of update_state: render the current piece into the
      field, clear lines, copy the field to the canvas, spawn, and lose if
      the spawn collides. */
  function Lock(s: State, r1: nat, r2: nat): (r: State)
    requires Sized(s)
    ensures Sized(r)
  {
    Respawn(RemoveLines(Store(s, Draw(s.field, s.canvas, s.piece, IntoField))), r1, r2)
  }

  /** The end of the lock path: copy the field to the canvas, spawn, lose
      if the spawn collides, and show the field. */
  function Respawn(s: State, r1: nat, r2: nat): (r: State)
    requires Sized(s)
    ensures Sized(r)
  {
    Lost(NewBlock(s.(canvas := s.field), r1, r2))
  }

  function Lost(nb: (State, bool)): State {
    nb.0.(phase := if nb.1 then Lose else nb.0.phase, showCanvas := false)
  }

  /** update_state with candidate piece np. */
  function UpdateState(s: State, np: Piece, down: bool, r1: nat, r2: nat): (r: State)
    requires Sized(s)
    ensures Sized(r)
  {
    if Collides(s.field, np) then
      if down then Lock(s, r1, r2) else s.(showCanvas := true)
    else Store(s.(piece := np, showCanvas := true), Draw(s.field, s.field, np, IntoCanvas))
  }

  /** check_set_rotation: take the new rotation only if the box stays
      within the field width. */
  function CheckSetRotation(p: Piece, newRot: Rot): Piece {
    if p.x + BoxWidth(p.block, newRot) <= 10 then p.(rot := newRot) else p
  }

  function Clockwise(rot: Rot): Rot {
    (rot + 1) % 4
  }

  function CounterClockwise(rot: Rot): Rot {
    if rot == 0 then 3 else rot - 1
  }

  /** The do-while loop of DOWN_INSTANT from row y on: the first row at or
      below y where the piece collides. */
  function DropFrom(f: seq<char>, p: Piece, y: nat): (r: nat)
    requires |f| == 180
    ensures r >= y
    decreases 19 - y
  {
    if Collides(f, p.(y := y)) then y else DropFrom(f, p, y + 1)
  }

  /** The row DOWN_INSTANT stops at: the first one below the piece where it
      collides. */
  function Landing(s: State): (y: nat)
    requires Sized(s)
    ensures y > s.piece.y
  {
    DropFrom(s.field, s.piece, s.piece.y + 1)
  }

  /** The candidate of a move down: one row lower. */
  function Lower(p: Piece): Piece {
    p.(y := p.y + 1)
  }

  /** A call that hands out the game state. */
  function Respond(s: State): (State, Option<View>) {
    (s, Some(ViewOf(s)))
  }

  /** What the switch of handle_input passes on to update_state: the state
      it works on, the candidate block state `new_bs`, and `down_movement`. */
  datatype Move = Move(s: State, np: Piece, down: bool)

  /** The switch of handle_input for a key that reaches update_state. */
  function Prepare(s: State, inp: Input, r1: nat): (m: Move)
    requires Sized(s)
    ensures Sized(m.s)
  {
    match inp
    case Down => Move(s, Lower(s.piece), true)
    case Left => Move(s, if s.piece.x != 0 then s.piece.(x := s.piece.x - 1) else s.piece, false)
    case Right => Move(s, if s.piece.x + Width(s.piece) < 10 then s.piece.(x := s.piece.x + 1) else s.piece, false)
    case Faster => Move(s.(stepNext := Rescale(s.stepNext, true)), s.piece, false)
    case Slower => Move(s.(stepNext := Rescale(s.stepNext, false)), s.piece, false)
    case Clock => Move(s, CheckSetRotation(s.piece, Clockwise(s.piece.rot)), false)
    case CounterClock => Move(s, CheckSetRotation(s.piece, CounterClockwise(s.piece.rot)), false)
    case Cheat => Move(s, s.piece.(block := Pick(r1)), false)
    case Pause => Move(s.(phase := if s.phase == Stopped then InProgress else s.phase), s.piece, false)
    case DownInstant => Move(s.(piece := s.piece.(y := Landing(s) - 1)), s.piece.(y := Landing(s)), true)
    case Void => Move(s, s.piece, false)
    case Restart => Move(s, s.piece, false)
  }

  /** update_state on what the switch prepared, handing out the result. */
  function Commit(m: Move, r1: nat, r2: nat): (r: (State, Option<View>))
    requires Sized(m.s)
    ensures Sized(r.0)
  {
    Respond(UpdateState(m.s, m.np, m.down, r1, r2))
  }

  /** handle_input for a known key: RESTART and a PAUSE that stops the game
      return early without handing out a state. */
  function Dispatch(s: State, inp: Input, r1: nat, r2: nat): (r: (State, Option<View>))
    requires Sized(s)
    ensures Sized(r.0)
  {
    if inp == Restart then (Init(r1, r2), None)
    else if inp == Pause && s.phase == InProgress then (s.(phase := Stopped), None)
    else Commit(Prepare(s, inp, r1), r1, r2)
  }

  /** handle_input: `code` is the raw value of the key; r1 and r2 stand for
      the rand() results a spawn or a CHEAT consumes. */
  function HandleInput(s: State, code: int, r1: nat, r2: nat): (r: (State, Option<View>))
    requires Sized(s)
    ensures Sized(r.0)
  {
    if s.phase == Stopped && code != Pause.Code() then (s, None)
    else
      if InputOf(code).None? then (s, None)
      else Dispatch(s, InputOf(code).value, r1, r2)
  }

  /** A substep that only counts down: one granule less of the pace, and
      the canvas is to be shown. */
  function Countdown(s: State): (r: State)
    requires s.stepCur > StepTimeGranularity
  {
    s.(stepCur := s.stepCur - StepTimeGranularity, showCanvas := true)
  }

  /** The countdown reloaded from `step_time_next`. */
  function Reload(s: State): (r: State)
    ensures Sized(r) == Sized(s)
  {
    s.(stepCur := s.stepNext)
  }

  /** A substep that moves down: the pace reloaded, then update_state with
      the block one row lower. */
  function Fall(s: State, r1: nat, r2: nat): (r: State)
    requires Sized(s)
    ensures Sized(r)
  {
    UpdateState(Reload(s), Lower(s.piece), true, r1, r2)
  }

  /** handle_substep: count the pace down, or reload it and move down. */
  function HandleSubstep(s: State, r1: nat, r2: nat): (r: (State, Option<View>))
    requires Sized(s)
    ensures Sized(r.0)
  {
    if s.phase == Stopped then (s, None)
    else if s.stepCur > StepTimeGranularity then Respond(Countdown(s))
    else Respond(Fall(s, r1, r2))
  }
}

=== FILE: game.dfy ===
/** One game session, `struct game_state_int`, as an object whose methods
    update it in place the way the C functions do: nested loops over the
    piece's box, `memmove`/`memset`/`memcpy` on the two buffers, a do-while
    for the hard drop.  Each method is proved against the engine function it
    implements, so every property proved about the engine holds of it. */
module Game {
  import opened Defs
  import opened Blocks
  import opened Board
  import opened Engine
  import opened Drawing
  import opened Rules

  /** The four-entry `lines` array of test_remove_lines holds the rows L
      in its first idx entries and the sentinel -1 after them. */
  ghost predicate Recorded(a: seq<int>, idx: nat, L: seq<int>) {
    |a| == 4 && idx <= 4 && a[..idx] == L && forall k :: idx <= k < 4 ==> a[k] == -1
  }

  /** Before the scan nothing is recorded. */
  lemma NothingRecorded(f: seq<char>)
    requires |f| == 180
    ensures Recorded([-1, -1, -1, -1], 0, FullRows(f, 18))
  {
    assert FullRows(f, 18) == [];
  }

  /** Recording a full row i: the rows found from i on are those found
      from i + 1 on, then i. */
  lemma RecordRow(a: seq<int>, idx: nat, L: seq<int>, i: int)
    requires Recorded(a, idx, L) && idx < 4
    ensures Recorded(a[idx := i], idx + 1, L + [i])
  {
    assert a[idx := i][..idx + 1] == a[..idx] + [i];
  }

  /** One step of the first loop of test_remove_lines, at row n - 1. */
  lemma ScanRow(f: seq<char>, a: seq<int>, idx: nat, n: nat, full: bool)
    requires |f| == 180 && 0 < n <= 18 && |FullRows(f, 0)| <= 4
    requires Recorded(a, idx, FullRows(f, n)) && full == RowFull(f, n - 1)
    ensures full ==> idx < 4 && Recorded(a[idx := n - 1], idx + 1, FullRows(f, n - 1))
    ensures !full ==> Recorded(a, idx, FullRows(f, n - 1))
  {
    FullRowsAbove(f, n);
    if full {
      FullRowsShorter(f, 0, n - 1);
      RecordRow(a, idx, FullRows(f, n), n - 1);
    }
  }

  /** The rows the first loop records are rows of the field, and as many
      as there are full rows. */
  lemma RecordedRows(a: seq<int>, idx: nat, f: seq<char>)
    requires |f| == 180 && Recorded(a, idx, FullRows(f, 0))
    ensures Recorded(a, idx, a[..idx]) && idx == |FullRows(f, 0)|
    ensures forall k :: 0 <= k < idx ==> 0 <= a[k] < 18
  {
    assert forall k :: 0 <= k < idx ==> a[k] == a[..idx][k];
  }

  /** test_remove_lines, once the rows L are collapsed and the top |L| rows
      blanked, is RemoveLines. */
  lemma ClearedRows(s: State, L: seq<int>)
    requires Sized(s) && L == FullRows(s.field, 0)
    ensures RemoveLines(s) == Score(s.(field := BlankTop(Collapse(s.field, L), |L|)), |L|, LinePoints(L, s.level))
  {
    assert ClearLines(s.field) == BlankTop(Collapse(s.field, L), |L|);
  }

  /** `(1 << (max_consecutive_lines_cleared - 1)) + lines_cleared` points
      per level, with the counter one past the adjacent pairs. */
  lemma CurrentPoints(L: seq<int>, c: nat, cur: nat, level: nat)
    requires c == Combos(L, |L|) + 1 && cur == Pow2(c - 1) + |L|
    ensures cur * level == LinePoints(L, level)
  {
  }

  /** Removing the rows L[..n], the last one first. */
  lemma CollapseTop(g: seq<char>, L: seq<int>, n: nat)
    requires |g| == 180 && 0 < n <= |L|
    requires forall k :: 0 <= k < |L| ==> 0 <= L[k] < 18
    ensures Collapse(g, L[..n]) == Collapse(Shift(g, L[n - 1]), L[..n - 1])
  {
    assert L[..n][..n - 1] == L[..n - 1];
  }

  /** The combo test at entry i of the `lines` array is the combo counted
      at position i of the recorded rows. */
  lemma ComboAt(a: seq<int>, idx: nat, i: nat, n: nat)
    requires |a| == 4 && idx <= 4 && Recorded(a, idx, a[..idx]) && n == i + 1 && n <= idx
    ensures Combos(a[..idx], n) == Combos(a[..idx], i) + (if i < 3 && a[i + 1] == a[i] - 1 then 1 else 0)
  {
    assert i >= 3 || NextLine(a[..idx], i) == a[i + 1];
  }

  /** The inner loop of test_remove_lines' first loop: row i is full
      unless a blank cell is found in it.  The first pass of test_remove_lines
      only reads the field, so it is stated over the field's contents. */
  method RowIsFull(field: seq<char>, i: nat) returns (full: bool)
    requires |field| == 180 && i < 18
    ensures full == RowFull(field, i)
  {
    full := true;
    var j := 0;
    while j < 10
      invariant j <= 10
      invariant Blank !in field[i * 10 .. i * 10 + j]
    {
      if field[i * 10 + j] == Blank {
        full := false;
        assert Row(field, i)[j] == Blank;
        break;
      }
      assert field[i * 10 .. i * 10 + j + 1] == field[i * 10 .. i * 10 + j] + [field[i * 10 + j]];
      j := j + 1;
    }
    assert full ==> Row(field, i) == field[i * 10 .. i * 10 + 10];
  }

  /** The first loop of test_remove_lines: rows 17 up to 0 are tested and
      the full ones recorded in the four-entry `lines` array, whose other
      entries keep the sentinel -1.  `lines_cleared` is always `idx`. */
  method FindLines(field: seq<char>) returns (lines: seq<int>, idx: nat)
    requires |field| == 180 && |FullRows(field, 0)| <= 4
    ensures Recorded(lines, idx, FullRows(field, 0))
  {
    lines := [-1, -1, -1, -1];
    idx := 0;
    var n := 18;  // the loop's `i` is n - 1
    NothingRecorded(field);
    while n > 0
      invariant n <= 18
      invariant Recorded(lines, idx, FullRows(field, n))
    {
      var i := n - 1;
      var full := RowIsFull(field, i);
      ScanRow(field, lines, idx, n, full);
      if full {
        lines := lines[idx := i];
        idx := idx + 1;
      }
      n := n - 1;
    }
  }

  class Session {
    var phase: Phase
    var points: nat
    var level: nat
    var togo: nat
    /** Whether `gs.field` points to the canvas rather than the field. */
    var showCanvas: bool
    var stepCur: nat
    var stepNext: nat
    var piece: Piece
    /** The two buffers of 18 rows of 10 cells, row after row. */
    const field: array<char>
    const canvas: array<char>

    predicate Valid() {
      field.Length == 180 && canvas.Length == 180 && field != canvas
    }

    /** The session as an engine state. */
    function Abs(): (s: State)
      requires Valid()
      reads this, field, canvas
      ensures Sized(s)
    {
      State(phase, points, level, togo, showCanvas, stepCur, stepNext, piece, field[..], canvas[..])
    }

    /** draw_block: the floor check, then the loop nest over the rotated box,
        reading the field and rendering into the target buffer, if any. */
    method DrawBlock(p: Piece, t: Target) returns (collided: bool)
      requires Valid()
      modifies if t == IntoField then {field} else if t == IntoCanvas then {canvas} else {}
      ensures Drawn(collided, field[..], canvas[..]) == Draw(old(field[..]), old(canvas[..]), p, t)
    {
      var height := BoxHeight(p.block, p.rot);
      if p.y + height > 18 {
        return true;
      }
      var width := BoxWidth(p.block, p.rot);
      ghost var d := Draw(field[..], canvas[..], p, t);
      var r := 0;
      while r < height
        invariant r <= height
        invariant Scan(field[..], canvas[..], t, p, r, 0) == d
      {
        var c := 0;
        while c < width
          invariant c <= width
          invariant Scan(field[..], canvas[..], t, p, r, c) == d
        {
          var stop := DrawCell(p, t, r, c);
          if stop {
            return true;
          }
          c := c + 1;
        }
        ghost var stop, f2, k2 := ScanStep(field[..], canvas[..], t, p, r, c);
        r := r + 1;
      }
      return false;
    }

    /** The body of draw_block's loop nest for cell (r, c): skip a blank
        cell, stop on a collision, otherwise render into the target. */
    method DrawCell(p: Piece, t: Target, r: nat, c: nat) returns (stop: bool)
      requires Valid() && p.y + Height(p) <= 18 && r < Height(p) && c < Width(p)
      modifies if t == IntoField then {field} else if t == IntoCanvas then {canvas} else {}
      ensures stop ==> Scan(old(field[..]), old(canvas[..]), t, p, r, c) == Drawn(true, field[..], canvas[..])
      ensures !stop ==> Scan(old(field[..]), old(canvas[..]), t, p, r, c) == Scan(field[..], canvas[..], t, p, r, c + 1)
    {
      ghost var st, f2, k2 := ScanStep(field[..], canvas[..], t, p, r, c);
      var ch := ShapeAt(p.block, p.rot, r, c);
      if ch == Blank {
        return false;
      }
      var i := Idx(p.y + r, p.x + c);
      if p.x + c >= 10 || field[i] != Blank {
        return true;
      }
      if t == IntoField {
        field[i] := ch;
      } else if t == IntoCanvas {
        canvas[i] := ch;
      }
      return false;
    }

    /** change_step_time with factor 0.5f (`faster`) or 2.0f: scale the
        next pace, then clamp it to [STEP_TIME_GRANULARITY, 2000]. */
    method ChangeStepTime(faster: bool)
      requires Valid()
      modifies this
      ensures Abs() == old(Abs()).(stepNext := Rescale(old(stepNext), faster))
    {
      stepNext := if faster then stepNext / 2 else stepNext * 2;
      if stepNext < StepTimeGranularity {
        stepNext := StepTimeGranularity;
      } else if stepNext > StepTimeMax {
        stepNext := StepTimeMax;
      }
    }

    /** new_block: shape `r1 % num_blocks` at column `r2 % (10 - cols)` of
        the top row, unrotated, rendered into the canvas; the result is
        draw_block's. */
    method NewBlock(r1: nat, r2: nat) returns (collided: bool)
      requires Valid()
      modifies this, canvas
      ensures Abs() == Engine.NewBlock(old(Abs()), r1, r2).0
      ensures collided == Engine.NewBlock(old(Abs()), r1, r2).1
    {
      var b := Pick(r1);
      piece := Piece(b, 0, r2 % (10 - b.cols), 0);
      collided := DrawBlock(piece, IntoCanvas);
    }

    /** init_game: the initial pace, a blank field, the canvas copied from
        it, a new piece, and a running game at level 1 with no points. */
    method InitGame(r1: nat, r2: nat)
      requires Valid()
      modifies this, field, canvas
      ensures Abs() == Init(r1, r2)
    {
      stepCur := StepTimeInit;
      stepNext := StepTimeInit;
      forall i | 0 <= i < 180 {
        field[i] := Blank;
      }
      forall i | 0 <= i < 180 {
        canvas[i] := field[i];
      }
      assert field[..] == Spaces(180) && canvas[..] == Spaces(180);
      var _ := NewBlock(r1, r2);
      phase := InProgress;
      points := 0;
      level := 1;
      togo := InitLinesPerLevel;
      showCanvas := false;
    }

    /** A session slot set up by init_game. */
    constructor (r1: nat, r2: nat)
      ensures Valid() && fresh(field) && fresh(canvas)
      ensures Abs() == Init(r1, r2)
    {
      field := new char[180](_ => Blank);
      canvas := new char[180](_ => Blank);
      piece := Spawn(r1, r2);
      new;
      InitGame(r1, r2);
    }

    /** The second loop of test_remove_lines: from the topmost recorded row
        down to the bottommost, everything above the row moves one row down
        (`memmove`), and a recorded row counts towards the combo when the
        entry after it is the row just above it.  A negative entry would
        end the loop. */
    method CollapseRows(lines: seq<int>, idx: nat) returns (combos: nat)
      requires Valid() && |lines| == 4 && idx <= 4 && Recorded(lines, idx, lines[..idx])
      requires forall k :: 0 <= k < idx ==> 0 <= lines[k] < 18
      modifies field
      ensures field[..] == Collapse(old(field[..]), lines[..idx])
      ensures combos == Combos(lines[..idx], idx)
    {
      ghost var L := lines[..idx];
      combos := 0;
      var n := idx;  // the loop's `i` is n - 1
      assert L[..n] == L;
      while n > 0 && lines[n - 1] >= 0
        invariant n <= idx
        invariant Collapse(old(field[..]), L) == Collapse(field[..], L[..n])
        invariant combos + Combos(L, n) == Combos(L, idx)
      {
        var i := n - 1;
        ghost var g := field[..];
        var l := lines[i];
        forall j | 10 <= j < 10 + 10 * l {
          field[j] := field[j - 10];
        }
        assert field[..] == Shift(g, l);
        CollapseTop(g, L, n);
        ComboAt(lines, idx, i, n);
        if i < 3 && lines[i + 1] == lines[i] - 1 {
          combos := combos + 1;
        }
        n := n - 1;
      }
      assert L[..0] == [];
    }

    /** test_remove_lines: remove the full rows, blank the top rows
        (`memset`), then score and advance the level, or win at the last
        level.  The four-entry `lines` array needs at most four full rows. */
    method TestRemoveLines()
      requires Valid() && |FullRows(field[..], 0)| <= 4
      modifies this, field
      ensures Abs() == RemoveLines(old(Abs()))
    {
      ghost var s0 := Abs();
      var lines, idx := FindLines(field[..]);
      RecordedRows(lines, idx, s0.field);
      var combos := CollapseRows(lines, idx);
      if idx > 0 {
        BlankRows(idx);
        ghost var s1 := Abs();
        assert s1 == s0.(field := BlankTop(Collapse(s0.field, lines[..idx]), idx));
        combos := combos + 1;
        var cur := Pow2(combos - 1) + idx;
        Award(idx, cur);
        ClearedRows(s0, lines[..idx]);
        CurrentPoints(lines[..idx], combos, cur, s0.level);
      } else {
        BlankTopNone(field[..]);
        assert Abs() == s0;
      }
    }

    /** `memset(field[0], ' ', FIELD_WIDTH * lines_cleared)`. */
    method BlankRows(k: nat)
      requires Valid() && k <= 18
      modifies field
      ensures field[..] == BlankTop(old(field[..]), k)
    {
      forall j | 0 <= j < 10 * k {
        field[j] := Blank;
      }
    }

    /** The scoring branch of test_remove_lines, for k > 0 cleared rows
        worth `cur` points per level: the score wraps as an `unsigned`,
        then the level advances, or the game is won at the last level. */
    method Award(k: nat, cur: nat)
      requires Valid() && k > 0
      modifies this
      ensures Abs() == Score(old(Abs()), k, cur * old(level))
    {
      points := (points + cur * level) % U32Limit;
      if togo <= k {
        if level >= MaxLevel {
          phase := Win;
          return;
        }
        level := level + 1;
        togo := level * InitLinesPerLevel;
        stepNext := Decay(stepNext);
      } else {
        togo := togo - k;
      }
    }

    /** draw_block with `tmpfield == NULL`: whether the piece collides. */
    method Probe(p: Piece) returns (collided: bool)
      requires Valid()
      ensures collided == Collides(field[..], p)
    {
      collided := DrawBlock(p, NoTarget);
      DrawFits(field[..], canvas[..], p, NoTarget);
      DrawFits(field[..], field[..], p, NoTarget);
    }

    /** `memcpy(canvas, field, FIELD_SIZE)`. */
    method CopyField()
      requires Valid()
      modifies canvas
      ensures Abs() == old(Abs()).(canvas := old(field[..]))
    {
      forall i | 0 <= i < 180 {
        canvas[i] := field[i];
      }
    }

    /** The lock path of update_state: the current piece is rendered into
        the field, full rows are removed, the canvas is synchronised with
        the field, and a new piece spawns; a spawn that collides loses the
        game.  The current piece lies above the floor and the field has no
        full row, so at most four rows fill up, as `lines[4]` needs. */
    method LockPiece(r1: nat, r2: nat)
      requires Valid() && NoFullRow(field[..]) && piece.y + Height(piece) <= 18
      modifies this, field, canvas
      ensures Abs() == Lock(old(Abs()), r1, r2)
    {
      ghost var s0 := Abs();
      LockRows(s0);
      var _ := DrawBlock(piece, IntoField);
      assert Abs() == Store(s0, Draw(s0.field, s0.canvas, s0.piece, IntoField));
      TestRemoveLines();
      ghost var s1 := Abs();
      CopyField();
      ghost var s2 := Abs();
      assert s2 == s1.(canvas := s1.field);
      var lost := NewBlock(r1, r2);
      ghost var nb := Engine.NewBlock(s2, r1, r2);
      assert (Abs(), lost) == nb;
      SetLost(lost);
      assert Abs() == Lost(nb) == Respawn(s1, r1, r2);
    }

    /** The end of the lock path: `phase` becomes TET_LOSE when the spawn
        collided, and `gs.field` points to the field again. */
    method SetLost(lost: bool)
      requires Valid()
      modifies this
      ensures Abs() == Lost((old(Abs()), lost))
    {
      if lost {
        phase := Lose;
      }
      showCanvas := false;
    }

    /** The move path of update_state: the candidate becomes the piece, and
        the canvas is the field with the piece rendered into it. */
    method Place(np: Piece)
      requires Valid()
      modifies this, canvas
      ensures Abs() == Store(old(Abs()).(piece := np, showCanvas := true),
                             Draw(old(field[..]), old(field[..]), np, IntoCanvas))
    {
      piece := np;
      CopyField();
      var _ := DrawBlock(np, IntoCanvas);
      showCanvas := true;
    }

    /** update_state: a candidate that collides is refused, and locks the
        current piece when the move was downwards; one that does not
        collide is taken.  `showCanvas` is where `gs.field` points. */
    method UpdateState(np: Piece, down: bool, r1: nat, r2: nat)
      requires Valid() && NoFullRow(field[..]) && piece.y + Height(piece) <= 18
      modifies this, field, canvas
      ensures Abs() == Engine.UpdateState(old(Abs()), np, down, r1, r2)
    {
      var collided := Probe(np);
      if collided {
        if down {
          LockPiece(r1, r2);
        } else {
          showCanvas := true;
        }
      } else {
        Place(np);
      }
    }

    /** The do-while loop of TET_DOWN_INSTANT: the candidate moves down
        until it collides, and the piece is set one row above it. */
    method DropDown() returns (np: Piece)
      requires Valid()
      modifies this
      ensures np == old(piece).(y := Landing(old(Abs())))
      ensures Abs() == old(Abs()).(piece := old(piece).(y := Landing(old(Abs())) - 1))
    {
      ghost var s := Abs();
      np := piece;
      np := np.(y := np.y + 1);
      var collided := Probe(np);
      while !collided
        invariant Abs() == s
        invariant np == s.piece.(y := np.y) && np.y > s.piece.y
        invariant DropFrom(s.field, s.piece, np.y) == Landing(s)
        invariant collided == Collides(s.field, np)
        decreases 19 - np.y
      {
        np := np.(y := np.y + 1);
        collided := Probe(np);
      }
      piece := piece.(y := np.y - 1);
    }

    /** The switch of handle_input for the keys that reach update_state:
        the candidate `new_bs` and `down_movement` it prepares, and what it
        changes on the way (the pace, the pause, the hard drop's piece). */
    method PrepareMove(inp: Input, r1: nat) returns (np: Piece, down: bool)
      requires Valid()
      modifies this
      ensures Move(Abs(), np, down) == Prepare(old(Abs()), inp, r1)
    {
      np := piece;
      down := false;
      match inp {
        case Down =>
          np := np.(y := np.y + 1);
          down := true;
        case Left =>
          if np.x != 0 {
            np := np.(x := np.x - 1);
          }
        case Right =>
          if np.x + Width(np) < 10 {
            np := np.(x := np.x + 1);
          }
        case Faster =>
          ChangeStepTime(true);
        case Slower =>
          ChangeStepTime(false);
        case Clock =>
          np := CheckSetRotation(np, Clockwise(np.rot));
        case CounterClock =>
          np := CheckSetRotation(np, CounterClockwise(np.rot));
        case Cheat =>
          np := np.(block := Pick(r1));
        case Pause =>
          if phase == Stopped {
            phase := InProgress;
          }
        case DownInstant =>
          np := DropDown();
          down := true;
        case Void =>
        case Restart =>
      }
    }

    /** handle_input for a known key: TET_RESTART and a TET_PAUSE that
        stops the game return NULL; every other key goes through the switch
        to update_state, whose game state is handed out. */
    method Dispatch(inp: Input, r1: nat, r2: nat) returns (view: Option<View>)
      requires Valid() && Inv(Abs()) && (phase == Stopped ==> inp == Pause)
      modifies this, field, canvas
      ensures (Abs(), view) == Engine.Dispatch(old(Abs()), inp, r1, r2)
    {
      if inp == Restart {
        InitGame(r1, r2);
        return None;
      }
      if inp == Pause && phase == InProgress {
        phase := Stopped;
        return None;
      }
      ghost var s := Abs();
      var np, down := PrepareMove(inp, r1);
      InvPrepare(s, inp, r1);
      UpdateState(np, down, r1, r2);
      view := Some(ViewOf(Abs()));
    }

    /** handle_input: while paused only TET_PAUSE is heard, and an unknown
        key code is ignored. */
    method HandleInput(code: int, r1: nat, r2: nat) returns (view: Option<View>)
      requires Valid() && Inv(Abs())
      modifies this, field, canvas
      ensures (Abs(), view) == Engine.HandleInput(old(Abs()), code, r1, r2)
    {
      if phase == Stopped && code != Pause.Code() {
        return None;
      }
      var inp := InputOf(code);
      if inp.None? {
        return None;
      }
      view := Dispatch(inp.value, r1, r2);
    }

    /** handle_substep: nothing while paused; otherwise count the pace down
        by one granule, or reload it and move the piece down one row. */
    method HandleSubstep(r1: nat, r2: nat) returns (view: Option<View>)
      requires Valid() && Inv(Abs())
      modifies this, field, canvas
      ensures (Abs(), view) == Engine.HandleSubstep(old(Abs()), r1, r2)
    {
      if phase == Stopped {
        return None;
      }
      if stepCur > StepTimeGranularity {
        stepCur := stepCur - StepTimeGranularity;
        showCanvas := true;
        return Some(ViewOf(Abs()));
      }
      Fall(r1, r2);
      view := Some(ViewOf(Abs()));
    }

    /** The moving substep: the countdown is reloaded from
        `step_time_next`, and the piece moves down one row. */
    method Fall(r1: nat, r2: nat)
      requires Valid() && NoFullRow(field[..]) && piece.y + Height(piece) <= 18
      modifies this, field, canvas
      ensures Abs() == Engine.Fall(old(Abs()), r1, r2)
    {
      ghost var s := Abs();
      stepCur := stepNext;
      ghost var s1 := Abs();
      assert s1 == Reload(s);
      var np := piece.(y := piece.y + 1);
      assert np == Lower(s.piece);
      UpdateState(np, true, r1, r2);
      assert Abs() == Engine.UpdateState(s1, np, true, r1, r2);
    }
  }
}

=== FILE: overflow.dfy ===
/** draw_block's collision test as written indexes `field[y + r][x + c]`
    with no test of the column: in the two-dimensional array a column past
    the right wall is a cell of the next row, and past the last row it is
    the canvas, which follows the field in `struct game_state_int`.  This
    module states that test over the memory the buffers occupy and shows a
    reachable candidate it wrongly accepts; the engine's Scan refuses it. */
module Overflow {
  import opened Defs
  import opened Blocks
  import opened Board
  import opened Engine
  import opened Drawing

  /** draw_block with `tmpfield == NULL`, as written: the floor check,
      then every cell of the piece read at offset `(y + r) * 10 + x + c`
      of the field followed by the canvas. */
  ghost predicate CollidesAsWritten(field: seq<char>, canvas: seq<char>, p: Piece)
    requires |field| == 180 && |canvas| == 180 && p.x < 10
  {
    p.y + Height(p) > 18 ||
    exists r, c :: IsCell(p, r, c) && (field + canvas)[Idx(p.y + r, p.x + c)] != Blank
  }

  /** An upright I spawned in column 8 moves right to column 9, and a
      TET_CHEAT that draws Z keeps the column, so Z's box reaches two
      columns past the right wall. */
  lemma WrapReachable(s: State, r1: nat)
    requires Sized(s) && s.piece == Piece(I, 0, 8, 0) && r1 % NumBlocks == 0
    ensures Spawn(6, 8) == Piece(I, 0, 8, 0)
    ensures Prepare(s, Right, r1).np == Piece(I, 0, 9, 0)
    ensures Prepare(s.(piece := Piece(I, 0, 9, 0)), Cheat, r1).np == Piece(Z, 0, 9, 0)
  {

  }

  /** On a blank field the as-written test accepts Z in column 9, whose
      cell (0, 1) lands on row 1, column 0; the engine's test refuses it. */
  lemma WrapAccepted(canvas: seq<char>)
    requires |canvas| == 180
    ensures !CollidesAsWritten(Spaces(180), canvas, Piece(Z, 0, 9, 0))
    ensures Collides(Spaces(180), Piece(Z, 0, 9, 0))
    ensures IsCell(Piece(Z, 0, 9, 0), 0, 1) && Idx(0, 9 + 1) == Idx(1, 0)
  {
    var p := Piece(Z, 0, 9, 0);
    var f := Spaces(180);

    forall r, c | IsCell(p, r, c)
      ensures (f + canvas)[Idx(p.y + r, p.x + c)] == Blank
    {
      assert Idx(p.y + r, p.x + c) < 180;
    }
    DrawCollision(f, f, p, NoTarget);
  }
}

=== FILE: queue.dfy ===
/** The bounded circular buffer the game threads hand finished scores to
    the high-score writer through.  One slot always stays free, so the
    buffer holds at most BufferSize - 1 values. */
module Queue {
  import opened Defs

  const BufferSize: nat := 50

  /** The wait condition of produce: the buffer is full. */
  predicate FullAsWritten(inIdx: nat, outIdx: nat) {
    (inIdx > outIdx && inIdx - outIdx == BufferSize - 1) || (inIdx < outIdx && outIdx - inIdx == 1)
  }

  /** The number of values held between `out` and `in`. */
  function Count(inIdx: nat, outIdx: nat): (n: nat)
    requires inIdx < BufferSize && outIdx < BufferSize
    ensures n < BufferSize
    ensures n == 0 <==> inIdx == outIdx
  {
    if outIdx <= inIdx then inIdx - outIdx else BufferSize - outIdx + inIdx
  }

  /** The full test is `(in + 1) % BUFFER_SIZE == out`, i.e. the buffer
      holds BUFFER_SIZE - 1 values. */
  lemma FullTest(inIdx: nat, outIdx: nat)
    requires inIdx < BufferSize && outIdx < BufferSize
    ensures FullAsWritten(inIdx, outIdx) <==> (inIdx + 1) % BufferSize == outIdx
    ensures FullAsWritten(inIdx, outIdx) <==> Count(inIdx, outIdx) == BufferSize - 1
  {
  }

  /** The values held, oldest first: from `out` up to `in`, wrapping round. */
  function Window(b: seq<U32>, inIdx: nat, outIdx: nat): (w: seq<U32>)
    requires |b| == BufferSize && inIdx < BufferSize && outIdx < BufferSize
    ensures |w| == Count(inIdx, outIdx)
  {
    if outIdx <= inIdx then b[outIdx..inIdx] else b[outIdx..] + b[..inIdx]
  }

  /** Storing at `in` and advancing it appends the value. */
  lemma {:induction false} WindowPush(b: seq<U32>, inIdx: nat, outIdx: nat, v: U32)
    requires |b| == BufferSize && inIdx < BufferSize && outIdx < BufferSize && !FullAsWritten(inIdx, outIdx)
    ensures Window(b[inIdx := v], (inIdx + 1) % BufferSize, outIdx) == Window(b, inIdx, outIdx) + [v]
  {
    var b' := b[inIdx := v];
    var w := Window(b, inIdx, outIdx);
    var w' := Window(b', (inIdx + 1) % BufferSize, outIdx);
    assert |w'| == |w| + 1;
    forall k | 0 <= k < |w'|
      ensures w'[k] == (w + [v])[k]
    {
      if outIdx + k < BufferSize {
        assert w'[k] == b'[outIdx + k];
        if k < |w| { assert w[k] == b[outIdx + k]; }
      } else {
        assert w'[k] == b'[outIdx + k - BufferSize];
        if k < |w| { assert w[k] == b[outIdx + k - BufferSize]; }
      }
    }
  }

  /** Clearing the slot at `out` and advancing it drops the oldest value. */
  lemma {:induction false} WindowPop(b: seq<U32>, inIdx: nat, outIdx: nat)
    requires |b| == BufferSize && inIdx < BufferSize && outIdx < BufferSize && inIdx != outIdx
    ensures Window(b, inIdx, outIdx)[0] == b[outIdx]
    ensures Window(b[outIdx := 0], inIdx, (outIdx + 1) % BufferSize) == Window(b, inIdx, outIdx)[1..]
  {
    var b' := b[outIdx := 0];
    var w := Window(b, inIdx, outIdx);
    var w' := Window(b', inIdx, (outIdx + 1) % BufferSize);
    assert |w'| == |w| - 1;
    forall k | 0 <= k < |w'|
      ensures w'[k] == w[k + 1]
    {
      if outIdx + 1 + k < BufferSize {
        assert w'[k] == b'[outIdx + 1 + k];
        assert w[k + 1] == b[outIdx + 1 + k];
      } else {
        assert w'[k] == b'[outIdx + 1 + k - BufferSize];
        assert w[k + 1] == b[outIdx + 1 + k - BufferSize];
      }
    }
  }

  /** The buffer with its `in` and `out` indices (`inIdx`, `outIdx`). */
  class RingBuffer {
    const buffer: array<U32>
    var inIdx: nat
    var outIdx: nat

    predicate Valid()
      reads this
    {
      buffer.Length == BufferSize && inIdx < BufferSize && outIdx < BufferSize
    }

    function Contents(): seq<U32>
      requires Valid()
      reads this, buffer
    {
      Window(buffer[..], inIdx, outIdx)
    }

    /** The zero-initialised static buffer. */
    constructor()
      ensures Valid() && inIdx == 0 && outIdx == 0 && Contents() == []
      ensures forall i :: 0 <= i < BufferSize ==> buffer[i] == 0
    {
      buffer := new U32[BufferSize](_ => 0);
      inIdx, outIdx := 0, 0;
    }

    /** produce, once the buffer is not full: stores at `in` and advances
        it; the value joins the end of the contents. */
    method Produce(value: U32)
      requires Valid() && !FullAsWritten(inIdx, outIdx)
      modifies this, buffer
      ensures Valid()
      ensures buffer[..] == old(buffer[..])[old(inIdx) := value]
      ensures inIdx == (old(inIdx) + 1) % BufferSize && outIdx == old(outIdx)
      ensures Contents() == old(Contents()) + [value]
    {
      ghost var b, i, w := buffer[..], inIdx, Contents();
      WindowPush(b, i, outIdx, value);
      buffer[inIdx] := value;
      inIdx := (inIdx + 1) % BufferSize;
      assert buffer[..] == b[i := value];
      assert Contents() == w + [value];
    }

    /** consume, once the buffer is not empty: returns the oldest value,
        zeroes its slot and advances `out`. */
    method Consume() returns (v: U32)
      requires Valid() && inIdx != outIdx
      modifies this, buffer
      ensures Valid()
      ensures v == old(Contents())[0] && Contents() == old(Contents())[1..]
      ensures buffer[..] == old(buffer[..])[old(outIdx) := 0]
      ensures outIdx == (old(outIdx) + 1) % BufferSize && inIdx == old(inIdx)
    {
      ghost var b, o, w := buffer[..], outIdx, Contents();
      WindowPop(b, inIdx, o);
      v := buffer[outIdx];
      buffer[outIdx] := 0;
      outIdx := (outIdx + 1) % BufferSize;
      assert buffer[..] == b[o := 0];
      assert Contents() == w[1..];
    }
  }
}

=== FILE: registry.dfy ===
/** The client-slot registries of the server variants.  Each one is
    guarded by a mutex in the C code; here each method body is one atomic
    step.  `get_client_id` hands out a session index, or
    INVALID_CLIENT_ID (-1) when none is available. */
module Registry {
  import opened Defs

  /** The lowest free slot, or -1 when every slot is in use. */
  function FirstFree(used: seq<bool>): (id: int)
    ensures -1 <= id < |used|
    ensures id == -1 <==> forall i :: 0 <= i < |used| ==> used[i]
    ensures id >= 0 ==> !used[id] && forall i :: 0 <= i < id ==> used[i]
  {
    if |used| == 0 then -1
    else if !used[0] then 0
    else
      var id := FirstFree(used[1..]);
      assert forall i :: 1 <= i < |used| ==> used[i] == used[1..][i - 1];
      if id == -1 then -1 else id + 1
  }

  /** The highest free slot, or -1 when every slot is in use. */
  function LastFree(used: seq<bool>): (id: int)
    ensures -1 <= id < |used|
    ensures id == -1 <==> forall i :: 0 <= i < |used| ==> used[i]
    ensures id >= 0 ==> !used[id] && forall i :: id < i < |used| ==> used[i]
  {
    if |used| == 0 then -1
    else if !used[|used| - 1] then |used| - 1
    else LastFree(used[..|used| - 1])
  }

  /** release_client_id: an id outside the table is ignored, otherwise its
      flag is cleared. */
  function Released(used: seq<bool>, id: U32): (r: seq<bool>)
    ensures |r| == |used|
    ensures forall i :: 0 <= i < |used| ==> r[i] == (used[i] && i != id)
  {
    if id < |used| then used[id := false] else used
  }

  /** Releasing twice is releasing once. */
  lemma ReleaseIdempotent(used: seq<bool>, id: U32)
    ensures Released(Released(used, id), id) == Released(used, id)
  {
    var once := Released(used, id);
    assert forall i :: 0 <= i < |used| ==> Released(once, id)[i] == once[i];
  }

  /** Acquiring the first free slot and releasing the id handed out gives
      back the original table. */
  lemma AcquireRelease(used: seq<bool>)
    requires |used| == ClientsMax && FirstFree(used) >= 0
    ensures Released(used[FirstFree(used) := true], FirstFree(used)) == used
  {
    var id := FirstFree(used);
    var r := Released(used[id := true], id);
    assert forall i :: 0 <= i < |used| ==> r[i] == used[i];
  }

  /** `clients_in_use` of the shared module: first free slot, with `break`. */
  class FirstFitSlots {
    const inUse: array<bool>

    predicate Valid()
      reads this
    {
      inUse.Length == ClientsMax
    }

    /** The table starts with every slot free. */
    constructor ()
      ensures Valid() && fresh(inUse)
      ensures forall i :: 0 <= i < ClientsMax ==> !inUse[i]
    {
      inUse := new bool[ClientsMax](_ => false);
    }

    /** get_client_id: the first free slot is marked in use and handed out;
        with every slot in use nothing changes and -1 is returned. */
    method Acquire() returns (id: int)
      requires Valid()
      modifies inUse
      ensures id == FirstFree(old(inUse[..]))
      ensures inUse[..] == if id == -1 then old(inUse[..]) else old(inUse[..])[id := true]
    {
      id := InvalidClientId;
      var i := 0;
      while i < ClientsMax
        invariant 0 <= i <= ClientsMax
        invariant forall k :: 0 <= k < i ==> inUse[k]
        invariant inUse[..] == old(inUse[..])
      {
        if !inUse[i] {
          id := i;
          inUse[i] := true;
          break;
        }
        i := i + 1;
      }
    }

    /** release_client_id. */
    method Release(id: U32)
      requires Valid()
      modifies inUse
      ensures inUse[..] == Released(old(inUse[..]), id)
    {
      if id >= ClientsMax {
        return;
      }
      inUse[id] := false;
    }
  }

  /** `clients_in_use` of the newer server (server.c): the scan has no `break`, so
      every free slot is marked in use and the last one is handed out. */
  class GreedySlots {
    const inUse: array<bool>

    predicate Valid()
      reads this
    {
      inUse.Length == ClientsMax
    }

    constructor ()
      ensures Valid() && fresh(inUse)
      ensures forall i :: 0 <= i < ClientsMax ==> !inUse[i]
    {
      inUse := new bool[ClientsMax](_ => false);
    }

    /** get_client_id as written: the highest free slot is handed out and
        afterwards every slot is in use. */
    method Acquire() returns (id: int)
      requires Valid()
      modifies inUse
      ensures id == LastFree(old(inUse[..]))
      ensures forall i :: 0 <= i < ClientsMax ==> inUse[i]
    {
      ghost var used := inUse[..];
      id := InvalidClientId;
      var i := 0;
      while i < ClientsMax
        invariant 0 <= i <= ClientsMax
        invariant id == LastFree(used[..i])
        invariant forall k :: 0 <= k < i ==> inUse[k]
        invariant forall k :: i <= k < ClientsMax ==> inUse[k] == used[k]
      {
        assert used[..i + 1][..i] == used[..i];
        if !inUse[i] {
          id := i;
          inUse[i] := true;
        }
        i := i + 1;
      }
      assert used[..ClientsMax] == used;
    }

    /** release_client_id, the same as the shared module's. */
    method Release(id: U32)
      requires Valid()
      modifies inUse
      ensures inUse[..] == Released(old(inUse[..]), id)
    {
      if id >= ClientsMax {
        return;
      }
      inUse[id] := false;
    }
  }

  /** Two successive calls in one process of the newer server (server.c)
      return 4, then -1, where the first-fit table hands out slot 0 and
      still has four free.  The server makes each call in a fresh child
      forked from a parent that never writes the table, so across clients
      every call starts from all slots free (see EachChildFirstCall). */
  lemma GreedyLocksOut()
    ensures LastFree([false, false, false, false, false]) == 4
    ensures LastFree([true, true, true, true, true]) == -1
    ensures FirstFree([false, false, false, false, false]) == 0
    ensures FirstFree([true, false, false, false, false]) == 1
  {
    assert [false, false, false, false, false][4] == false;
  }

  /** The counter of the older server: ids 0, 1, ... up to CLIENTS_MAX-1,
      then -1; nothing ever gives an id back. */
  function CounterStep(count: nat): (r: (int, nat))
    ensures count <= ClientsMax ==> r.1 <= ClientsMax
    ensures r.1 >= count
  {
    if count < ClientsMax then (count, count + 1) else (InvalidClientId, count)
  }

  /** The ids k successive calls hand out, starting from `count`. */
  function Handed(count: nat, k: nat): (ids: seq<int>)
    ensures |ids| == k
    decreases k
  {
    if k == 0 then [] else [CounterStep(count).0] + Handed(CounterStep(count).1, k - 1)
  }

  /** From counter c, call j hands out c + j while that is below
      CLIENTS_MAX, and -1 afterwards. */
  lemma {:induction false} HandedInOrder(c: nat, k: nat)
    requires c <= ClientsMax
    ensures forall j :: 0 <= j < k ==> Handed(c, k)[j] == (if c + j < ClientsMax then c + j else -1)
    decreases k
  {
    if k > 0 {
      HandedInOrder(CounterStep(c).1, k - 1);
    }
  }

  /** No id is handed out twice by successive calls in one process. */
  lemma NeverReused(k: nat, i: nat, j: nat)
    requires i < j < k && Handed(0, k)[i] >= 0
    ensures Handed(0, k)[i] != Handed(0, k)[j]
  {
    HandedInOrder(0, k);
  }

  /** `clients_in_use` of the older server: a counter. */
  class CounterSlots {
    var count: nat

    predicate Valid()
      reads this
    {
      count <= ClientsMax
    }

    constructor ()
      ensures Valid() && count == 0
    {
      count := 0;
    }

    /** get_client_id: the next id while the counter is below CLIENTS_MAX. */
    method Acquire() returns (id: int)
      requires Valid()
      modifies this
      ensures Valid()
      ensures (id, count) == CounterStep(old(count))
      ensures id == Handed(old(count), 1)[0]
    {
      id := InvalidClientId;
      if count < ClientsMax {
        id := count;
        count := count + 1;
      }
    }
  }

  /** Both servers call get_client_id once, in a child forked from a parent
      whose table is never written: the greedy scan then always starts from
      all slots free and hands out 4, and the counter always starts at 0 and
      hands out 0. */
  lemma EachChildFirstCall()
    ensures LastFree([false, false, false, false, false]) == 4
    ensures Handed(0, 1) == [0]
  {
  }
}

=== FILE: rules.dfy ===
/** The rules of the game as properties of the engine functions: spawning,
    moving, rotating, dropping, locking, clearing and scoring, pausing and
    the pace, and the invariant every reachable state keeps. */
module Rules {
  import opened Defs
  import opened Blocks
  import opened Board
  import opened Engine
  import opened Drawing

  /** What every state reachable from init_game satisfies: the buffers are
      180 cells, the field has no full row, the counters are in range, the
      piece's box is above the floor, and unless the game is lost the piece
      fits the field. */
  ghost predicate Inv(s: State) {
    Sized(s) && NoFullRow(s.field) &&
    1 <= s.level <= MaxLevel && 1 <= s.togo <= s.level &&
    s.points < U32Limit && s.stepNext <= StepTimeMax &&
    s.piece.y + Height(s.piece) <= 18 &&
    (s.phase != Lose ==> Fits(s.field, s.piece))
  }

  // ---------------------------------------------------------------- spawning

  lemma BlankNoFullRow()
    ensures NoFullRow(Spaces(180))
  {
    var f := Spaces(180);
    forall r: nat | (r + 1) * 10 <= |f|
      ensures !RowFull(f, r)
    {
      assert Row(f, r)[0] == Blank;
    }
  }

  /** A spawned piece is the drawn shape, unrotated, at the top, strictly
      left of the right wall (the last column is never used by a spawn),
      and it fits an empty field. */
  lemma SpawnPlacement(r1: nat, r2: nat)
    ensures Spawn(r1, r2).block == Table[r1 % NumBlocks]
    ensures Spawn(r1, r2).rot == 0 && Spawn(r1, r2).y == 0
    ensures Spawn(r1, r2).x + Width(Spawn(r1, r2)) < 10
    ensures Fits(Spaces(180), Spawn(r1, r2))
  {
    var p := Spawn(r1, r2);
    var f := Spaces(180);
    FitsFromAll(f, p, 0, 0);
    forall r2, c2 | IsCell(p, r2, c2) && AtOrAfter(r2, c2, 0, 0)
      ensures p.x + c2 < 10 && f[Idx(p.y + r2, p.x + c2)] == Blank
    {
    }
  }

  /** init_game: an empty field, the spawned piece drawn on the canvas,
      level 1, no points, the initial pace; the state satisfies Inv. */
  lemma InitState(r1: nat, r2: nat)
    ensures Init(r1, r2).field == Spaces(180)
    ensures Init(r1, r2).piece == Spawn(r1, r2)
    ensures Init(r1, r2).canvas == Overlay(Spaces(180), Spawn(r1, r2))
    ensures Init(r1, r2).phase == InProgress && Init(r1, r2).points == 0
    ensures Init(r1, r2).level == 1 && Init(r1, r2).togo == InitLinesPerLevel
    ensures Init(r1, r2).stepCur == StepTimeInit && Init(r1, r2).stepNext == StepTimeInit
    ensures !Init(r1, r2).showCanvas
    ensures Inv(Init(r1, r2))
  {
    var blank := Spaces(180);
    SpawnPlacement(r1, r2);
    DrawRenders(blank, blank, Spawn(r1, r2), IntoCanvas);
    BlankNoFullRow();
  }

  // ---------------------------------------------------------------- moving

  function Turns(rot: Rot, n: nat): Rot
    decreases n
  {
    if n == 0 then rot else Turns(Clockwise(rot), n - 1)
  }

  /** CLOCK and CCLOCK undo each other, and four quarter turns are none. */
  lemma RotationsInverse(rot: Rot)
    ensures CounterClockwise(Clockwise(rot)) == rot
    ensures Clockwise(CounterClockwise(rot)) == rot
    ensures Turns(rot, 4) == rot
  {
  }

  /** check_set_rotation takes the new rotation exactly when the rotated
      box fits the width, and never moves the piece. */
  lemma RotationChecked(p: Piece, newRot: Rot)
    ensures CheckSetRotation(p, newRot).rot == newRot <==> (p.x + BoxWidth(p.block, newRot) <= 10 || p.rot == newRot)
    ensures CheckSetRotation(p, newRot).x == p.x && CheckSetRotation(p, newRot).y == p.y
    ensures CheckSetRotation(p, newRot).block == p.block
    ensures p.x + Width(p) <= 10 ==> CheckSetRotation(p, newRot).x + Width(CheckSetRotation(p, newRot)) <= 10
  {
  }

  /** LEFT and RIGHT keep the box within the walls. */
  lemma SidewaysStayInside(p: Piece)
    requires p.x + Width(p) <= 10
    ensures var q := if p.x != 0 then p.(x := p.x - 1) else p; q.x + Width(q) <= 10
    ensures var q := if p.x + Width(p) < 10 then p.(x := p.x + 1) else p; q.x + Width(q) <= 10
  {
  }

  // ---------------------------------------------------------------- pace

  /** FASTER and SLOWER keep the pace within [STEP_TIME_GRANULARITY, 2000]. */
  lemma RescaleRange(t: nat, faster: bool)
    ensures StepTimeGranularity <= Rescale(t, faster) <= StepTimeMax
  {
  }

  /** FASTER then SLOWER restores an even pace of at least 200, and SLOWER
      then FASTER restores a pace of at most 1000. */
  lemma RescaleInverse(t: nat)
    ensures 200 <= t <= StepTimeMax && t % 2 == 0 ==> Rescale(Rescale(t, true), false) == t
    ensures StepTimeGranularity <= t <= 1000 ==> Rescale(Rescale(t, false), true) == t
  {
  }

  /** A level-up shortens the pace to 70 percent, never lengthens it. */
  lemma DecayShortens(t: nat)
    ensures Decay(t) <= t
    ensures t >= 4 ==> Decay(t) < t
    ensures 10 * Decay(t) <= 7 * t < 10 * Decay(t) + 10
  {
  }

  // ---------------------------------------------------------------- dropping

  /** The DOWN_INSTANT loop stops at the first row, from y on, where the
      piece collides: it collides there and at no row in between. */
  lemma {:induction false} DropLands(f: seq<char>, p: Piece, y: nat)
    requires |f| == 180
    ensures Collides(f, p.(y := DropFrom(f, p, y)))
    ensures forall y2 :: y <= y2 < DropFrom(f, p, y) ==> !Collides(f, p.(y := y2))
    decreases 19 - y
  {
    if !Collides(f, p.(y := y)) {
      assert DropFrom(f, p, y) == DropFrom(f, p, y + 1);
      DropLands(f, p, y + 1);
    }
  }

  // ---------------------------------------------------------------- scoring

  /** Adjacent pairs lines[i], lines[i+1] with lines[i+1] == lines[i] - 1:
      the combos a clearing is meant to count. */
  function AdjacentPairs(lines: seq<int>): nat {
    if |lines| < 2 then 0
    else AdjacentPairs(lines[..|lines| - 1]) + (if lines[|lines| - 1] == lines[|lines| - 2] - 1 then 1 else 0)
  }

  lemma {:induction false} CombosPrefix(lines: seq<int>, n: nat)
    requires |lines| <= 4 && n < |lines|
    ensures Combos(lines, n) == AdjacentPairs(lines[..n + 1])
  {
    if n > 0 {
      CombosPrefix(lines, n - 1);
      assert lines[..n + 1][..n] == lines[..n];
    }
  }

  /** The combo count of test_remove_lines is the number of adjacent pairs,
      plus one when fewer than four rows are cleared and the topmost of
      them is row 0: the -1 padding after the last found row then looks
      adjacent to it. */
  lemma CombosSentinel(lines: seq<int>)
    requires 1 <= |lines| <= 4
    ensures Combos(lines, |lines|) ==
      AdjacentPairs(lines) + (if |lines| <= 3 && lines[|lines| - 1] == 0 then 1 else 0)
  {
    CombosPrefix(lines, |lines| - 1);
    assert lines[..|lines|] == lines;
  }

  /** Scores at level `lv`: a single row earns 2, or 3 when it is row 0; four
      adjacent rows earn 12. */
  lemma ScoreExamples(r: nat, lv: nat)
    requires r < 18
    ensures LinePoints([r], lv) == (if r == 0 then 3 else 2) * lv
    ensures r + 3 < 18 ==> LinePoints([r + 3, r + 2, r + 1, r], lv) == 12 * lv
  {
    CombosSentinel([r]);
    if r + 3 < 18 {
      var ls := [r + 3, r + 2, r + 1, r];
      CombosSentinel(ls);
      assert ls[..3] == [r + 3, r + 2, r + 1];
      assert ls[..3][..2] == [r + 3, r + 2];
      assert ls[..3][..2][..1] == [r + 3];
      assert AdjacentPairs([r + 3, r + 2]) == 1;
      assert AdjacentPairs([r + 3, r + 2, r + 1]) == 2;
      assert AdjacentPairs(ls) == 3;
      assert Pow2(3) == 8;
    }
  }

  // ---------------------------------------------------------------- clearing

  /** test_remove_lines on the field: the full rows vanish, the other rows
      keep their order and sink to the bottom, blank rows fill the top, and
      no full row is left. */
  lemma RemoveLinesField(s: State)
    requires Sized(s)
    ensures RemoveLines(s).field == Spaces(10 * |FullRows(s.field, 0)|) + Keep(s.field, 18)
    ensures NoFullRow(RemoveLines(s).field)
    ensures RemoveLines(s).piece == s.piece && RemoveLines(s).canvas == s.canvas
    ensures RemoveLines(s).stepCur == s.stepCur && RemoveLines(s).showCanvas == s.showCanvas
  {
    ClearLinesKeepsRows(s.field);
    ClearLinesNoFullRow(s.field);
  }

  /** With no full row, test_remove_lines changes nothing at all. */
  lemma RemoveNothing(s: State)
    requires Sized(s) && NoFullRow(s.field)
    ensures RemoveLines(s) == s
  {
    NoLines(s.field, 0);
    ClearLinesIdle(s.field);
    assert s.(field := ClearLines(s.field)) == s;
  }

  /** test_remove_lines on the counters: they stay in range, the level
      never drops and advances exactly when the rows cleared reach the rows
      to go below the last level, and the game is won exactly when that
      happens at the last level. */
  lemma RemoveLinesCounters(s: State)
    requires Sized(s) && 1 <= s.level <= MaxLevel && 1 <= s.togo <= s.level
    requires s.points < U32Limit && s.stepNext <= StepTimeMax
    ensures 1 <= RemoveLines(s).level <= MaxLevel && 1 <= RemoveLines(s).togo <= RemoveLines(s).level
    ensures RemoveLines(s).points < U32Limit && RemoveLines(s).stepNext <= s.stepNext
    ensures RemoveLines(s).level == s.level + 1 <==>
      0 < |FullRows(s.field, 0)| && s.togo <= |FullRows(s.field, 0)| && s.level < MaxLevel
    ensures RemoveLines(s).level == s.level <==>
      !(0 < |FullRows(s.field, 0)| && s.togo <= |FullRows(s.field, 0)| && s.level < MaxLevel)
    ensures RemoveLines(s).phase == if Wins(s, s.field) then Win else s.phase
  {
  }

  // ---------------------------------------------------------------- locking

  /** Rendering the piece into a field without full rows makes full at most
      the rows of its box, so at most four: test_remove_lines' four-entry
      `lines` array is enough. */
  lemma LockRows(s: State)
    requires Sized(s) && NoFullRow(s.field) && s.piece.y + Height(s.piece) <= 18
    ensures |FullRows(Draw(s.field, s.canvas, s.piece, IntoField).field, 0)| <= Height(s.piece) <= 4
    ensures forall i :: 0 <= i < |FullRows(Draw(s.field, s.canvas, s.piece, IntoField).field, 0)| ==>
      s.piece.y <= FullRows(Draw(s.field, s.canvas, s.piece, IntoField).field, 0)[i] < s.piece.y + Height(s.piece)
  {
    DrawFrame(s.field, s.canvas, s.piece, IntoField);
    FullRowsWithin(s.field, Draw(s.field, s.canvas, s.piece, IntoField).field, s.piece.y, s.piece.y + Height(s.piece));
  }

  /** Clearing the rows full in f wins the game: the rows to go are used up
      at the last level. */
  ghost predicate Wins(s: State, f: seq<char>)
    requires |f| == 180
  {
    0 < |FullRows(f, 0)| && s.togo <= |FullRows(f, 0)| && s.level >= MaxLevel
  }

  /** The end of the lock path on a field f: the spawn becomes the piece and
      the field is shown; the game is lost exactly when the spawn collides,
      and otherwise the spawn is drawn on a copy of the field. */
  lemma RespawnOutcome(s: State, r1: nat, r2: nat)
    requires Sized(s)
    ensures Respawn(s, r1, r2).field == s.field
    ensures Respawn(s, r1, r2).piece == Spawn(r1, r2) && !Respawn(s, r1, r2).showCanvas
    ensures Respawn(s, r1, r2).phase == if Fits(s.field, Spawn(r1, r2)) then s.phase else Lose
    ensures Fits(s.field, Spawn(r1, r2)) ==> Respawn(s, r1, r2).canvas == Overlay(s.field, Spawn(r1, r2))
    ensures Respawn(s, r1, r2).points == s.points && Respawn(s, r1, r2).level == s.level
    ensures Respawn(s, r1, r2).togo == s.togo && Respawn(s, r1, r2).stepNext == s.stepNext
  {
    var p := Spawn(r1, r2);
    DrawFits(s.field, s.field, p, IntoCanvas);
    DrawFrame(s.field, s.field, p, IntoCanvas);
    if Fits(s.field, p) {
      DrawRenders(s.field, s.field, p, IntoCanvas);
    }
  }

  /** The lock path for a piece that fits: the field becomes the field with
      the piece rendered and the full rows cleared, and a new piece is
      spawned on it.  A clearing that wins is overridden by a spawn that
      collides. */
  lemma LockOutcome(s: State, r1: nat, r2: nat)
    requires Sized(s) && Fits(s.field, s.piece)
    ensures Lock(s, r1, r2).field == ClearLines(Overlay(s.field, s.piece))
    ensures Lock(s, r1, r2).piece == Spawn(r1, r2) && !Lock(s, r1, r2).showCanvas
    ensures Lock(s, r1, r2).phase ==
      if !Fits(ClearLines(Overlay(s.field, s.piece)), Spawn(r1, r2)) then Lose
      else if Wins(s, Overlay(s.field, s.piece)) then Win
      else s.phase
    ensures Fits(ClearLines(Overlay(s.field, s.piece)), Spawn(r1, r2)) ==>
      Lock(s, r1, r2).canvas == Overlay(ClearLines(Overlay(s.field, s.piece)), Spawn(r1, r2))
  {
    DrawRenders(s.field, s.canvas, s.piece, IntoField);
    var s0 := Store(s, Draw(s.field, s.canvas, s.piece, IntoField));
    assert s0.field == Overlay(s.field, s.piece);
    RespawnOutcome(RemoveLines(s0), r1, r2);
  }

  // ---------------------------------------------------------------- update_state

  /** update_state with a candidate that fits: the candidate becomes the
      piece and is shown on a copy of the field; the field is untouched. */
  lemma UpdateMoves(s: State, np: Piece, down: bool, r1: nat, r2: nat)
    requires Sized(s) && Fits(s.field, np)
    ensures UpdateState(s, np, down, r1, r2) == s.(piece := np, canvas := Overlay(s.field, np), showCanvas := true)
  {
    DrawFits(s.field, s.field, np, NoTarget);
    DrawRenders(s.field, s.field, np, IntoCanvas);
  }

  /** update_state with a candidate that does not fit: a down move locks the
      current piece, any other move is refused and the canvas shown. */
  lemma UpdateRefuses(s: State, np: Piece, down: bool, r1: nat, r2: nat)
    requires Sized(s) && !Fits(s.field, np)
    ensures UpdateState(s, np, down, r1, r2) == if down then Lock(s, r1, r2) else s.(showCanvas := true)
  {
    DrawFits(s.field, s.field, np, NoTarget);
  }

  /** Only the lock path writes into the field. */
  lemma FieldOnlyOnLock(s: State, np: Piece, down: bool, r1: nat, r2: nat)
    requires Sized(s)
    ensures UpdateState(s, np, down, r1, r2).field != s.field ==> down && !Fits(s.field, np)
  {
    if Fits(s.field, np) {
      UpdateMoves(s, np, down, r1, r2);
    } else {
      UpdateRefuses(s, np, down, r1, r2);
    }
  }

  // ---------------------------------------------------------------- the invariant

  lemma InvLock(s: State, r1: nat, r2: nat)
    requires Inv(s)
    ensures Inv(Lock(s, r1, r2))
  {
    var s0 := Store(s, Draw(s.field, s.canvas, s.piece, IntoField));
    RemoveLinesField(s0);
    RemoveLinesCounters(s0);
    SpawnPlacement(r1, r2);
    RespawnOutcome(RemoveLines(s0), r1, r2);
  }

  lemma InvUpdate(s: State, np: Piece, down: bool, r1: nat, r2: nat)
    requires Inv(s)
    ensures Inv(UpdateState(s, np, down, r1, r2))
  {
    if Fits(s.field, np) {
      UpdateMoves(s, np, down, r1, r2);
    } else {
      UpdateRefuses(s, np, down, r1, r2);
      if down {
        InvLock(s, r1, r2);
      }
    }
  }

  /** The state DOWN_INSTANT locks from: the piece moved to just above the
      row where it first collides. */
  function DropState(s: State): State
    requires Sized(s)
  {
    s.(piece := s.piece.(y := Landing(s) - 1))
  }

  /** The row DOWN_INSTANT stops at is the first where the piece does not
      fit, so the row above it keeps the invariant. */
  lemma InvDrop(s: State)
    requires Inv(s)
    ensures Inv(DropState(s))
    ensures !Fits(s.field, s.piece.(y := Landing(s)))
    ensures s.phase != Lose ==> Fits(s.field, DropState(s).piece) && DropState(s).piece.y >= s.piece.y
    ensures forall y :: s.piece.y < y < Landing(s) ==> Fits(s.field, s.piece.(y := y))
  {
    DropLands(s.field, s.piece, s.piece.y + 1);
    forall y | s.piece.y < y < Landing(s)
      ensures Fits(s.field, s.piece.(y := y))
    {
      DrawFits(s.field, s.field, s.piece.(y := y), NoTarget);
    }
    DrawFits(s.field, s.field, s.piece.(y := Landing(s)), NoTarget);
    if Landing(s) - 1 != s.piece.y {
      DrawFits(s.field, s.field, s.piece.(y := Landing(s) - 1), NoTarget);
    } else {
      assert DropState(s) == s;
    }
  }

  /** What the switch of handle_input prepares keeps the invariant: the
      new pace stays in range, a paused game resumes with a fitting piece,
      and DOWN_INSTANT's piece ends where it still fits. */
  lemma InvPrepare(s: State, inp: Input, r1: nat)
    requires Inv(s) && (s.phase == Stopped ==> inp == Pause)
    ensures Inv(Prepare(s, inp, r1).s)
  {
    match inp
    case Faster => RescaleRange(s.stepNext, true);
    case Slower => RescaleRange(s.stepNext, false);
    case DownInstant => InvDrop(s);
    case _ =>
  }

  lemma InvDispatch(s: State, inp: Input, r1: nat, r2: nat)
    requires Inv(s) && (s.phase == Stopped ==> inp == Pause)
    ensures Inv(Dispatch(s, inp, r1, r2).0)
  {
    if inp == Restart {
      InitState(r1, r2);
    } else if !(inp == Pause && s.phase == InProgress) {
      InvPrepare(s, inp, r1);
      InvUpdate(Prepare(s, inp, r1).s, Prepare(s, inp, r1).np, Prepare(s, inp, r1).down, r1, r2);
    }
  }

  /** handle_input keeps the invariant. */
  lemma InvHandleInput(s: State, code: int, r1: nat, r2: nat)
    requires Inv(s)
    ensures Inv(HandleInput(s, code, r1, r2).0)
  {
    if !(s.phase == Stopped && code != Pause.Code()) && InputOf(code).Some? {
      InvDispatch(s, InputOf(code).value, r1, r2);
    }
  }

  // ---------------------------------------------------------------- handle_input

  /** While paused, every input but PAUSE is ignored, RESTART included; an
      unknown key is ignored in every phase.  Nothing is handed out. */
  lemma IgnoredInputs(s: State, code: int, r1: nat, r2: nat)
    requires Sized(s)
    requires (s.phase == Stopped && code != Pause.Code()) || !(0 <= code < 12)
    ensures HandleInput(s, code, r1, r2) == (s, None)
  {
  }

  /** A known key goes through the switch unless the game is paused and the
      key is not PAUSE. */
  lemma KnownKey(s: State, inp: Input, r1: nat, r2: nat)
    requires Sized(s) && (s.phase != Stopped || inp == Pause)
    ensures HandleInput(s, inp.Code(), r1, r2) == Dispatch(s, inp, r1, r2)
  {
    InputCodeRoundTrip(inp);
  }

  /** PAUSE stops a running game without handing out a state. */
  lemma PauseStops(s: State, r1: nat, r2: nat)
    requires Sized(s) && s.phase == InProgress
    ensures HandleInput(s, Pause.Code(), r1, r2) == (s.(phase := Stopped), None)
  {
    KnownKey(s, Pause, r1, r2);
  }

  /** PAUSE on a stopped game resumes it with the piece, the field and the
      score as they were, and hands out the canvas showing the piece. */
  lemma PauseResumes(s: State, r1: nat, r2: nat)
    requires Sized(s) && s.phase == Stopped && Fits(s.field, s.piece)
    ensures HandleInput(s, Pause.Code(), r1, r2) ==
      Respond(s.(phase := InProgress, canvas := Overlay(s.field, s.piece), showCanvas := true))
  {
    KnownKey(s, Pause, r1, r2);
    DispatchCommits(s, Pause, r1, r2);
    PauseMove(s, r1);
    UpdateMoves(s.(phase := InProgress), s.piece, false, r1, r2);
  }

  lemma PauseMove(s: State, r1: nat)
    requires Sized(s) && s.phase == Stopped
    ensures Prepare(s, Pause, r1) == Move(s.(phase := InProgress), s.piece, false)
  {
  }

  /** RESTART starts a new game unless the game is paused. */
  lemma RestartInits(s: State, r1: nat, r2: nat)
    requires Sized(s) && s.phase != Stopped
    ensures HandleInput(s, Restart.Code(), r1, r2) == (Init(r1, r2), None)
  {
    KnownKey(s, Restart, r1, r2);
  }

  /** A key that reaches update_state hands out what update_state makes of
      the prepared candidate. */
  lemma DispatchCommits(s: State, inp: Input, r1: nat, r2: nat)
    requires Sized(s) && inp != Restart && !(inp == Pause && s.phase == InProgress)
    ensures Dispatch(s, inp, r1, r2) ==
      Respond(UpdateState(Prepare(s, inp, r1).s, Prepare(s, inp, r1).np, Prepare(s, inp, r1).down, r1, r2))
  {
  }

  /** DOWN_INSTANT always locks: the piece is put at the lowest row it
      reaches by falling straight down (InvDrop) and locked there. */
  lemma HardDrop(s: State, r1: nat, r2: nat)
    requires Inv(s) && s.phase != Stopped
    ensures HandleInput(s, DownInstant.Code(), r1, r2) == Respond(Lock(DropState(s), r1, r2))
  {
    KnownKey(s, DownInstant, r1, r2);
    DispatchCommits(s, DownInstant, r1, r2);
    InvDrop(s);
    UpdateRefuses(DropState(s), s.piece.(y := Landing(s)), true, r1, r2);
  }

  // ---------------------------------------------------------------- handle_substep

  /** While paused, a substep changes nothing and hands out nothing. */
  lemma SubstepPaused(s: State, r1: nat, r2: nat)
    requires Sized(s) && s.phase == Stopped
    ensures HandleSubstep(s, r1, r2) == (s, None)
  {
  }

  /** A substep that does not use up the countdown only shortens it by
      STEP_TIME_GRANULARITY and hands out the state with the canvas. */
  lemma SubstepCounts(s: State, r1: nat, r2: nat)
    requires Sized(s) && s.phase != Stopped && s.stepCur > StepTimeGranularity
    ensures HandleSubstep(s, r1, r2) == Respond(Countdown(s))
  {
  }

  /** A substep that uses up the countdown reloads it from step_time_next
      and makes exactly one move down through update_state. */
  lemma SubstepFalls(s: State, r1: nat, r2: nat)
    requires Sized(s) && s.phase != Stopped && s.stepCur <= StepTimeGranularity
    ensures HandleSubstep(s, r1, r2) == Respond(Fall(s, r1, r2))
  {
  }

  lemma InvReload(s: State)
    requires Inv(s)
    ensures Inv(Reload(s))
    ensures s.stepCur > StepTimeGranularity ==> Inv(Countdown(s))
  {
  }

  /** The move down of handle_substep keeps the invariant. */
  lemma InvFall(s: State, r1: nat, r2: nat)
    requires Inv(s)
    ensures Inv(Fall(s, r1, r2))
  {
    InvReload(s);
    InvUpdate(Reload(s), Lower(s.piece), true, r1, r2);
  }

  /** handle_substep keeps the invariant. */
  lemma InvHandleSubstep(s: State, r1: nat, r2: nat)
    requires Inv(s)
    ensures Inv(HandleSubstep(s, r1, r2).0)
  {
    if s.phase != Stopped {
      if s.stepCur > StepTimeGranularity {
        SubstepCounts(s, r1, r2);
        InvReload(s);
      } else {
        SubstepFalls(s, r1, r2);
        InvFall(s, r1, r2);
      }
    }
  }
}

=== FILE: scores.dfy ===
/** The high-score table: the in-place bubble sorts and the step that
    admits a finished game's score. */
module Scores {
  import opened Defs

  /** NB_HIGH_SCORES_SHOWN: the entries of the table. */
  const HighScoresShown: nat := 10

  /** x may precede y in a list sorted descending (`desc`) or ascending. */
  predicate Before(x: int, y: int, desc: bool) {
    if desc then x >= y else x <= y
  }

  predicate Sorted(s: seq<U32>, desc: bool) {
    forall i, j :: 0 <= i < j < |s| ==> Before(s[i], s[j], desc)
  }

  /** The entries from m on are in order. */
  predicate SortedFrom(s: seq<U32>, m: nat, desc: bool) {
    forall i, j :: m <= i < j < |s| ==> Before(s[i], s[j], desc)
  }

  /** Every entry below m may precede every entry from m on. */
  predicate Partitioned(s: seq<U32>, m: nat, desc: bool) {
    forall i, j :: 0 <= i < m <= j < |s| ==> Before(s[i], s[j], desc)
  }

  /** The swap of list[d] and list[d + 1]. */
  method Swap(list: array<U32>, d: nat)
    requires d + 1 < list.Length
    modifies list
    ensures list[..] == old(list[..])[d := old(list[d + 1])][d + 1 := old(list[d])]
    ensures multiset(list[..]) == multiset(old(list[..]))
  {
    list[d], list[d + 1] := list[d + 1], list[d];
  }

  /** One iteration of the inner loop: u is t with t[d] and t[d + 1]
      swapped when they are out of order; the entry at d + 1 is then one
      every entry before it may precede. */
  lemma {:induction false} Step(t: seq<U32>, u: seq<U32>, m: nat, d: nat, desc: bool)
    requires d + 1 < m <= |t| && Partitioned(t, m, desc)
    requires forall k :: 0 <= k <= d ==> Before(t[k], t[d], desc)
    requires u == if Before(t[d], t[d + 1], desc) then t else t[d := t[d + 1]][d + 1 := t[d]]
    ensures u[m..] == t[m..] && Partitioned(u, m, desc)
    ensures forall k :: 0 <= k <= d + 1 ==> Before(u[k], u[d + 1], desc)
  {
    if !Before(t[d], t[d + 1], desc) {
      forall i, j | 0 <= i < m <= j < |u|
        ensures Before(u[i], u[j], desc)
      {
        if i == d { assert u[i] == t[d + 1]; }
        else if i == d + 1 { assert u[i] == t[d]; }
        else { assert u[i] == t[i]; }
      }
    }
  }

  /** One pass of the inner loop over list[..m]: adjacent entries out of
      order are swapped, so the last entry of the range ends up the one
      every other may precede; entries from m on stay put. */
  method Pass(list: array<U32>, m: nat, desc: bool)
    requires 1 <= m <= list.Length && Partitioned(list[..], m, desc)
    modifies list
    ensures multiset(list[..]) == multiset(old(list[..]))
    ensures list[m..] == old(list[m..]) && Partitioned(list[..], m, desc)
    ensures forall k :: 0 <= k < m ==> Before(list[k], list[m - 1], desc)
  {
    var d := 0;
    while d < m - 1
      invariant 0 <= d <= m - 1
      invariant multiset(list[..]) == multiset(old(list[..]))
      invariant list[m..] == old(list[m..]) && Partitioned(list[..], m, desc)
      invariant forall k :: 0 <= k <= d ==> Before(list[k], list[d], desc)
    {
      ghost var t := list[..];
      if !Before(list[d], list[d + 1], desc) {
        Swap(list, d);
      }
      Step(t, list[..], m, d, desc);
      d := d + 1;
    }
  }

  /** After a pass over list[..m], the entries from m - 1 on are in order
      and every entry below m - 1 may precede them. */
  lemma {:induction false} PassExtends(s: seq<U32>, m: nat, desc: bool)
    requires 1 <= m <= |s| && SortedFrom(s, m, desc) && Partitioned(s, m, desc)
    requires forall k :: 0 <= k < m ==> Before(s[k], s[m - 1], desc)
    ensures SortedFrom(s, m - 1, desc) && Partitioned(s, m - 1, desc)
  {
  }

  /** bubble_sort on list[0 .. n): the outer loop runs while c < n - 1, the
      inner loop over list[0 .. n - c - 1); `desc` selects the descending
      comparison (`list[d] < list[d+1]` swaps) or the ascending one
      (`list[d] > list[d+1]` swaps). */
  method BubbleSort(list: array<U32>, desc: bool)
    modifies list
    ensures Sorted(list[..], desc)
    ensures multiset(list[..]) == multiset(old(list[..]))
  {
    var n := list.Length;
    var c := 0;
    while c + 1 < n
      invariant 0 <= c <= n
      invariant multiset(list[..]) == multiset(old(list[..]))
      invariant SortedFrom(list[..], n - c, desc) && Partitioned(list[..], n - c, desc)
    {
      ghost var before := list[..];
      Pass(list, n - c, desc);
      assert SortedFrom(list[..], n - c, desc) by {
        assert list[n - c..] == before[n - c..];
        forall i, j | n - c <= i < j < n
          ensures Before(list[i], list[j], desc)
        {
          assert list[i] == before[i] && list[j] == before[j];
        }
      }
      PassExtends(list[..], n - c, desc);
      c := c + 1;
    }
  }

  /** common.c's bubble_sort: descending.  `n - 1` is a `size_t`, so the
      list must not be empty. */
  method SortDescending(list: array<U32>)
    requires list.Length >= 1
    modifies list
    ensures Sorted(list[..], true)
    ensures multiset(list[..]) == multiset(old(list[..]))
  {
    BubbleSort(list, true);
  }

  /** server.c's bubble_sort: ascending; `n` is a `long`, so an empty list
      skips the loops. */
  method SortAscending(list: array<U32>)
    modifies list
    ensures Sorted(list[..], false)
    ensures multiset(list[..]) == multiset(old(list[..]))
  {
    BubbleSort(list, false);
  }

  // ---------------------------------------------------------------- admission

  /** The high-score step as written: a score above the last entry
      replaces it and the table is sorted ascending again. */
  method Admit(table: array<U32>, score: U32)
    requires table.Length == HighScoresShown
    modifies table
    ensures score > old(table[HighScoresShown - 1]) ==>
      Sorted(table[..], false) && multiset(table[..]) == multiset(old(table[..])[HighScoresShown - 1 := score])
    ensures score <= old(table[HighScoresShown - 1]) ==> table[..] == old(table[..])
  {
    if score > table[HighScoresShown - 1] {
      table[HighScoresShown - 1] := score;
      SortAscending(table);
    }
  }

  /** The step as the comment on it means it: the last entry of a table
      kept descending is the lowest, and a score above it replaces it. */
  method AdmitDescending(table: array<U32>, score: U32)
    requires table.Length == HighScoresShown
    modifies table
    ensures score > old(table[HighScoresShown - 1]) ==>
      Sorted(table[..], true) && multiset(table[..]) == multiset(old(table[..])[HighScoresShown - 1 := score])
    ensures score <= old(table[HighScoresShown - 1]) ==> table[..] == old(table[..])
  {
    if score > table[HighScoresShown - 1] {
      table[HighScoresShown - 1] := score;
      SortDescending(table);
    }
  }

  /** Replacing the last entry of a sorted table drops that entry, which
      every other entry may precede: in an ascending table the highest
      score, in a descending table the lowest. */
  lemma {:induction false} LastEntryDropped(s: seq<U32>, score: U32, desc: bool)
    requires |s| == HighScoresShown && Sorted(s, desc)
    ensures forall k :: 0 <= k < |s| ==> Before(s[k], s[HighScoresShown - 1], desc)
    ensures multiset(s[HighScoresShown - 1 := score])
         == multiset(s) - multiset{s[HighScoresShown - 1]} + multiset{score}
  {
    var s' := s[HighScoresShown - 1 := score];
    assert s == s[..HighScoresShown - 1] + [s[HighScoresShown - 1]];
    assert s' == s[..HighScoresShown - 1] + [score];
  }

  /** In an ascending table whose last entry is the unique maximum, the
      step as written loses the best score. */
  lemma {:induction false} AdmitLosesMaximum(s: seq<U32>, score: U32)
    requires |s| == HighScoresShown && Sorted(s, false)
    requires score > s[HighScoresShown - 1] > s[HighScoresShown - 2]
    ensures s[HighScoresShown - 1] !in s[HighScoresShown - 1 := score]
  {
    var t := s[HighScoresShown - 1 := score];
    forall k | 0 <= k < HighScoresShown
      ensures t[k] != s[HighScoresShown - 1]
    {
      if k < HighScoresShown - 1 {
        assert Before(s[k], s[HighScoresShown - 2], false) || k == HighScoresShown - 2;
      }
    }
  }

  /** Nine zeros and a 5, then a 7 arrives: as written the 5 is lost;
      the descending table (a 5 and nine zeros) keeps it. */
  lemma AdmitExample()
    ensures var s := seq(HighScoresShown, i => if i == 9 then 5 else 0);
      Sorted(s, false) && 5 !in s[9 := 7]
    ensures var s := seq(HighScoresShown, i => if i == 0 then 5 else 0);
      Sorted(s, true) && 7 > s[9] && 5 in s[9 := 7]
  {
    var s := seq(HighScoresShown, i => if i == 9 then 5 else 0);
    AdmitLosesMaximum(s, 7);
    var d := seq(HighScoresShown, i => if i == 0 then 5 else 0);
    assert d[9 := 7][0] == 5;
  }
}
